=== FILE: README.md ===
# Curling card game: a Dafny model

This project models the two versions of the "curling" card game in
`curling2.py` and `curling.py`. The game is played on an odd-sized square
board whose centre holds an immovable joker. Each player holds the thirteen
cards of one suit. In the fill phase a player places a card on an empty
cell. Once no cell is empty, a player pushes a card into a row or column
from the rim: every card of that line moves one step, the joker keeps its
place, and the card at the far end falls off onto the discard pile. A player
scores the cards of their suit next to the joker when their turn comes:
once for each diagonal neighbour and twice for each orthogonal one. When the
player to move has no cards left, every player scores the board once more
and the game is over.

`curling2.py` makes every move reversible (`update(..., undo=True)`,
`unmake_move`). Its look-ahead player (`AITreeSearch`) uses this to make,
evaluate and unmake candidate moves. `curling.py` is the older,
non-reversible version, with free functions `turn` and `final`.

The model is functional. A board is a value (`Board2.Board`: size, a grid
`seq<seq<Cell>>` of `Empty | Joker | Occupied(card)`, and the final flag),
and so is a game (`Game2.Game`, `Game1.State`). Every operation returns a
new value or an `Err` naming the exception or error string of the source.
The modules follow the source:

- `Cards`: card values and dealing.
- `Grid`: `get_empty` and transposition.
- `Lines`: the push-one-line step that both versions share.
- `Board2`, `Board2Invariants`: `Board` of curling2.py.
- `Game2`, `Game2Undo`, `Game2Equiv`: `Player` and `Game` of curling2.py.
- `Search`, `SearchRestore`: `AITreeSearch`.
- `Board1`, `Game1`: curling.py.

The main results:

- `update` followed by its undo gives back the board exactly (`Board2.UpdateUndoRoundTrip`).
- `unmake_move` after `make_move` gives back the game exactly, except that the card played returns at the end of the mover's hand (`Game2Undo.MakeUnmake`).
- The search picks the first ply that is best for the player to move (`Search.TreeSearchChoosesFirstMax`).
- The search leaves the game as it found it, up to hand order (`SearchRestore.TreeSearchRestores`).
- The board of curling.py does what the board of curling2.py does, with two exceptions (`Board1.UpdateAgrees`). An insertion into the middle column of a 3x3 board fails in curling.py. An insertion from the bottom reports the bottom-left card as evicted in curling.py (line 145); the agreement is proved for the corrected eviction, the top card of the column (see Findings).

Some behaviour of the code is easy to misread, and the model follows the code:

- `unplay` appends the card to the hand, so after an undo the hand comes back as a permutation of itself, with the played card at its end.
- `tree_search` keeps the first of equally good plies, in the order `enum_plies` yields them: the highest card before the lowest, and targets in the order listed. It does not choose among them at random.
- A move that ends the game sets `depth = 0`, and that value carries over to the plies tried after it.
- `AITreeSearch.make_move` searches the live game, not a private copy of it.

## Model

| member | source | states |
|---|---|---|
| Cards.NewCard | curling2.py:8-23 | Values are '*' 0, J/Q/K 10, A 1, and otherwise the integer the name spells. A name that is not a number fails. The name '10' is stored as '0', and the suit is kept. |
| Cards.NewCardOld | curling.py:8-23 | As in curling2.py, except that 'Jkr' is also worth 0. |
| Cards.Deal | curling2.py:196-202 | A new player holds 13 cards of their own suit. Each is worth 1 to 10, and no two share a name. |
| Cards.DealAgreesWithNewCard | curling2.py:201-202 | Each dealt card is the card `Card(name, suit)` builds from the dealer's list K, Q, J, A, 2..10. |
| Cards.ParseDecimalString | curling2.py:10-20 | A number's decimal name reads back as that number, so `Card(n, suit)` for n in 2..10 is worth n. |
| Grid.GetEmpty | curling2.py:71-75 | The result holds exactly the 1-based (r+1, c+1) coordinates of the empty cells, in row-major order. It is empty exactly when no cell is empty. |
| Grid.Transpose | curling2.py:122-124 | `zip(*cards)` gives a square grid whose cell (r, c) is the original's cell (c, r). |
| Grid.TransposeTwice | curling2.py:122-124 | Transposing twice gives back the grid. |
| Grid.ColumnViaTranspose | curling2.py:122-156 | Replacing line k of the transposed grid and transposing back changes column k only. |
| Lines.Insert | curling2.py:137-151 | The new card lands at the near end. Every other card moves one step away from it. In the joker's line the joker keeps its place and its two neighbours jump over it. |
| Lines.PopInsert | curling2.py:146-147 | `insert(jp, pop(jp + 1))` swaps positions jp and jp + 1 and leaves the rest alone. |
| Lines.InsertRoundTrip | curling2.py:120-151 | Pushing the evicted far-end card in from the other end gives back the original line. |
| Lines.InsertConserves | curling2.py:143-147 | The line after the push plus the evicted card hold the same cards as the line before plus the card pushed in. |
| Board2.NewBoard | curling2.py:42-54 | Cells are empty when listed, the joker at the centre, and '*' placeholders elsewhere. The board starts not final. |
| Board2.NewBoardWellFormed | curling2.py:42-54 | The board has exactly one joker, at the centre, exactly when the centre is not listed as empty. |
| Board2.DefaultBoardWellFormed | curling2.py:51-52 | The standard 5x5 board with its 12 empty rim cells is well formed. |
| Board2.DefaultBoardEmpties | curling2.py:51-54 | `get_empty` on the standard board reports each of the 12 listed cells. |
| Board2.Score | curling2.py:55-58 | On a board that is not final, the score is the own-suit values of the four diagonal neighbours of the joker plus twice those of its four orthogonal neighbours. A final board fails with the scoring error. |
| Board2.ScoreNonNegative | curling2.py:77-86 | A well-formed board that is not final scores at least 0. |
| Board2.FinaliseRoundTrip | curling2.py:65-69 | `unfinalise` undoes `finalise`, and a finalised board refuses to score. |
| Board2.Shift | curling2.py:116-135 | A shift fails exactly when the coordinate is not a rim slot, that is when neither the row nor the column is in 1..size with the other in {0, size+1}. |
| Board2.UpdateFillPhase | curling2.py:99-110 | In the fill phase, a move succeeds exactly when its target is an empty cell. It then writes only that cell and reports 'Insert'. Otherwise it fails with the list of empty cells. |
| Board2.Update | curling2.py:88-159 | Undoing a shift without a card fails. While a cell is empty, a move succeeds exactly when it names one of the empty cells, reports 'Insert', and otherwise fails with the list of empty cells. Once none is empty, a move succeeds exactly on a rim slot and evicts a cell, and otherwise fails with 'Invalid row/column'. Undoing a placement succeeds exactly when both coordinates are valid Python indices, negative ones included, and otherwise raises IndexError. Undoing a shift with a card succeeds exactly on a rim slot whose pushed-off cell is not empty. It then is the shift from the other side. Off the rim it fails with 'Invalid row/column', and on an empty pushed-off cell it fails with the AttributeError of line 158. |
| Board2.UndoInsertCells | curling2.py:111-114 | Undoing a placement clears the cell at (row - 1) mod size, (column - 1) mod size, which is Python's reading of a negative index, and leaves every other cell alone. |
| Board2.UndoNegativeExample | curling2.py:111-114 | On a 3x3 board, undoing a placement at row -1, column 2 clears the middle cell, the joker. |
| Board2.UndoEvictsEmptyExample | curling2.py:137-158 | Undoing a shift that would push an empty cell off the board fails. |
| Grid.PyIndex | curling2.py:112 | An index from -n to n - 1 reads position `i mod n`, as Python's list indexing does. |
| Board2.ShiftRow | curling2.py:117-159 | A row insertion changes only its row. The card lands at the entry end and every other cell moves one step away, except that the joker stays put. The far-end card is evicted. |
| Board2.ShiftColumn | curling2.py:122-159 | A column insertion moves the cells of its column the same way and leaves every other column alone. The far-end cell is evicted. |
| Board2.ShiftRoundTrip | curling2.py:116-159 | A shift followed by the shift from the opposite side with the evicted card gives back the board. The undo evicts the card first pushed in. |
| Board2.FillUndo | curling2.py:99-114 | Undoing a fill-phase placement clears the cell again. |
| Board2.ShiftUndo | curling2.py:116-159 | Undoing a shift-phase move gives back the board and evicts the card that was played. |
| Board2.UpdateUndoRoundTrip | curling2.py:88-159 | `update(ply)` followed by `update(ply, undo=True, undiscard=evicted)` gives back the board exactly, in both phases. |
| Board2.ShiftEvictsACard | curling2.py:143 | Once no cell is empty, a shift always evicts a real cell, never an empty one. |
| Board2.EvictedFrom | curling2.py:138-143 | The evicted cell is the board's cell at the far end of the line shifted. |
| Board2Invariants.UpdateWellFormed | curling2.py:88-159 | After any move with a card of non-negative value, the joker is still the only joker and sits at the centre. This holds for insertions into its own row or column too. |
| Board2Invariants.ShiftWellFormed | curling2.py:137-159 | A shift of any rim slot with a placeable card keeps the board well formed. |
| Game2.Play | curling2.py:217-225 | `play` succeeds exactly when the card is in hand, removing one copy of it. The name, suit and score are kept. Otherwise it fails with 'not in hand'. |
| Game2.Unplay | curling2.py:227-233 | `unplay` succeeds exactly when the card is not in hand, and appends it to the end of the hand. Otherwise it fails. |
| Game2.PlayUnplay | curling2.py:217-233 | `play` then `unplay` of a held card leaves the same cards, with that card moved to the end. |
| Game2.AlterScore | curling2.py:235-239 | The score changes by exactly the delta, and nothing else changes. A delta above 500 fails. |
| Game2.AlterScoreRoundTrip | curling2.py:235-239 | Altering by d and then by -d gives back the player. |
| Game2.PrevNext | curling2.py:510-538 | The turn step `(t - 1) % n` undoes `(t + 1) % n` and the reverse. |
| Game2.CreditAll | curling2.py:552-554 | Crediting every player adds each one's board score, times the sign. It fails on a final board or on a credit above 500. |
| Game2.Final | curling2.py:548-562 | `final` succeeds exactly when the board is not final and no credit exceeds 500. It then credits every player with the board score for their suit, finalises the board and ends the game. The discard pile, turn and history are left alone. |
| Game2.Unfinal | curling2.py:564-572 | `unfinal` reopens the board and the game and debits every player the score of the reopened board for their suit. Nothing else changes. |
| Game2.Settle | curling2.py:512-517 | When the player to move has no cards, the board is finalised and every player is credited with their board score. Otherwise only that player is credited. The game is over exactly when it already was or that hand is empty. The discard pile, turn and history are left alone. |
| Game2.DiscardRoundTrip | curling2.py:505-507 | Popping the discard pile after an eviction, and leaving it alone after an insert, undoes the push. |
| Game2.MakeMove | curling2.py:501-524 | A shift off the rim fails with the board's 'Invalid row/column'. A placement off the empty cells gets no outcome from `update`, so `make_move` raises its own 'Invalid value for discard'. A card not in hand fails with 'not in hand'. A move that succeeds leaves `update`'s board, finalised exactly when the next player has no cards, which ends the game. It appends (ply, outcome) to the history, pushes any evicted cell onto the discard pile and advances the turn modulo the player count. |
| Game2.MakeMoveEffect | curling2.py:501-517 | The card leaves the mover's hand and no other hand, name or suit changes. The next player is credited with the new board's score, or every player is when the next hand is empty; no other score changes. |
| Game2.UnmakeMove | curling2.py:526-546 | Undo fails on an empty history. Otherwise it pops the history, steps the turn back and reopens the game. |
| Game2Undo.FinalUnfinal | curling2.py:548-572 | `unfinal` after `final` gives back every score and the board, with the game reopened. |
| Game2Undo.CreditAllBack | curling2.py:552-569 | Debiting every player's board score takes back the credit. |
| Game2Undo.CreditDebit | curling2.py:517 | A credit to the next player is taken back by the matching debit. |
| Game2Undo.StartGameWF | curling2.py:439-467 | A game set up from a new board whose centre is not listed empty, with freshly dealt players, satisfies the invariant that every move keeps. |
| Game2Undo.SettleUnsettle | curling2.py:512-536 | The settling tail of `make_move` is undone by the head of `unmake_move`. |
| Game2Undo.MakeUnmake | curling2.py:501-572 | `unmake_move` after `make_move` gives back the board, discard pile, history, turn, every score and the game-over flag exactly. The mover's hand holds the same cards, with the one played now at its end. |
| Game2Equiv.MakeUnmakeEquiv | curling2.py:501-572 | The same round trip, stated as equivalence: every field is equal and the hands are equal as multisets. |
| Game2Equiv.UnmakeEquiv | curling2.py:526-546 | Equivalent games undo to equivalent games. |
| Game2Equiv.MakeMoveWellFormed | curling2.py:501-524 | A move keeps the game well formed: a well-formed board, final exactly when the game is over, and hands without duplicates. |
| Game2Equiv.GameOverAfterMove | curling2.py:510-515 | A move ends the game exactly when the game was over or the next player's hand was empty after the play. |
| Search.MaxIndex | curling2.py:330 | The first card of highest value in the hand, which is where the stable descending sort puts it. |
| Search.MinIndex | curling2.py:330 | The last card of lowest value in the hand, which is where the stable descending sort puts it. |
| Search.CardChoices | curling2.py:330-345 | The choices are the first card of highest value and, when the hand has more than one card, the last card of lowest value; nothing else is chosen. |
| Search.RimSlots | curling2.py:335-339 | There are 4·size coordinates, each a rim slot. |
| Search.RimSlotsComplete | curling2.py:335-339 | Every rim slot is among them. |
| Search.EnumPlies | curling2.py:327-349 | `enum_plies` fails exactly on an empty hand. Otherwise it yields the highest card at every target in target order, then, if the hand has two or more cards, the lowest card at every target in the same order. |
| Search.EnumPliesLegal | curling2.py:327-349 | Every candidate plays one of the card choices at a target that is an empty cell or, once no cell is empty, a rim slot. The highest card is tried at every target, and so is the lowest when the hand holds more than one card. |
| Search.MaxScore | curling2.py:399-406 | The running maximum starts at 0. It bounds every score and equals one of them unless it is 0. |
| Search.WinnerScanSpec | curling2.py:399-406 | The scan ends with the maximum score and exactly the players who have it. |
| Search.TerminalEval | curling2.py:398-414 | A finished game gives 10000 to every player whose score is the maximum (counting a floor of 0) and -10000 to the rest. |
| Search.SelectBestIsFirstMax | curling2.py:368-370 | The selected index is the first whose value for the mover is at least every sibling's and strictly above every earlier one's. It fails only when a value vector is too short. |
| Search.TreeSearch | curling2.py:352-372 | The search fails on an empty hand. A search that succeeds returns one of the candidate plies. |
| Search.TreeSearchChoosesFirstMax | curling2.py:352-372 | `tree_search` returns a candidate ply together with its value, and that ply is the first maximum for the player to move. |
| Search.GameOverAlike | curling2.py:359-360 | Whether a ply ends the game is the same for every sibling, so the depth left at 0 changes no later choice. |
| SearchRestore.VisitRestores | curling2.py:357-367 | Each make, evaluate or recurse, and unmake leaves a game equivalent to the one it started from. |
| SearchRestore.TreeSearchRestores | curling2.py:352-372 | `tree_search` leaves the game equivalent to the one it was given. |
| Board1.Score | curling.py:80-87 | A final board scores 0. Otherwise the score is curling2.py's weighted sum. |
| Board1.ScoreNonNegative | curling.py:80-87 | A well-formed board never scores below 0. |
| Board1.RowInsertAgrees | curling.py:106-121 | `[card] + row[:-1]` and `row[1:] + [card]`, with the explicit joker splicing in the middle row, equal curling2.py's reverse-and-push line step. |
| Board1.MoveDownCells | curling.py:135-142 | Each downward copy loop sets the rows in its range to the cell above and leaves every other cell alone. |
| Board1.MoveUpCells | curling.py:147-154 | Each upward copy loop sets the rows in its range to the cell below and leaves every other cell alone. |
| Board1.FromTop | curling.py:131-143 | The card lands in the top cell of the column. The moves fail exactly for the middle column of a 3x3 board, with the unbound-counter error. |
| Board1.FromBottom | curling.py:144-155 | The card lands in the bottom cell of the column, with the same single failure. |
| Board1.FromTopAgrees | curling.py:131-143 | The in-place moves from the top equal curling2.py's transposed shift from the front. They fail exactly for the middle column of a 3x3 board. |
| Board1.FromBottomAgrees | curling.py:144-155 | The in-place moves from the bottom equal curling2.py's shift from the back, with the same single failure. |
| Board1.TopSmallMiddle | curling.py:133-137 | On a 3x3 board the first loop over the middle column never runs, so line 137 reads an unbound `i`. |
| Board1.BottomSmallMiddle | curling.py:146-149 | The same holds from the bottom, at line 149. |
| Board1.RowShiftAgrees | curling.py:106-129 | A row insertion gives the same board and evicted card as curling2.py. |
| Board1.TopShiftAgrees | curling.py:130-143 | A top insertion gives the same board and evicted card as curling2.py, except for the 3x3 middle column. |
| Board1.BottomShiftAgrees | curling.py:144-155 | A bottom insertion, with the corrected eviction, gives the same as curling2.py, except for the 3x3 middle column. |
| Board1.ShiftAgrees | curling.py:106-165 | A shift-phase update equals curling2.py's, including 'Invalid row/column' for non-rim coordinates, except for the 3x3 middle column. A bottom insertion is compared with the corrected eviction, not line 145 as written. |
| Board1.UpdateAgrees | curling.py:89-168 | `update` equals curling2.py's `update` for a move that is not an undo, in both phases, except for the 3x3 middle column. A bottom insertion is compared with the corrected eviction, not line 145 as written. |
| Board1.Update | curling.py:89-168 | While a cell is empty, a move succeeds exactly on an empty cell, writes the card there and reports 'Insert'; otherwise it fails with the empty cells. Once none is empty, it fails exactly off the rim slots and on the 3x3 middle column. |
| Board1.ShiftOutcome | curling.py:106-165 | A shift fails exactly off the rim slots, with 'Invalid row/column', and on the 3x3 middle column, with the unbound-counter error. Otherwise the card lands at the entry end and the cell at the far end of the line is evicted; from the bottom that is the top cell of the column. |
| Board1.UpdateWellFormed | curling.py:89-168 | The joker stays the only joker, at the centre, after every update. |
| Board1.ColumnConserves | curling2.py:137-159 | A column shift from either end loses and duplicates nothing: the column after the shift plus the evicted far-end cell hold the same cards as the column before plus the card pushed in. |
| Board1.BottomEvictedAsWrittenStaysOnBoard | curling.py:145 | The cell line 145 reports as evicted is still on the board after the shift. |
| Board1.BottomEvictedAsWrittenExample | curling.py:145 | On a 5x5 board, inserting into column 2 from the bottom reports the bottom-left card but pushes off the top card of column 2. |
| Board1.BottomEvictedConserves | curling.py:144-155 | With the top cell of the column as the evicted one, the shift conserves cards. |
| Game1.InHand | curling.py:207-211 | `in_hand` finds the first card with that name, and finds none exactly when no card has it. |
| Game1.NameIndex | curling.py:318-320 | The search loop stops at the first player with the name, or at the last player. |
| Game1.NameIndexOfMover | curling.py:318-320 | With distinct names the loop finds the mover's own index. |
| Game1.NextTurnIsNext | curling.py:321-324 | Wrapping from the last player to 0 is the modular step of curling2.py. |
| Game1.Turn | curling.py:289-333 | A card not in hand gives 'Please pick card again'. Otherwise `turn` fails exactly when the board refuses the move, with the board's error, and a turn taken leaves the board `update` produced. |
| Game1.TurnEffect | curling.py:289-332 | A successful turn removes the card from the mover's hand, pushes any evicted card onto the discard pile (for a bottom insertion, the corrected one: the top card of the column) and passes the turn on. It credits only the next player, with their suit's score on the new board, and touches no other hand or score. |
| Game1.TurnWellFormed | curling.py:289-332 | A turn keeps the board well formed. |
| Game1.TurnAgrees | curling.py:289-333 | When neither game ends and the move is not into the middle column of a 3x3 board, `turn` gives the same board, players, discard pile and turn as curling2.py's `make_move`, with the corrected eviction for a bottom insertion. |
| Game1.Final | curling.py:336-348 | `final` credits each player's board score and finalises the board. Everything else is kept. |
| Game1.FinalIdempotent | curling.py:336-348 | A second `final` changes nothing: a final board scores 0. |
| Game1.FinalAgrees | curling.py:340-348 | On a board that is not final, scores and board agree with curling2.py's `final`. |
| Game1.Winner | curling.py:347 | `max(..., key=score)` is the first player with the highest score. |

## Left out

- Persistence is not modelled. This covers `dump`/`load`, pickle, `Game.__init__` file loading, `setup` and `information`. It is I/O.
- Console play is not modelled: `HumanPlayer.make_move`, `text_turn`, `Game.gameloop` and `Game.turn`. These are input loops.
- `__repr__`, `statement()` and the text half of `statement_and_score` are not modelled. They are presentation; the score half is in `Game1.TurnEffect`.
- The global `PRINT` flag, `main` and `averages` are left out. They are printing and simulation drivers.
- The random players `AIPlayer.make_move`, `random_ai_turn` and `one_set_ai` are left out because they draw on `random`. Their deterministic card choice is `Search.MaxIndex`.
- The heuristic for unfinished games (curling2.py:378-397) is the parameter `h` of the search. It is floating-point arithmetic.
- `AITreeSearch.make_move` is not modelled. It re-links the chosen card by name and toggles `PRINT`, and the search runs on the game it is given.
- The `played` and `discarded` flags of cards are not modelled. An undo sets `discarded` on the wrong card, so they do not round-trip.
- Card identity is value equality on (name, suit, value). Hands are assumed to hold each card once, which dealing guarantees.
- Boards of even size are left out: the joker correction after reversal only works for odd sizes. Every board operation requires an odd size of at least 3.
- `AiBoard.test` (curling.py:184-193) is left out. It is a copy, an update and a score.
- Python's `int(name)` also accepts surrounding blanks, digit-separating underscores and non-ASCII decimal digits such as '٣'. `Cards.ParseInt` accepts only an optional sign followed by ASCII digits. Card names are all ASCII.
- Game2.MakeMove: the model returns an error and keeps the old game, while the source has already changed it before raising. When a placement is off the empty cells, the ply is appended to the history first. When the card is not in hand, the board is already updated, the ply appended and the evicted cell discarded.
- Game2.Final: when a credit above 500 makes `alter_score` raise, the source has already set `gameover` and credited the players before that one. The model returns an error and keeps the old game.
- Game2Undo.MakeUnmake: the hand comes back as a permutation, with the played card at its end, not in its original order. The source's `unplay` appends.
- SearchRestore.TreeSearchRestores: the search restores the game up to the order of hands (`Game2Equiv.Equiv`), for the same reason.
- Board2.Update: when an undo of a shift pushes off an empty cell, the source has already rewritten the line before line 158 raises. The model returns an error and keeps the old board. `make_move` and `unmake_move` never reach this case.
- Board1.UpdateAgrees: on a 3x3 board an insertion into the middle column is an unbound-variable error in curling.py, so agreement is claimed for every other move. It also uses the corrected eviction for a bottom insertion; as written, curling.py reports a different card (see Findings).
- Board1.ShiftAgrees: the same two limits as `Board1.UpdateAgrees`.
- Game1.TurnAgrees: requires distinct player names and a move that does not end the game. curling.py's `turn` finds the mover by name and never settles the game itself. It also excludes the middle column of a 3x3 board, where curling.py raises an unbound-variable error. A bottom insertion is compared with the corrected eviction, not the bottom-left card that curling.py line 145 appends to `discarded`.
- Game1.TurnEffect: a bottom insertion discards the top card of the column in the model, but the bottom-left card in curling.py (lines 145 and 312-315); see Findings.
- Board1.ShiftOutcome: the evicted card of a bottom insertion is the corrected one, not the bottom-left card that line 145 reads; see Findings.
- Termination after 39 moves is not modelled. The model has no driver loop.

## Findings

| source | as written | input that shows it | evidently intended | confidence | as-written member | corrected member |
|---|---|---|---|---|---|---|
| curling.py:145 | A card inserted from the bottom reports `self._cards[self.size - 1][0]` as evicted, the bottom-left cell, whatever the column. | A 5x5 board with distinct cards, inserting from row 6 into column 2: the bottom-left card is reported, and the top card of column 2 is the one lost. | `self._cards[0][column - 1]`, the top cell of the column, which the shift pushes off. | not executed | Board1.BottomEvictedAsWritten (shown by Board1.BottomEvictedAsWrittenExample and Board1.BottomEvictedAsWrittenStaysOnBoard) | Board1.BottomEvicted (proved by Board1.BottomEvictedConserves; used by Board1.Shift) |

=== FILE: board1.dfy ===
/** The older, non-reversible board of curling.py (`Board`, lines 43-168).
    It keeps the same grid, cells and scoring tiers as the board of
    curling2.py, so it is the same `Board2.Board` value; what differs is the
    code that works on it: a finalised board scores 0 instead of failing, row
    insertion is written out with explicit joker splicing, and column
    insertion moves the cells of the column one at a time. */
module Board1 {
  import opened Results
  import opened Cards
  import opened Lines
  import opened Grid
  import Board2
  import Board2Invariants

  type Board = Board2.Board

  // ---------------------------------------------------------------- scoring

  /** `score(suit)`: 0 on a finalised board, otherwise the same weighted sum
      over the joker's neighbours as the board of curling2.py computes. */
  function Score(b: Board, suit: string): (r: int)
    requires Square(b.cells, b.size) && b.size >= 3
    ensures b.final ==> r == 0
    ensures !b.final ==> Board2.Score(b, suit) == Ok(r)
  {
    if b.final then 0
    else Board2.WeightedPoints(b.cells, b.size, Board2.ScoringPositions(Board2.JokerPos(b.size)), suit)
  }

  /** A well-formed board never scores below 0, final or not. */
  lemma ScoreNonNegative(b: Board, suit: string)
    requires Board2.WellFormed(b)
    ensures Score(b, suit) >= 0
  {
    if !b.final {
      Board2.ScoreNonNegative(b, suit);
    }
  }

  // ---------------------------------------------------------- row insertion

  /** Row insertion from the left (lines 108-114): `[card] + row[:-1]`; in
      the joker's row the joker is spliced back in at `joker_pos` and the card
      that was left of it jumps over it. */
  function RowFromLeft(line: seq<Cell>, x: Cell, jokerRow: bool): (r: seq<Cell>)
    requires OddLine(|line|)
    ensures |r| == |line|
  {
    var n, jp := |line|, |line| / 2;
    if jokerRow then [x] + line[..jp - 1] + [Joker] + [line[jp - 1]] + line[jp + 1..n - 1]
    else [x] + line[..n - 1]
  }

  /** Row insertion from the right (lines 115-121): `row[1:] + [card]`, with
      the same splicing in the joker's row. */
  function RowFromRight(line: seq<Cell>, x: Cell, jokerRow: bool): (r: seq<Cell>)
    requires OddLine(|line|)
    ensures |r| == |line|
  {
    var jp := |line| / 2;
    if jokerRow then line[1..jp] + [line[jp + 1]] + [Joker] + line[jp + 2..] + [x]
    else line[1..] + [x]
  }

  /** The spliced rows are exactly what curling2.py's single push-and-evict
      primitive produces, provided the joker's row has the joker in its
      middle. */
  lemma RowInsertAgrees(line: seq<Cell>, x: Cell, jokerRow: bool)
    requires OddLine(|line|) && (jokerRow ==> line[|line| / 2] == Joker)
    ensures RowFromLeft(line, x, jokerRow) == Insert(line, x, true, jokerRow)
    ensures RowFromRight(line, x, jokerRow) == Insert(line, x, false, jokerRow)
  {
    if jokerRow {
      LeftJokerRow(line, x);
      RightJokerRow(line, x);
    }
  }

  lemma LeftJokerRow(line: seq<Cell>, x: Cell)
    requires OddLine(|line|) && line[|line| / 2] == Joker
    ensures RowFromLeft(line, x, true) == Insert(line, x, true, true)
  {
    LeftJokerCells(line, x, RowFromLeft(line, x, true), Insert(line, x, true, true));
  }

  lemma LeftJokerCells(line: seq<Cell>, x: Cell, got: seq<Cell>, want: seq<Cell>)
    requires OddLine(|line|) && line[|line| / 2] == Joker
    requires got == RowFromLeft(line, x, true) && want == Insert(line, x, true, true)
    ensures got == want
  {
    var jp := Board2.JokerPos(|line|);
    assert got == [x] + line[..jp - 1] + [Joker] + [line[jp - 1]] + line[jp + 1..|line| - 1];
    forall i | 0 <= i < |line| ensures got[i] == want[i] {
      LeftJokerCell(line, x, jp, got, want, i);
    }
  }

  lemma LeftJokerCell(line: seq<Cell>, x: Cell, jp: nat, got: seq<Cell>, want: seq<Cell>, i: nat)
    requires OddLine(|line|) && jp == Board2.JokerPos(|line|) && line[jp] == Joker && i < |line|
    requires got == [x] + line[..jp - 1] + [Joker] + [line[jp - 1]] + line[jp + 1..|line| - 1]
    requires want == Insert(line, x, true, true)
    ensures got[i] == want[i]
  {
    if i == 0 {
    } else if i < jp {
      assert got[i] == line[i - 1];
    } else if i == jp {
    } else if i == jp + 1 {
    } else {
      assert got[i] == line[i - 1];
    }
  }

  lemma RightJokerRow(line: seq<Cell>, x: Cell)
    requires OddLine(|line|) && line[|line| / 2] == Joker
    ensures RowFromRight(line, x, true) == Insert(line, x, false, true)
  {
    RightJokerCells(line, x, RowFromRight(line, x, true), Insert(line, x, false, true));
  }

  lemma RightJokerCells(line: seq<Cell>, x: Cell, got: seq<Cell>, want: seq<Cell>)
    requires OddLine(|line|) && line[|line| / 2] == Joker
    requires got == RowFromRight(line, x, true) && want == Insert(line, x, false, true)
    ensures got == want
  {
    var jp := Board2.JokerPos(|line|);
    assert got == line[1..jp] + [line[jp + 1]] + [Joker] + line[jp + 2..] + [x];
    forall i | 0 <= i < |line| ensures got[i] == want[i] {
      RightJokerCell(line, x, jp, got, want, i);
    }
  }

  lemma RightJokerCell(line: seq<Cell>, x: Cell, jp: nat, got: seq<Cell>, want: seq<Cell>, i: nat)
    requires OddLine(|line|) && jp == Board2.JokerPos(|line|) && line[jp] == Joker && i < |line|
    requires got == line[1..jp] + [line[jp + 1]] + [Joker] + line[jp + 2..] + [x]
    requires want == Insert(line, x, false, true)
    ensures got[i] == want[i]
  {
    if i < jp - 1 {
      assert got[i] == line[i + 1];
    } else if i == jp - 1 {
    } else if i == jp {
    } else if i < |line| - 1 {
      assert got[i] == line[i + 1];
    } else {
    }
  }

  // ------------------------------------------------------- column insertion

  /** One of the downward loops of lines 135-142: for r from `hi` down to
      `lo`, the cell of column `k` in row r takes the cell above it.  Going
      from the bottom up, every read sees a cell not yet overwritten. */
  function MoveDown(g: Grid, n: nat, k: nat, hi: int, lo: nat): (g': Grid)
    requires Square(g, n) && k < n && 1 <= lo && hi < n
    ensures Square(g', n)
    decreases hi - lo + 1
  {
    if hi < lo then g
    else MoveDown(Board2.SetCell(g, hi, k, g[hi - 1][k]), n, k, hi - 1, lo)
  }

  /** One of the upward loops of lines 147-154: for r from `lo` up to `hi`,
      the cell of column `k` in row r takes the cell below it. */
  function MoveUp(g: Grid, n: nat, k: nat, lo: nat, hi: int): (g': Grid)
    requires Square(g, n) && k < n && hi + 1 < n
    ensures Square(g', n)
    decreases hi - lo + 1
  {
    if hi < lo then g
    else MoveUp(Board2.SetCell(g, lo, k, g[lo + 1][k]), n, k, lo + 1, hi)
  }

  /** After `MoveDown`, rows `lo..hi` of column `k` hold the cells that were
      one row higher; nothing else has changed. */
  lemma {:induction false} MoveDownCells(g: Grid, n: nat, k: nat, hi: int, lo: nat)
    requires Square(g, n) && k < n && 1 <= lo && hi < n
    ensures forall i, j {:trigger MoveDown(g, n, k, hi, lo)[i][j]} :: 0 <= i < n && 0 <= j < n ==>
              MoveDown(g, n, k, hi, lo)[i][j] == (if j == k && lo <= i <= hi then g[i - 1][k] else g[i][j])
    decreases hi - lo + 1
  {
    if hi >= lo {
      var g1 := Board2.SetCell(g, hi, k, g[hi - 1][k]);
      MoveDownCells(g1, n, k, hi - 1, lo);
    }
  }

  /** After `MoveUp`, rows `lo..hi` of column `k` hold the cells that were
      one row lower; nothing else has changed. */
  lemma {:induction false} MoveUpCells(g: Grid, n: nat, k: nat, lo: nat, hi: int)
    requires Square(g, n) && k < n && hi + 1 < n
    ensures forall i, j {:trigger MoveUp(g, n, k, lo, hi)[i][j]} :: 0 <= i < n && 0 <= j < n ==>
              MoveUp(g, n, k, lo, hi)[i][j] == (if j == k && lo <= i <= hi then g[i + 1][k] else g[i][j])
    decreases hi - lo + 1
  {
    if hi >= lo {
      var g1 := Board2.SetCell(g, lo, k, g[lo + 1][k]);
      MoveUpCells(g1, n, k, lo + 1, hi);
    }
  }

  /** Column insertion from the top (lines 131-143).  In the joker's column
      the first loop runs over the rows below the joker's lower neighbour,
      the joker is jumped over by one explicit move (after that loop the
      counter `i` equals `joker_pos`), and the second loop runs over the rows
      above the joker.  On a 3x3 board the first loop is empty, so reading its
      counter fails before any cell has moved. */
  function FromTop(g: Grid, n: nat, k: nat, x: Cell): (r: Result<Grid>)
    requires OddLine(n) && Square(g, n) && k < n
    ensures r.Ok? ==> Square(r.value, n) && r.value[0][k] == x
    ensures r.Err? <==> k == Board2.JokerPos(n) && n == 3
    ensures r.Err? ==> r.error == UnboundLoopIndex
  {
    var jp := Board2.JokerPos(n);
    if k == jp then
      if n - 1 < jp + 2 then Err(UnboundLoopIndex)
      else
        var g1 := MoveDown(g, n, k, n - 1, jp + 2);
        var g2 := Board2.SetCell(g1, jp + 1, k, g1[jp - 1][k]);
        var g3 := MoveDown(g2, n, k, jp - 1, 1);
        Ok(Board2.SetCell(g3, 0, k, x))
    else
      Ok(Board2.SetCell(MoveDown(g, n, k, n - 1, 1), 0, k, x))
  }

  /** Column insertion from the bottom (lines 144-155), the mirror image of
      `FromTop`; after the first loop the counter equals `joker_pos - 1`. */
  function FromBottom(g: Grid, n: nat, k: nat, x: Cell): (r: Result<Grid>)
    requires OddLine(n) && Square(g, n) && k < n
    ensures r.Ok? ==> Square(r.value, n) && r.value[n - 1][k] == x
    ensures r.Err? <==> k == Board2.JokerPos(n) && n == 3
    ensures r.Err? ==> r.error == UnboundLoopIndex
  {
    var jp := Board2.JokerPos(n);
    if k == jp then
      if jp - 2 < 0 then Err(UnboundLoopIndex)
      else
        var g1 := MoveUp(g, n, k, 0, jp - 2);
        var g2 := Board2.SetCell(g1, jp - 1, k, g1[jp + 1][k]);
        var g3 := MoveUp(g2, n, k, jp + 1, n - 2);
        Ok(Board2.SetCell(g3, n - 1, k, x))
    else
      Ok(Board2.SetCell(MoveUp(g, n, k, 0, n - 2), n - 1, k, x))
  }

  /** Two square grids that agree cell by cell are equal. */
  lemma GridExt(a: Grid, b: Grid, n: nat)
    requires Square(a, n) && Square(b, n)
    requires forall i, j :: 0 <= i < n && 0 <= j < n ==> a[i][j] == b[i][j]
    ensures a == b
  {
    forall i | 0 <= i < n ensures a[i] == b[i] {
      assert forall j :: 0 <= j < n ==> a[i][j] == b[i][j];
    }
  }

  /** The cell-by-cell moves from the top give the same grid as curling2.py's
      transpose-insert-transpose, and fail only in the middle column of a
      3x3 board. */
  lemma FromTopAgrees(g: Grid, n: nat, k: nat, x: Cell)
    requires OddLine(n) && Square(g, n) && k < n
    ensures FromTop(g, n, k, x).Err? <==> k == Board2.JokerPos(n) && n == 3
    ensures FromTop(g, n, k, x).Ok? ==> FromTop(g, n, k, x).value == Board2.ShiftedColumnGrid(g, n, k, x, true)
  {
    var jp := Board2.JokerPos(n);
    if k != jp {
      TopSideColumn(g, n, k, x);
    } else if n != 3 {
      TopMiddleColumn(g, n, x);
    } else {
      TopSmallMiddle(g, x);
    }
  }

  /** The middle column of a 3x3 board: the first loop is empty and its
      counter is read unbound. */
  lemma TopSmallMiddle(g: Grid, x: Cell)
    requires Square(g, 3)
    ensures FromTop(g, 3, 1, x) == Err(UnboundLoopIndex)
  {
  }

  lemma TopSideColumn(g: Grid, n: nat, k: nat, x: Cell)
    requires OddLine(n) && Square(g, n) && k < n && k != Board2.JokerPos(n)
    ensures FromTop(g, n, k, x) == Ok(Board2.ShiftedColumnGrid(g, n, k, x, true))
  {
    var want := Board2.ShiftedColumnGrid(g, n, k, x, true);
    var g1 := MoveDown(g, n, k, n - 1, 1);
    var got := Board2.SetCell(g1, 0, k, x);
    forall i, j | 0 <= i < n && 0 <= j < n ensures got[i][j] == want[i][j] {
      MoveDownCells(g, n, k, n - 1, 1);
      Board2.ColumnShiftFront(g, n, k, x);
    }
    GridExt(got, want, n);
  }

  lemma TopMiddleColumn(g: Grid, n: nat, x: Cell)
    requires OddLine(n) && Square(g, n) && n != 3
    ensures FromTop(g, n, Board2.JokerPos(n), x) == Ok(Board2.ShiftedColumnGrid(g, n, Board2.JokerPos(n), x, true))
  {
    var k := Board2.JokerPos(n);
    var want := Board2.ShiftedColumnGrid(g, n, k, x, true);
    var g1 := MoveDown(g, n, k, n - 1, k + 2);
    var g2 := Board2.SetCell(g1, k + 1, k, g1[k - 1][k]);
    var g3 := MoveDown(g2, n, k, k - 1, 1);
    var got := Board2.SetCell(g3, 0, k, x);
    forall i, j | 0 <= i < n && 0 <= j < n ensures got[i][j] == want[i][j] {
      TopMiddleCell(g, n, k, x, g1, g2, g3, i, j);
    }
    GridExt(got, want, n);
  }

  /** One cell of `TopMiddleColumn`, given the grids after each loop. */
  lemma TopMiddleCell(g: Grid, n: nat, k: nat, x: Cell, g1: Grid, g2: Grid, g3: Grid, i: nat, j: nat)
    requires OddLine(n) && Square(g, n) && k == Board2.JokerPos(n) && n != 3 && i < n
    requires g1 == MoveDown(g, n, k, n - 1, k + 2)
    requires g2 == Board2.SetCell(g1, k + 1, k, g1[k - 1][k])
    requires g3 == MoveDown(g2, n, k, k - 1, 1)
    requires j < n
    ensures Board2.SetCell(g3, 0, k, x)[i][j] == Board2.ShiftedColumnGrid(g, n, k, x, true)[i][j]
  {
    if j != k {
      TopMiddleOther(g, n, k, x, g1, g2, g3, i, j);
    } else if i == 0 {
    } else if i < k {
      TopMiddleAbove(g, n, k, x, g1, g2, g3, i);
    } else {
      TopMiddleBelow(g, n, k, x, g1, g2, g3, i);
    }
  }

  lemma TopMiddleOther(g: Grid, n: nat, k: nat, x: Cell, g1: Grid, g2: Grid, g3: Grid, i: nat, j: nat)
    requires OddLine(n) && Square(g, n) && k == Board2.JokerPos(n) && n != 3 && i < n
    requires g1 == MoveDown(g, n, k, n - 1, k + 2)
    requires g2 == Board2.SetCell(g1, k + 1, k, g1[k - 1][k])
    requires g3 == MoveDown(g2, n, k, k - 1, 1)
    requires j < n && j != k
    ensures Board2.SetCell(g3, 0, k, x)[i][j] == Board2.ShiftedColumnGrid(g, n, k, x, true)[i][j]
  {
    assert Board2.SetCell(g3, 0, k, x)[i][j] == g2[i][j] by {
      MoveDownCells(g2, n, k, k - 1, 1);
    }
    assert g2[i][j] == g[i][j] by {
      MoveDownCells(g, n, k, n - 1, k + 2);
    }
    Board2.ColumnShiftFront(g, n, k, x);
  }

  lemma TopMiddleAbove(g: Grid, n: nat, k: nat, x: Cell, g1: Grid, g2: Grid, g3: Grid, i: nat)
    requires OddLine(n) && Square(g, n) && k == Board2.JokerPos(n) && n != 3 && i < n
    requires g1 == MoveDown(g, n, k, n - 1, k + 2)
    requires g2 == Board2.SetCell(g1, k + 1, k, g1[k - 1][k])
    requires g3 == MoveDown(g2, n, k, k - 1, 1)
    requires 0 < i < k
    ensures Board2.SetCell(g3, 0, k, x)[i][k] == Board2.ShiftedColumnGrid(g, n, k, x, true)[i][k]
  {
    assert g3[i][k] == g2[i - 1][k] by {
      MoveDownCells(g2, n, k, k - 1, 1);
    }
    assert g2[i - 1][k] == g[i - 1][k] by {
      MoveDownCells(g, n, k, n - 1, k + 2);
    }
    Board2.ColumnShiftFront(g, n, k, x);
  }

  lemma TopMiddleBelow(g: Grid, n: nat, k: nat, x: Cell, g1: Grid, g2: Grid, g3: Grid, i: nat)
    requires OddLine(n) && Square(g, n) && k == Board2.JokerPos(n) && n != 3 && i < n
    requires g1 == MoveDown(g, n, k, n - 1, k + 2)
    requires g2 == Board2.SetCell(g1, k + 1, k, g1[k - 1][k])
    requires g3 == MoveDown(g2, n, k, k - 1, 1)
    requires k <= i
    ensures Board2.SetCell(g3, 0, k, x)[i][k] == Board2.ShiftedColumnGrid(g, n, k, x, true)[i][k]
  {
    assert g3[i][k] == g2[i][k] by {
      MoveDownCells(g2, n, k, k - 1, 1);
    }
    var v := if i == k then g[k][k] else if i == k + 1 then g[k - 1][k] else g[i - 1][k];
    if i == k + 1 {
      assert g2[i][k] == v by {
        MoveDownCells(g, n, k, n - 1, k + 2);
        assert g2[i][k] == g1[k - 1][k];
      }
    } else {
      assert g2[i][k] == v by {
        MoveDownCells(g, n, k, n - 1, k + 2);
        assert g2[i][k] == g1[i][k];
      }
    }
    assert Board2.ShiftedColumnGrid(g, n, k, x, true)[i][k] == v by {
      Board2.ColumnShiftFront(g, n, k, x);
    }
  }

  /** The same agreement for insertion from the bottom. */
  lemma FromBottomAgrees(g: Grid, n: nat, k: nat, x: Cell)
    requires OddLine(n) && Square(g, n) && k < n
    ensures FromBottom(g, n, k, x).Err? <==> k == Board2.JokerPos(n) && n == 3
    ensures FromBottom(g, n, k, x).Ok? ==> FromBottom(g, n, k, x).value == Board2.ShiftedColumnGrid(g, n, k, x, false)
  {
    var jp := Board2.JokerPos(n);
    if k != jp {
      BottomSideColumn(g, n, k, x);
    } else if n != 3 {
      BottomMiddleColumn(g, n, x);
    } else {
      BottomSmallMiddle(g, x);
    }
  }

  /** The middle column of a 3x3 board: the first loop is empty and its
      counter is read unbound. */
  lemma BottomSmallMiddle(g: Grid, x: Cell)
    requires Square(g, 3)
    ensures FromBottom(g, 3, 1, x) == Err(UnboundLoopIndex)
  {
  }

  lemma BottomSideColumn(g: Grid, n: nat, k: nat, x: Cell)
    requires OddLine(n) && Square(g, n) && k < n && k != Board2.JokerPos(n)
    ensures FromBottom(g, n, k, x) == Ok(Board2.ShiftedColumnGrid(g, n, k, x, false))
  {
    var want := Board2.ShiftedColumnGrid(g, n, k, x, false);
    var g1 := MoveUp(g, n, k, 0, n - 2);
    var got := Board2.SetCell(g1, n - 1, k, x);
    forall i, j | 0 <= i < n && 0 <= j < n ensures got[i][j] == want[i][j] {
      MoveUpCells(g, n, k, 0, n - 2);
      Board2.ColumnShiftBack(g, n, k, x);
    }
    GridExt(got, want, n);
  }

  lemma BottomMiddleColumn(g: Grid, n: nat, x: Cell)
    requires OddLine(n) && Square(g, n) && n != 3
    ensures FromBottom(g, n, Board2.JokerPos(n), x) == Ok(Board2.ShiftedColumnGrid(g, n, Board2.JokerPos(n), x, false))
  {
    var k := Board2.JokerPos(n);
    var want := Board2.ShiftedColumnGrid(g, n, k, x, false);
    var g1 := MoveUp(g, n, k, 0, k - 2);
    var g2 := Board2.SetCell(g1, k - 1, k, g1[k + 1][k]);
    var g3 := MoveUp(g2, n, k, k + 1, n - 2);
    var got := Board2.SetCell(g3, n - 1, k, x);
    forall i, j | 0 <= i < n && 0 <= j < n ensures got[i][j] == want[i][j] {
      BottomMiddleCell(g, n, k, x, g1, g2, g3, i, j);
    }
    GridExt(got, want, n);
  }

  /** One cell of `BottomMiddleColumn`, given the grids after each loop. */
  lemma BottomMiddleCell(g: Grid, n: nat, k: nat, x: Cell, g1: Grid, g2: Grid, g3: Grid, i: nat, j: nat)
    requires OddLine(n) && Square(g, n) && k == Board2.JokerPos(n) && n != 3 && i < n
    requires g1 == MoveUp(g, n, k, 0, k - 2)
    requires g2 == Board2.SetCell(g1, k - 1, k, g1[k + 1][k])
    requires g3 == MoveUp(g2, n, k, k + 1, n - 2)
    requires j < n
    ensures Board2.SetCell(g3, n - 1, k, x)[i][j] == Board2.ShiftedColumnGrid(g, n, k, x, false)[i][j]
  {
    if j != k {
      BottomMiddleOther(g, n, k, x, g1, g2, g3, i, j);
    } else if i == n - 1 {
    } else if i > k {
      BottomMiddleBelow(g, n, k, x, g1, g2, g3, i);
    } else {
      BottomMiddleAbove(g, n, k, x, g1, g2, g3, i);
    }
  }

  lemma BottomMiddleOther(g: Grid, n: nat, k: nat, x: Cell, g1: Grid, g2: Grid, g3: Grid, i: nat, j: nat)
    requires OddLine(n) && Square(g, n) && k == Board2.JokerPos(n) && n != 3 && i < n
    requires g1 == MoveUp(g, n, k, 0, k - 2)
    requires g2 == Board2.SetCell(g1, k - 1, k, g1[k + 1][k])
    requires g3 == MoveUp(g2, n, k, k + 1, n - 2)
    requires j < n && j != k
    ensures Board2.SetCell(g3, n - 1, k, x)[i][j] == Board2.ShiftedColumnGrid(g, n, k, x, false)[i][j]
  {
    assert Board2.SetCell(g3, n - 1, k, x)[i][j] == g2[i][j] by {
      MoveUpCells(g2, n, k, k + 1, n - 2);
    }
    assert g2[i][j] == g[i][j] by {
      MoveUpCells(g, n, k, 0, k - 2);
    }
    Board2.ColumnShiftBack(g, n, k, x);
  }

  lemma BottomMiddleBelow(g: Grid, n: nat, k: nat, x: Cell, g1: Grid, g2: Grid, g3: Grid, i: nat)
    requires OddLine(n) && Square(g, n) && k == Board2.JokerPos(n) && n != 3 && i < n
    requires g1 == MoveUp(g, n, k, 0, k - 2)
    requires g2 == Board2.SetCell(g1, k - 1, k, g1[k + 1][k])
    requires g3 == MoveUp(g2, n, k, k + 1, n - 2)
    requires k < i < n - 1
    ensures Board2.SetCell(g3, n - 1, k, x)[i][k] == Board2.ShiftedColumnGrid(g, n, k, x, false)[i][k]
  {
    assert g3[i][k] == g2[i + 1][k] by {
      MoveUpCells(g2, n, k, k + 1, n - 2);
    }
    assert g2[i + 1][k] == g[i + 1][k] by {
      MoveUpCells(g, n, k, 0, k - 2);
    }
    Board2.ColumnShiftBack(g, n, k, x);
  }

  lemma BottomMiddleAbove(g: Grid, n: nat, k: nat, x: Cell, g1: Grid, g2: Grid, g3: Grid, i: nat)
    requires OddLine(n) && Square(g, n) && k == Board2.JokerPos(n) && n != 3 && i < n
    requires g1 == MoveUp(g, n, k, 0, k - 2)
    requires g2 == Board2.SetCell(g1, k - 1, k, g1[k + 1][k])
    requires g3 == MoveUp(g2, n, k, k + 1, n - 2)
    requires i <= k
    ensures Board2.SetCell(g3, n - 1, k, x)[i][k] == Board2.ShiftedColumnGrid(g, n, k, x, false)[i][k]
  {
    assert g3[i][k] == g2[i][k] by {
      MoveUpCells(g2, n, k, k + 1, n - 2);
    }
    var v := if i == k then g[k][k] else if i == k - 1 then g[k + 1][k] else g[i + 1][k];
    if i == k - 1 {
      assert g2[i][k] == v by {
        MoveUpCells(g, n, k, 0, k - 2);
        assert g2[i][k] == g1[k + 1][k];
      }
    } else {
      assert g2[i][k] == v by {
        MoveUpCells(g, n, k, 0, k - 2);
        assert g2[i][k] == g1[i][k];
      }
    }
    assert Board2.ShiftedColumnGrid(g, n, k, x, false)[i][k] == v by {
      Board2.ColumnShiftBack(g, n, k, x);
    }
  }

  // -------------------------------------------------------------- eviction

  /** The cell line 145 reports as evicted by an insertion from the bottom:
      the bottom-left cell of the board, whatever the column. */
  function BottomEvictedAsWritten(g: Grid, n: nat, k: nat): Cell
    requires Square(g, n) && k < n
  {
    g[n - 1][0]
  }

  /** The cell an insertion from the bottom of column `k` pushes off the
      board: the top cell of that column. */
  function BottomEvicted(g: Grid, n: nat, k: nat): Cell
    requires Square(g, n) && k < n
  {
    g[0][k]
  }

  /** As written, the card reported as evicted from the bottom is still on
      the board afterwards: untouched in the bottom-left corner when another
      column was shifted, moved up one row when the first column was. */
  lemma BottomEvictedAsWrittenStaysOnBoard(g: Grid, n: nat, k: nat, x: Cell)
    requires OddLine(n) && Square(g, n) && k < n && FromBottom(g, n, k, x).Ok?
    ensures var g' := FromBottom(g, n, k, x).value;
      && (k != 0 ==> g'[n - 1][0] == BottomEvictedAsWritten(g, n, k))
      && (k == 0 ==> g'[n - 2][0] == BottomEvictedAsWritten(g, n, k))
  {
    FromBottomAgrees(g, n, k, x);
    Board2.ColumnShiftBack(g, n, k, x);
  }

  /** The evicted cell as reported on the standard 5x5 board differs from
      the one pushed off: inserting from the bottom of the second column
      reports the corner card and loses the top card of that column. */
  lemma BottomEvictedAsWrittenExample()
    ensures var g := ExampleGrid();
      && Square(g, 5)
      && BottomEvictedAsWritten(g, 5, 1) == Occupied(Card("*", "*", 20))
      && BottomEvicted(g, 5, 1) == Occupied(Card("*", "*", 1))
      && BottomEvictedAsWritten(g, 5, 1) != BottomEvicted(g, 5, 1)
  {
  }

  /** A 5x5 grid with the joker in the centre and a different placeholder
      value in every other cell. */
  function ExampleGrid(): (g: Grid)
    ensures Square(g, 5)
  {
    seq(5, r requires 0 <= r < 5 => seq(5, c requires 0 <= c < 5 =>
      if r == 2 && c == 2 then Joker else Occupied(Card("*", "*", 5 * r + c))))
  }

  /** With the corrected eviction nothing is lost or duplicated: the column's
      cells afterwards plus the evicted one are its cells before plus the
      inserted one. */
  lemma BottomEvictedConserves(g: Grid, n: nat, k: nat, x: Cell)
    requires OddLine(n) && Square(g, n) && k < n && FromBottom(g, n, k, x).Ok?
    ensures multiset(Board2.Column(FromBottom(g, n, k, x).value, n, k)) + multiset{BottomEvicted(g, n, k)}
              == multiset(Board2.Column(g, n, k)) + multiset{x}
  {
    FromBottomAgrees(g, n, k, x);
    ColumnConserves(g, n, k, x, false);
  }

  /** The same conservation for curling2.py's column shift from either end. */
  lemma ColumnConserves(g: Grid, n: nat, k: nat, x: Cell, front: bool)
    requires OddLine(n) && Square(g, n) && k < n
    ensures multiset(Board2.Column(Board2.ShiftedColumnGrid(g, n, k, x, front), n, k))
              + multiset{FarEnd(Board2.Column(g, n, k), front)}
              == multiset(Board2.Column(g, n, k)) + multiset{x}
  {
    var line := Board2.Column(g, n, k);
    Board2.ColumnShiftCells(g, n, k, x, front);
    var g' := Board2.ShiftedColumnGrid(g, n, k, x, front);
    assert Transpose(g, n)[k] == line;
    assert Board2.Column(g', n, k) == Insert(line, x, front, k == Board2.JokerPos(n));
    InsertConserves(line, x, front, k == Board2.JokerPos(n));
  }

  // ----------------------------------------------------------------- update

  /** The one move curling.py's column loops cannot make: an insertion into
      the middle column of a 3x3 board. */
  predicate SmallMiddle(n: nat, row: int, column: int) {
    n == 3 && column == 2 && row in {0, 4}
  }

  /** `update(card, row, column)` (lines 89-168).  While any cell is empty
      the card may only be placed on an empty cell; afterwards the move is a
      shift. */
  function Update(b: Board, card: Card, row: int, column: int): (r: Result<(Board, Board2.Outcome)>)
    requires OddLine(b.size) && Square(b.cells, b.size)
    ensures r.Ok? ==> r.value.0.size == b.size && r.value.0.final == b.final && Square(r.value.0.cells, b.size)
    ensures HasEmpty(b.cells) ==>
              && (r.Ok? <==> 1 <= row <= b.size && 1 <= column <= b.size && b.cells[row - 1][column - 1].Empty?)
              && (r.Err? ==> r.error == NotAnEmptyCell(GetEmpty(b.cells)))
              && (r.Ok? ==> r.value.1 == Board2.Inserted && r.value.0.cells[row - 1][column - 1] == Occupied(card))
    ensures !HasEmpty(b.cells) ==>
              (r.Err? <==> !Board2.IsRimSlot(b.size, row, column) || SmallMiddle(b.size, row, column))
  {
    if HasEmpty(b.cells) then
      var l := GetEmpty(b.cells);
      if (row, column) !in l then Err(NotAnEmptyCell(l))
      else Ok((b.(cells := Board2.SetCell(b.cells, row - 1, column - 1, Occupied(card))), Board2.Inserted))
    else
      ShiftOutcome(b, card, row, column);
      Shift(b, card, row, column)
  }

  /** The shift phase of `update` (lines 106-165): a row is entered from
      column 0 or size + 1 and a column from row 0 or size + 1; anything else
      is refused with 'Invalid row/column' and the board is left alone.  The
      evicted cell of a shift from the bottom is the top cell of the column
      (see `BottomEvictedAsWritten` for what line 145 reads instead). */
  function Shift(b: Board, card: Card, row: int, column: int): (r: Result<(Board, Board2.Outcome)>)
    requires OddLine(b.size) && Square(b.cells, b.size)
    ensures r.Ok? ==> r.value.0.size == b.size && r.value.0.final == b.final && Square(r.value.0.cells, b.size)
  {
    var n, x, jp := b.size, Occupied(card), Board2.JokerPos(b.size);
    if 0 < row <= n then
      var line := b.cells[row - 1];
      if column == 0 then
        Ok((b.(cells := b.cells[row - 1 := RowFromLeft(line, x, row == jp + 1)]), Board2.Evicted(line[n - 1])))
      else if column == n + 1 then
        Ok((b.(cells := b.cells[row - 1 := RowFromRight(line, x, row == jp + 1)]), Board2.Evicted(line[0])))
      else Err(InvalidRowColumn)
    else if 0 < column <= n then
      if row == 0 then
        var g :- FromTop(b.cells, n, column - 1, x);
        Ok((b.(cells := g), Board2.Evicted(b.cells[n - 1][column - 1])))
      else if row == n + 1 then
        var g :- FromBottom(b.cells, n, column - 1, x);
        Ok((b.(cells := g), Board2.Evicted(BottomEvicted(b.cells, n, column - 1))))
      else Err(InvalidRowColumn)
    else Err(InvalidRowColumn)
  }

  /** A shift fails exactly off the rim slots, with 'Invalid row/column',
      and in the middle column of a 3x3 board, with the unbound counter;
      otherwise the card lands at the entry end of the line and the cell at
      its far end is evicted.  From the bottom that is the top cell of the
      column (line 145 reads the bottom-left cell instead). */
  lemma ShiftOutcome(b: Board, card: Card, row: int, column: int)
    requires OddLine(b.size) && Square(b.cells, b.size)
    ensures var r, n := Shift(b, card, row, column), b.size;
      && (r.Err? <==> !Board2.IsRimSlot(n, row, column) || SmallMiddle(n, row, column))
      && (r.Err? ==> r.error == (if Board2.IsRimSlot(n, row, column) then UnboundLoopIndex else InvalidRowColumn))
      && (r.Ok? && column == 0 ==>
            0 < row <= n && r.value.0.cells[row - 1][0] == Occupied(card) && r.value.1 == Board2.Evicted(b.cells[row - 1][n - 1]))
      && (r.Ok? && column == n + 1 ==>
            0 < row <= n && r.value.0.cells[row - 1][n - 1] == Occupied(card) && r.value.1 == Board2.Evicted(b.cells[row - 1][0]))
      && (r.Ok? && row == 0 ==>
            0 < column <= n && r.value.0.cells[0][column - 1] == Occupied(card) && r.value.1 == Board2.Evicted(b.cells[n - 1][column - 1]))
      && (r.Ok? && row == n + 1 ==>
            0 < column <= n && r.value.0.cells[n - 1][column - 1] == Occupied(card) && r.value.1 == Board2.Evicted(b.cells[0][column - 1]))
  {
  }

  /** On a board with the joker at its centre, this update does exactly what
      curling2.py's `update` does for a move that is not an undo, except that
      inserting into the middle column of a 3x3 board fails. */
  lemma UpdateAgrees(b: Board, card: Card, row: int, column: int)
    requires Board2.WellFormed(b)
    ensures var jp := Board2.JokerPos(b.size);
      Update(b, card, row, column) ==
        if !HasEmpty(b.cells) && b.size == 3 && column == jp + 1 && row in {0, b.size + 1}
        then Err(UnboundLoopIndex)
        else Board2.Update(b, Board2.Ply(card, row, column), false, Empty)
  {
    if !HasEmpty(b.cells) {
      Board2.UpdateIsShift(b, Board2.Ply(card, row, column));
      ShiftAgrees(b, card, row, column);
    }
  }

  /** The shift phases agree, with the same 3x3 exception. */
  lemma ShiftAgrees(b: Board, card: Card, row: int, column: int)
    requires Board2.WellFormed(b)
    ensures var jp := Board2.JokerPos(b.size);
      Shift(b, card, row, column) ==
        if b.size == 3 && column == jp + 1 && row in {0, b.size + 1}
        then Err(UnboundLoopIndex)
        else Board2.Shift(b, Board2.Ply(card, row, column), false, Occupied(card))
  {
    var n := b.size;
    if 0 < row <= n && column in {0, n + 1} {
      RowShiftAgrees(b, card, row, column);
    } else if 0 < column <= n && row == 0 {
      TopShiftAgrees(b, card, column);
    } else if 0 < column <= n && row == n + 1 {
      BottomShiftAgrees(b, card, column);
    } else {
      assert !Board2.IsRimSlot(n, row, column);
      assert Shift(b, card, row, column) == Err(InvalidRowColumn);
    }
  }

  lemma RowShiftAgrees(b: Board, card: Card, row: int, column: int)
    requires OddLine(b.size) && Square(b.cells, b.size)
    requires b.cells[Board2.JokerPos(b.size)][Board2.JokerPos(b.size)] == Joker
    requires 0 < row <= b.size && column in {0, b.size + 1}
    ensures Shift(b, card, row, column) == Board2.Shift(b, Board2.Ply(card, row, column), false, Occupied(card))
  {
    var n, k, x := b.size, row - 1, Occupied(card);
    var line, jokerRow := b.cells[k], k == Board2.JokerPos(n);
    RowInsertAgrees(line, x, jokerRow);
    var front := column == 0;
    assert Board2.Shift(b, Board2.Ply(card, row, column), false, x) == Ok(Board2.RowShift(b, k, x, front));
    if front {
      assert Shift(b, card, row, column) == Ok((b.(cells := b.cells[k := RowFromLeft(line, x, jokerRow)]), Board2.Evicted(line[n - 1])));
    } else {
      assert Shift(b, card, row, column) == Ok((b.(cells := b.cells[k := RowFromRight(line, x, jokerRow)]), Board2.Evicted(line[0])));
    }
  }

  lemma TopShiftAgrees(b: Board, card: Card, column: int)
    requires OddLine(b.size) && Square(b.cells, b.size) && 0 < column <= b.size
    ensures var jp := Board2.JokerPos(b.size);
      Shift(b, card, 0, column) ==
        if b.size == 3 && column == jp + 1 then Err(UnboundLoopIndex)
        else Board2.Shift(b, Board2.Ply(card, 0, column), false, Occupied(card))
  {
    var n, k, x := b.size, column - 1, Occupied(card);
    FromTopAgrees(b.cells, n, k, x);
    if FromTop(b.cells, n, k, x).Ok? {
      TopShiftOk(b, card, column, FromTop(b.cells, n, k, x).value);
    }
  }

  /** The case of `TopShiftAgrees` where the loops run: both sides put the
      shifted grid `g` on the board and evict the column's bottom cell. */
  lemma TopShiftOk(b: Board, card: Card, column: int, g: Grid)
    requires OddLine(b.size) && Square(b.cells, b.size) && 0 < column <= b.size
    requires FromTop(b.cells, b.size, column - 1, Occupied(card)) == Ok(g)
    requires g == Board2.ShiftedColumnGrid(b.cells, b.size, column - 1, Occupied(card), true)
    ensures Shift(b, card, 0, column) == Board2.Shift(b, Board2.Ply(card, 0, column), false, Occupied(card))
  {
    TopShiftIs(b, card, column, g);
    TopColumnShiftIs(b, card, column);
  }

  lemma TopShiftIs(b: Board, card: Card, column: int, g: Grid)
    requires OddLine(b.size) && Square(b.cells, b.size) && 0 < column <= b.size
    requires FromTop(b.cells, b.size, column - 1, Occupied(card)) == Ok(g)
    ensures Shift(b, card, 0, column) == Ok((b.(cells := g), Board2.Evicted(b.cells[b.size - 1][column - 1])))
  {
  }

  lemma TopColumnShiftIs(b: Board, card: Card, column: int)
    requires OddLine(b.size) && Square(b.cells, b.size) && 0 < column <= b.size
    ensures Board2.Shift(b, Board2.Ply(card, 0, column), false, Occupied(card))
              == Ok((b.(cells := Board2.ShiftedColumnGrid(b.cells, b.size, column - 1, Occupied(card), true)), Board2.Evicted(b.cells[b.size - 1][column - 1])))
  {
    var n, k := b.size, column - 1;
    assert FarEnd(Board2.Column(b.cells, n, k), true) == b.cells[b.size - 1][column - 1];
    Board2Invariants.ShiftIsColumnShift(b, Board2.Ply(card, 0, column), Occupied(card));
  }

  lemma BottomShiftAgrees(b: Board, card: Card, column: int)
    requires OddLine(b.size) && Square(b.cells, b.size) && 0 < column <= b.size
    ensures var jp := Board2.JokerPos(b.size);
      Shift(b, card, b.size + 1, column) ==
        if b.size == 3 && column == jp + 1 then Err(UnboundLoopIndex)
        else Board2.Shift(b, Board2.Ply(card, b.size + 1, column), false, Occupied(card))
  {
    var n, k, x := b.size, column - 1, Occupied(card);
    FromBottomAgrees(b.cells, n, k, x);
    if FromBottom(b.cells, n, k, x).Ok? {
      BottomShiftOk(b, card, column, FromBottom(b.cells, n, k, x).value);
    }
  }

  /** The case of `BottomShiftAgrees` where the loops run: both sides put
      the shifted grid `g` on the board and evict the column's top cell. */
  lemma BottomShiftOk(b: Board, card: Card, column: int, g: Grid)
    requires OddLine(b.size) && Square(b.cells, b.size) && 0 < column <= b.size
    requires FromBottom(b.cells, b.size, column - 1, Occupied(card)) == Ok(g)
    requires g == Board2.ShiftedColumnGrid(b.cells, b.size, column - 1, Occupied(card), false)
    ensures Shift(b, card, b.size + 1, column) == Board2.Shift(b, Board2.Ply(card, b.size + 1, column), false, Occupied(card))
  {
    BottomShiftIs(b, card, column, g);
    BottomColumnShiftIs(b, card, column);
  }

  lemma BottomShiftIs(b: Board, card: Card, column: int, g: Grid)
    requires OddLine(b.size) && Square(b.cells, b.size) && 0 < column <= b.size
    requires FromBottom(b.cells, b.size, column - 1, Occupied(card)) == Ok(g)
    ensures Shift(b, card, b.size + 1, column) == Ok((b.(cells := g), Board2.Evicted(b.cells[0][column - 1])))
  {
  }

  lemma BottomColumnShiftIs(b: Board, card: Card, column: int)
    requires OddLine(b.size) && Square(b.cells, b.size) && 0 < column <= b.size
    ensures Board2.Shift(b, Board2.Ply(card, b.size + 1, column), false, Occupied(card))
              == Ok((b.(cells := Board2.ShiftedColumnGrid(b.cells, b.size, column - 1, Occupied(card), false)), Board2.Evicted(b.cells[0][column - 1])))
  {
    var n, k := b.size, column - 1;
    assert FarEnd(Board2.Column(b.cells, n, k), false) == b.cells[0][column - 1];
    Board2Invariants.ShiftIsColumnShift(b, Board2.Ply(card, b.size + 1, column), Occupied(card));
  }


  /** A shift keeps the joker at the centre, even in its own row or column,
      and leaves a well-formed board well formed (for cards of non-negative
      value). */
  lemma UpdateWellFormed(b: Board, card: Card, row: int, column: int)
    requires Board2.WellFormed(b) && card.value >= 0 && Update(b, card, row, column).Ok?
    ensures Board2.WellFormed(Update(b, card, row, column).value.0)
  {
    UpdateAgrees(b, card, row, column);
    Board2Invariants.UpdateWellFormed(b, Board2.Ply(card, row, column));
  }
}

=== FILE: board2.dfy ===
/** The reversible board of curling2.py (`Board`, lines 41-167): the grid,
    the fill and shift phases, insertion with eviction, its exact undo, and
    scoring around the joker. */
module Board2 {
  import opened Results
  import opened Cards
  import opened Lines
  import opened Grid

  datatype Board = Board(size: nat, cells: Grid, final: bool)

  /** A move: the card and the 1-based target, 0 and size + 1 being the rim. */
  datatype Ply = Ply(card: Card, row: int, column: int)

  /** What `update` reports: `'Insert'` for a fill-phase placement, the
      evicted cell for a shift, `'undo'` for the undo of a placement. */
  datatype Outcome = Inserted | Evicted(cell: Cell) | UndoneInsert

  function JokerPos(size: nat): nat { size / 2 }

  /** A board the game can be played on: odd size at least 3, square, the
      joker at the centre and nowhere else, and no card of negative value. */
  predicate WellFormed(b: Board) {
    var jp := JokerPos(b.size);
    && OddLine(b.size)
    && Square(b.cells, b.size)
    && b.cells[jp][jp] == Joker
    && (forall r, c :: 0 <= r < b.size && 0 <= c < b.size && b.cells[r][c] == Joker ==> r == jp && c == jp)
    && (forall r, c :: 0 <= r < b.size && 0 <= c < b.size && b.cells[r][c].Occupied? ==> b.cells[r][c].card.value >= 0)
  }

  /** The twelve start cells the standard 5x5 game leaves empty (0-based). */
  const DefaultEmpty: seq<(int, int)> :=
    [(0, 0), (0, 1), (0, 3), (0, 4), (1, 0), (1, 4), (3, 0), (3, 4), (4, 0), (4, 1), (4, 3), (4, 4)]

  /** `Board(size, empty)`: placeholder cards everywhere, the joker at the
      centre, then the listed cells cleared. */
  function NewBoard(size: nat, empty: seq<(int, int)>): (b: Board)
    requires size >= 1
    requires forall i :: 0 <= i < |empty| ==> 0 <= empty[i].0 < size && 0 <= empty[i].1 < size
    ensures Square(b.cells, size) && b.size == size && !b.final
    ensures forall r, c :: 0 <= r < size && 0 <= c < size ==>
              b.cells[r][c] == (if (r, c) in empty then Empty
                                else if r == JokerPos(size) && c == JokerPos(size) then Joker
                                else Occupied(Placeholder))
  {
    var jp := JokerPos(size);
    Board(size, seq(size, r requires 0 <= r < size => seq(size, c requires 0 <= c < size =>
      if (r, c) in empty then Empty else if r == jp && c == jp then Joker else Occupied(Placeholder))), false)
  }

  /** A fresh board of odd size is well formed unless the joker's own cell
      was listed as empty. */
  lemma NewBoardWellFormed(size: nat, empty: seq<(int, int)>)
    requires OddLine(size)
    requires forall i :: 0 <= i < |empty| ==> 0 <= empty[i].0 < size && 0 <= empty[i].1 < size
    ensures WellFormed(NewBoard(size, empty)) <==> (JokerPos(size), JokerPos(size)) !in empty
  {
  }

  /** The standard board is well formed ... */
  lemma DefaultBoardWellFormed()
    ensures WellFormed(NewBoard(5, DefaultEmpty))
  {
    assert (2, 2) !in DefaultEmpty;
    NewBoardWellFormed(5, DefaultEmpty);
  }

  /** ... and starts in the fill phase, the twelve listed cells (1-based)
      being empty. */
  lemma DefaultBoardEmpties(i: nat)
    requires i < 12
    ensures (DefaultEmpty[i].0 + 1, DefaultEmpty[i].1 + 1) in Empties(NewBoard(5, DefaultEmpty))
  {
    var b := NewBoard(5, DefaultEmpty);
    var p := DefaultEmpty[i];
    assert p in DefaultEmpty;
    assert b.cells[p.0][p.1] == Empty;
  }

  /** `get_empty` of this board. */
  function Empties(b: Board): seq<(int, int)> { GetEmpty(b.cells) }

  /** What a cell is worth to a suit: a card's value when the suits match.
      The joker (suit `''`, value 0) and empty cells are worth nothing. */
  function CellPoints(cell: Cell, suit: string): int {
    match cell
    case Occupied(c) => if c.suit == suit then c.value else 0
    case _ => 0
  }

  /** `scoring_pos`: the four diagonal neighbours of the joker weigh 1, the
      four orthogonal neighbours weigh 2. */
  function ScoringPositions(jp: int): seq<(int, seq<(int, int)>)> {
    [(1, [(jp - 1, jp - 1), (jp - 1, jp + 1), (jp + 1, jp - 1), (jp + 1, jp + 1)]),
     (2, [(jp - 1, jp), (jp, jp - 1), (jp + 1, jp), (jp, jp + 1)])]
  }

  predicate InGrid(g: Grid, n: nat, ps: seq<(int, int)>) {
    forall i :: 0 <= i < |ps| ==> 0 <= ps[i].0 < n && 0 <= ps[i].1 < n
  }

  function TierPoints(g: Grid, n: nat, ps: seq<(int, int)>, suit: string): int
    requires Square(g, n) && InGrid(g, n, ps)
  {
    if ps == [] then 0 else CellPoints(g[ps[0].0][ps[0].1], suit) + TierPoints(g, n, ps[1..], suit)
  }

  function WeightedPoints(g: Grid, n: nat, tiers: seq<(int, seq<(int, int)>)>, suit: string): int
    requires Square(g, n) && forall t :: 0 <= t < |tiers| ==> InGrid(g, n, tiers[t].1)
  {
    if tiers == [] then 0
    else tiers[0].0 * TierPoints(g, n, tiers[0].1, suit) + WeightedPoints(g, n, tiers[1..], suit)
  }

  /** `score(player)`: fails on a finalised board; otherwise the diagonal
      neighbours of the joker count once and the orthogonal ones twice, and
      only cards of the player's suit count. */
  function Score(b: Board, suit: string): (r: Result<int>)
    requires Square(b.cells, b.size) && b.size >= 3
    ensures r.Err? <==> b.final
    ensures r.Err? ==> r.error == ScoreOnFinalBoard
    ensures r.Ok? ==>
      var g, j := b.cells, JokerPos(b.size);
      r.value ==
        CellPoints(g[j - 1][j - 1], suit) + CellPoints(g[j - 1][j + 1], suit)
        + CellPoints(g[j + 1][j - 1], suit) + CellPoints(g[j + 1][j + 1], suit)
        + 2 * (CellPoints(g[j - 1][j], suit) + CellPoints(g[j][j - 1], suit)
               + CellPoints(g[j + 1][j], suit) + CellPoints(g[j][j + 1], suit))
  {
    if b.final then Err(ScoreOnFinalBoard)
    else
      var tiers := ScoringPositions(JokerPos(b.size));
      TierOfFour(b.cells, b.size, tiers[0].1, suit);
      TierOfFour(b.cells, b.size, tiers[1].1, suit);
      assert tiers[1..][0] == tiers[1] && tiers[1..][1..] == [];
      assert WeightedPoints(b.cells, b.size, tiers[1..], suit) == 2 * TierPoints(b.cells, b.size, tiers[1].1, suit);
      Ok(WeightedPoints(b.cells, b.size, tiers, suit))
  }

  lemma TierOfFour(g: Grid, n: nat, ps: seq<(int, int)>, suit: string)
    requires Square(g, n) && InGrid(g, n, ps) && |ps| == 4
    ensures TierPoints(g, n, ps, suit) ==
      CellPoints(g[ps[0].0][ps[0].1], suit) + CellPoints(g[ps[1].0][ps[1].1], suit)
      + CellPoints(g[ps[2].0][ps[2].1], suit) + CellPoints(g[ps[3].0][ps[3].1], suit)
  {
    var p1 := ps[1..];
    var p2 := p1[1..];
    var p3 := p2[1..];
    assert p1[0] == ps[1] && p2[0] == ps[2] && p3[0] == ps[3] && p3[1..] == [];
    assert TierPoints(g, n, p3, suit) == CellPoints(g[ps[3].0][ps[3].1], suit);
    assert TierPoints(g, n, p2, suit) == CellPoints(g[ps[2].0][ps[2].1], suit) + TierPoints(g, n, p3, suit);
    assert TierPoints(g, n, p1, suit) == CellPoints(g[ps[1].0][ps[1].1], suit) + TierPoints(g, n, p2, suit);
  }

  /** A well-formed board's score is never negative. */
  lemma ScoreNonNegative(b: Board, suit: string)
    requires WellFormed(b) && !b.final
    ensures Score(b, suit).Ok? && Score(b, suit).value >= 0
  {
    var g, j := b.cells, JokerPos(b.size);
    assert forall r, c :: 0 <= r < b.size && 0 <= c < b.size ==> CellPoints(g[r][c], suit) >= 0;
  }

  /** `finalise`. */
  function Finalise(b: Board): Board { b.(final := true) }

  /** `unfinalise`. */
  function Unfinalise(b: Board): Board { b.(final := false) }

  /** Settlement is undone exactly by `unfinalise`, and a finalised board
      refuses to be scored. */
  lemma FinaliseRoundTrip(b: Board, suit: string)
    requires Square(b.cells, b.size) && b.size >= 3 && !b.final
    ensures Unfinalise(Finalise(b)) == b
    ensures Score(Finalise(b), suit) == Err(ScoreOnFinalBoard)
  {
  }

  /** `is_insert`: neither coordinate is on the rim. */
  predicate IsInsert(b: Board, ply: Ply) {
    ply.row !in {0, b.size + 1} && ply.column !in {0, b.size + 1}
  }

  /** A shift-phase rim slot: a row 1..size entered from column 0 or size + 1,
      or a column 1..size entered from row 0 or size + 1. */
  predicate IsRimSlot(n: nat, row: int, column: int) {
    (0 < row <= n && column in {0, n + 1}) || (0 < column <= n && row in {0, n + 1})
  }

  function SetCell(g: Grid, r: nat, c: nat, x: Cell): Grid
    requires r < |g| && c < |g[r]|
  {
    g[r := g[r][c := x]]
  }

  /** Column `k` read top to bottom. */
  function Column(g: Grid, n: nat, k: nat): (c: seq<Cell>)
    requires Square(g, n) && k < n
    ensures |c| == n
    ensures forall i {:trigger c[i]} :: 0 <= i < n ==> c[i] == g[i][k]
  {
    seq(n, i requires 0 <= i < n => g[i][k])
  }

  /** Column insertion by transposition: transpose, insert into the row that
      was column `k`, transpose back. */
  function ShiftedColumnGrid(g: Grid, n: nat, k: nat, x: Cell, front: bool): (g': Grid)
    requires OddLine(n) && Square(g, n) && k < n
    ensures Square(g', n)
  {
    var t := Transpose(g, n);
    Transpose(t[k := Insert(t[k], x, front, k == JokerPos(n))], n)
  }

  /** Row insertion: row `k` gets `x` pushed in from one end. */
  function ShiftedRowGrid(g: Grid, n: nat, k: nat, x: Cell, front: bool): (g': Grid)
    requires OddLine(n) && Square(g, n) && k < n
    ensures Square(g', n)
  {
    g[k := Insert(g[k], x, front, k == JokerPos(n))]
  }

  /** Row `k` entered from the front (left) or the back (right): the new
      board and the cell pushed off the far end. */
  function RowShift(b: Board, k: nat, card: Cell, front: bool): (r: (Board, Outcome))
    requires OddLine(b.size) && Square(b.cells, b.size) && k < b.size
    ensures r.0.size == b.size && r.0.final == b.final && Square(r.0.cells, b.size)
  {
    (b.(cells := ShiftedRowGrid(b.cells, b.size, k, card, front)), Evicted(FarEnd(b.cells[k], front)))
  }

  /** Column `k` entered from the front (top) or the back (bottom). */
  function ColumnShift(b: Board, k: nat, card: Cell, front: bool): (r: (Board, Outcome))
    requires OddLine(b.size) && Square(b.cells, b.size) && k < b.size
    ensures r.0.size == b.size && r.0.final == b.final && Square(r.0.cells, b.size)
  {
    (b.(cells := ShiftedColumnGrid(b.cells, b.size, k, card, front)), Evicted(FarEnd(Column(b.cells, b.size, k), front)))
  }

  /** The shift part of `update` (curling2.py:116-159): a row entered from
      column 0 or size + 1, or a column entered from row 0 or size + 1; the
      side is flipped when undoing.  Anything else raises. */
  function Shift(b: Board, ply: Ply, undo: bool, card: Cell): (r: Result<(Board, Outcome)>)
    requires OddLine(b.size) && Square(b.cells, b.size)
    ensures r.Ok? ==> r.value.0.size == b.size && r.value.0.final == b.final && Square(r.value.0.cells, b.size)
    ensures r.Err? <==> !IsRimSlot(b.size, ply.row, ply.column)
  {
    var n := b.size;
    if 0 < ply.row <= n && ply.column in {0, n + 1} then
      Ok(RowShift(b, ply.row - 1, card, (ply.column == 0) != undo))
    else if 0 < ply.column <= n && ply.row in {0, n + 1} then
      Ok(ColumnShift(b, ply.column - 1, card, (ply.row == 0) != undo))
    else Err(InvalidRowColumn)
  }

  /** `update(ply, undo, undiscard)`.  `undiscard` is the cell to put back
      when undoing a shift; `Empty` stands for the source's `''`.  An undo of
      a shift needs a card; while a cell is empty a move must name one of
      them and reports a placement; once none is, a move must name a rim slot
      and evicts the far-end cell. */
  function Update(b: Board, ply: Ply, undo: bool, undiscard: Cell): (r: Result<(Board, Outcome)>)
    requires OddLine(b.size) && Square(b.cells, b.size)
    ensures r.Ok? ==> r.value.0.size == b.size && r.value.0.final == b.final && Square(r.value.0.cells, b.size)
    ensures undo && undiscard == Empty && !IsInsert(b, ply) ==> r == Err(NothingToReinstate)
    ensures !undo && Empties(b) != [] ==>
              && (r.Ok? <==> (ply.row, ply.column) in Empties(b))
              && (r.Err? ==> r.error == NotAnEmptyCell(Empties(b)))
              && (r.Ok? ==> r.value.1 == Inserted)
    ensures !undo && Empties(b) == [] ==>
              && (r.Ok? <==> IsRimSlot(b.size, ply.row, ply.column))
              && (r.Err? ==> r.error == InvalidRowColumn)
              && (r.Ok? ==> r.value.1.Evicted?)
    ensures undo && IsInsert(b, ply) ==>
              && (r.Ok? <==> 0 <= ply.row - 1 + b.size < 2 * b.size && 0 <= ply.column - 1 + b.size < 2 * b.size)
              && (r.Err? ==> r.error == OffBoard)
              && (r.Ok? ==> r.value.1 == UndoneInsert)
    ensures undo && !IsInsert(b, ply) && undiscard != Empty ==>
              && (r.Ok? <==> IsRimSlot(b.size, ply.row, ply.column) && Shift(b, ply, true, undiscard).value.1 != Evicted(Empty))
              && (r.Err? ==> r.error == if IsRimSlot(b.size, ply.row, ply.column) then EmptyCellEvicted else InvalidRowColumn)
              && (r.Ok? ==> r == Shift(b, ply, true, undiscard))
  {
    var n := b.size;
    if undo && undiscard == Empty && !IsInsert(b, ply) then Err(NothingToReinstate)
    else
      var card := if undo then undiscard else Occupied(ply.card);
      if !undo && Empties(b) != [] then
        if (ply.row, ply.column) !in Empties(b) then Err(NotAnEmptyCell(Empties(b)))
        else Ok((b.(cells := SetCell(b.cells, ply.row - 1, ply.column - 1, card)), Inserted))
      else if undo && IsInsert(b, ply) then
        // `self._cards[ply.row - 1][ply.column - 1] = ''` with Python's
        // reading of negative indices.
        if 0 <= ply.row - 1 + n < 2 * n && 0 <= ply.column - 1 + n < 2 * n then
          Ok((b.(cells := SetCell(b.cells, PyIndex(ply.row - 1, n), PyIndex(ply.column - 1, n), Empty)), UndoneInsert))
        else Err(OffBoard)
      else
        var s :- Shift(b, ply, undo, card);
        ShiftPhaseEvicts(b, ply, undo, card);
        // The line is rewritten, then marking the evicted cell raises when
        // that cell is empty.
        if s.1 == Evicted(Empty) then Err(EmptyCellEvicted) else Ok(s)
  }

  /** Undoing a placement clears the one cell Python's indexing reaches,
      counting a negative coordinate back from the far side, and leaves
      every other cell alone. */
  lemma UndoInsertCells(b: Board, ply: Ply, e: Cell)
    requires OddLine(b.size) && Square(b.cells, b.size) && IsInsert(b, ply) && Update(b, ply, true, e).Ok?
    ensures var n, r := b.size, Update(b, ply, true, e).value.0;
      forall i, j :: 0 <= i < n && 0 <= j < n ==>
        r.cells[i][j] == if i == (ply.row - 1) % n && j == (ply.column - 1) % n then Empty else b.cells[i][j]
  {
  }

  /** On a 3x3 board, undoing a placement at row -1, column 2 reads row
      index -2, the middle row, and so clears the joker. */
  lemma UndoNegativeExample(c: Card)
    ensures var p := Occupied(Placeholder);
      var b := Board(3, [[Empty, p, p], [p, Joker, p], [p, p, p]], false);
      Update(b, Ply(c, -1, 2), true, Empty) == Ok((b.(cells := [[Empty, p, p], [p, Empty, p], [p, p, p]]), UndoneInsert))
  {
    var p := Occupied(Placeholder);
    var g := [[Empty, p, p], [p, Joker, p], [p, p, p]];
    assert IsInsert(Board(3, g, false), Ply(c, -1, 2));
    assert PyIndex(-2, 3) == 1 && PyIndex(1, 3) == 1;
    assert g[1][1 := Empty] == [p, Empty, p];
    assert SetCell(g, 1, 1, Empty) == g[1 := [p, Empty, p]] == [[Empty, p, p], [p, Empty, p], [p, p, p]];
  }

  /** Undoing a shift into row 1 from the left pushes the row back to the
      left; with the leftmost cell empty, that fails. */
  lemma UndoEvictsEmptyExample(c: Card)
    ensures var p := Occupied(Placeholder);
      var b := Board(3, [[Empty, p, p], [p, Joker, p], [p, p, p]], false);
      Update(b, Ply(c, 1, 0), true, Occupied(c)) == Err(EmptyCellEvicted)
  {
    var p := Occupied(Placeholder);
    var b := Board(3, [[Empty, p, p], [p, Joker, p], [p, p, p]], false);
    var ply := Ply(c, 1, 0);
    assert !IsInsert(b, ply) && IsRimSlot(3, 1, 0);
    assert Shift(b, ply, true, Occupied(c)).value.1 == Evicted(FarEnd(b.cells[0], false));
  }

  /** Outside an undo, a shift only happens once no cell is empty, so it
      never pushes off an empty cell. */
  lemma ShiftPhaseEvicts(b: Board, ply: Ply, undo: bool, x: Cell)
    requires OddLine(b.size) && Square(b.cells, b.size) && Shift(b, ply, undo, x).Ok?
    ensures !undo && Empties(b) == [] ==> Shift(b, ply, undo, x).value.1 != Evicted(Empty)
  {
    if !undo && Empties(b) == [] {
      ShiftEvictsACard(b, ply, x);
    }
  }

  /** Fill phase: a placement succeeds exactly when the target is an empty
      cell; it then writes that cell and nothing else, and otherwise reports
      the legal cells. */
  lemma UpdateFillPhase(b: Board, ply: Ply)
    requires WellFormed(b) && Empties(b) != []
    ensures var r := Update(b, ply, false, Empty);
      && (r.Ok? <==> 1 <= ply.row <= b.size && 1 <= ply.column <= b.size && b.cells[ply.row - 1][ply.column - 1].Empty?)
      && (r.Err? ==> r.error == NotAnEmptyCell(Empties(b)))
      && (r.Ok? ==> r.value.1 == Inserted)
      && (r.Ok? ==> forall i, j :: 0 <= i < b.size && 0 <= j < b.size ==>
            r.value.0.cells[i][j] == (if i == ply.row - 1 && j == ply.column - 1 then Occupied(ply.card) else b.cells[i][j]))
  {
  }

  /** In the shift phase a move is a shift. */
  lemma UpdateIsShift(b: Board, ply: Ply)
    requires OddLine(b.size) && Square(b.cells, b.size) && Empties(b) == []
    ensures Update(b, ply, false, Empty) == Shift(b, ply, false, Occupied(ply.card))
  {
  }

  /** The undo of a shift with a card to put back is a shift from the other
      side, which fails if it pushes off an empty cell. */
  lemma UndoIsShift(b: Board, ply: Ply, e: Cell)
    requires OddLine(b.size) && Square(b.cells, b.size) && e != Empty && !IsInsert(b, ply)
    ensures Update(b, ply, true, e) ==
      if Shift(b, ply, true, e).Ok? && Shift(b, ply, true, e).value.1 == Evicted(Empty) then Err(EmptyCellEvicted)
      else Shift(b, ply, true, e)
  {
  }

  /** Row insertion: the row moves one step away from the side the card
      enters, the card lands at the near end, the far-end cell is evicted,
      the centre cell of the joker's row keeps its occupant, and every other
      row is unchanged. */
  lemma ShiftRow(b: Board, ply: Ply)
    requires OddLine(b.size) && Square(b.cells, b.size)
    requires 1 <= ply.row <= b.size && ply.column in {0, b.size + 1}
    ensures var r := Shift(b, ply, false, Occupied(ply.card));
      var n, k, jp, x := b.size, ply.row - 1, JokerPos(b.size), Occupied(ply.card);
      var before, after := b.cells[k], r.value.0.cells[k];
      && r.Ok?
      && (forall i :: 0 <= i < n && i != k ==> r.value.0.cells[i] == b.cells[i])
      && (ply.column == 0 ==> after[0] == x && r.value.1 == Evicted(before[n - 1]))
      && (ply.column == 0 ==> forall j :: 1 <= j < n && (k != jp || (j != jp && j != jp + 1)) ==> after[j] == before[j - 1])
      && (ply.column != 0 ==> after[n - 1] == x && r.value.1 == Evicted(before[0]))
      && (ply.column != 0 ==> forall j :: 0 <= j < n - 1 && (k != jp || (j != jp && j != jp - 1)) ==> after[j] == before[j + 1])
      && (k == jp ==> after[jp] == before[jp])
  {
  }

  /** `g'` is `g` with `x` pushed into column `k` from the top (`front`) or
      the bottom: that column moves one step away from the entry side, the
      joker's column jumps over its centre cell, and every other column is
      unchanged. */
  predicate ColumnMoved(g: Grid, g': Grid, n: nat, k: nat, x: Cell, front: bool)
    requires OddLine(n) && Square(g, n) && Square(g', n) && k < n
  {
    var jp := JokerPos(n);
    && (forall i, j :: 0 <= i < n && 0 <= j < n && j != k ==> g'[i][j] == g[i][j])
    && (front ==> g'[0][k] == x)
    && (front ==> forall i :: 1 <= i < n && (k != jp || (i != jp && i != jp + 1)) ==> g'[i][k] == g[i - 1][k])
    && (!front ==> g'[n - 1][k] == x)
    && (!front ==> forall i :: 0 <= i < n - 1 && (k != jp || (i != jp && i != jp - 1)) ==> g'[i][k] == g[i + 1][k])
    && (k == jp ==> g'[jp][jp] == g[jp][jp])
    && (k == jp && front ==> g'[jp + 1][jp] == g[jp - 1][jp])
    && (k == jp && !front ==> g'[jp - 1][jp] == g[jp + 1][jp])
  }

  /** Column insertion: the column moves as `ColumnMoved` describes and the
      cell at the far end is evicted. */
  lemma ShiftColumn(b: Board, ply: Ply)
    requires OddLine(b.size) && Square(b.cells, b.size)
    requires 1 <= ply.column <= b.size && ply.row in {0, b.size + 1}
    ensures var n, k, x, front := b.size, ply.column - 1, Occupied(ply.card), ply.row == 0;
      var r := Shift(b, ply, false, x);
      && r.Ok?
      && ColumnMoved(b.cells, r.value.0.cells, n, k, x, front)
      && r.value.1 == Evicted(if front then b.cells[n - 1][k] else b.cells[0][k])
  {
    var n, k, x, front := b.size, ply.column - 1, Occupied(ply.card), ply.row == 0;
    assert Shift(b, ply, false, x) == Ok(ColumnShift(b, k, x, front));
    ColumnShiftMoves(b.cells, n, k, x, front);
  }

  lemma ColumnShiftMoves(g: Grid, n: nat, k: nat, x: Cell, front: bool)
    requires OddLine(n) && Square(g, n) && k < n
    ensures ColumnMoved(g, ShiftedColumnGrid(g, n, k, x, front), n, k, x, front)
    ensures FarEnd(Column(g, n, k), front) == if front then g[n - 1][k] else g[0][k]
  {
    if front {
      ColumnShiftFront(g, n, k, x);
    } else {
      ColumnShiftBack(g, n, k, x);
    }
  }

  /** Column insertion through the transpose leaves other columns alone and
      puts the shifted line in column `k`. */
  lemma ColumnShiftCells(g: Grid, n: nat, k: nat, x: Cell, front: bool)
    requires OddLine(n) && Square(g, n) && k < n
    ensures var t := Transpose(g, n);
      var newLine := Insert(t[k], x, front, k == JokerPos(n));
      && (forall i :: 0 <= i < n ==> t[k][i] == g[i][k])
      && (forall i, j {:trigger ShiftedColumnGrid(g, n, k, x, front)[i][j]} :: 0 <= i < n && 0 <= j < n ==>
            ShiftedColumnGrid(g, n, k, x, front)[i][j] == (if j == k then newLine[i] else g[i][j]))
  {
    var t := Transpose(g, n);
    ColumnViaTranspose(g, n, k, Insert(t[k], x, front, k == JokerPos(n)));
  }

  lemma ColumnShiftFront(g: Grid, n: nat, k: nat, x: Cell)
    requires OddLine(n) && Square(g, n) && k < n
    ensures var jp, g' := JokerPos(n), ShiftedColumnGrid(g, n, k, x, true);
      && (forall i, j {:trigger g'[i][j]} :: 0 <= i < n && 0 <= j < n && j != k ==> g'[i][j] == g[i][j])
      && g'[0][k] == x
      && FarEnd(Column(g, n, k), true) == g[n - 1][k]
      && (forall i :: 1 <= i < n && (k != jp || (i != jp && i != jp + 1)) ==> g'[i][k] == g[i - 1][k])
      && (k == jp ==> g'[jp][jp] == g[jp][jp] && g'[jp + 1][jp] == g[jp - 1][jp])
  {
    var jp, g' := JokerPos(n), ShiftedColumnGrid(g, n, k, x, true);
    var t := Transpose(g, n);
    var newLine := Insert(t[k], x, true, k == jp);
    ColumnShiftCells(g, n, k, x, true);
    assert |t[k]| == n;
    assert FarEnd(t[k], true) == t[k][n - 1];
    forall i | 1 <= i < n && (k != jp || (i != jp && i != jp + 1)) ensures g'[i][k] == g[i - 1][k] {
      assert g'[i][k] == newLine[i] == t[k][i - 1];
    }
  }

  lemma ColumnShiftBack(g: Grid, n: nat, k: nat, x: Cell)
    requires OddLine(n) && Square(g, n) && k < n
    ensures var jp, g' := JokerPos(n), ShiftedColumnGrid(g, n, k, x, false);
      && (forall i, j {:trigger g'[i][j]} :: 0 <= i < n && 0 <= j < n && j != k ==> g'[i][j] == g[i][j])
      && g'[n - 1][k] == x
      && FarEnd(Column(g, n, k), false) == g[0][k]
      && (forall i :: 0 <= i < n - 1 && (k != jp || (i != jp && i != jp - 1)) ==> g'[i][k] == g[i + 1][k])
      && (k == jp ==> g'[jp][jp] == g[jp][jp] && g'[jp - 1][jp] == g[jp + 1][jp])
  {
    ColumnShiftCells(g, n, k, x, false);
  }

  /** The cell an undo must put back: the evicted one, or nothing after a
      placement (the source passes `'Insert'` there, which the undo of a
      placement never reads). */
  function UndoCell(o: Outcome): Cell {
    match o
    case Evicted(c) => c
    case _ => Empty
  }

  /** Inserting through the transpose and then inserting the evicted cell
      from the other end restores the grid. */
  lemma ColumnRoundTrip(g: Grid, n: nat, k: nat, x: Cell, front: bool)
    requires OddLine(n) && Square(g, n) && k < n
    ensures var g1 := ShiftedColumnGrid(g, n, k, x, front);
      && ShiftedColumnGrid(g1, n, k, FarEnd(Column(g, n, k), front), !front) == g
      && FarEnd(Column(g1, n, k), !front) == x
  {
    var jp := JokerPos(n);
    var t := Transpose(g, n);
    var line := t[k];
    var newLine := Insert(line, x, front, k == jp);
    var t1 := t[k := newLine];
    var g1 := Transpose(t1, n);
    assert g1 == ShiftedColumnGrid(g, n, k, x, front);
    assert Transpose(g1, n) == t1 by {
      assert Square(t1, n);
      TransposeTwice(t1, n);
    }
    assert Column(g, n, k) == line && Column(g1, n, k) == newLine;
    assert t1[k := Insert(t1[k], FarEnd(line, front), !front, k == jp)] == t by {
      InsertRoundTrip(line, x, front, k == jp);
    }
    TransposeTwice(g, n);
  }

  /** The row counterpart of `ColumnRoundTrip`. */
  lemma RowRoundTrip(g: Grid, n: nat, k: nat, x: Cell, front: bool)
    requires OddLine(n) && Square(g, n) && k < n
    ensures var g1 := ShiftedRowGrid(g, n, k, x, front);
      && ShiftedRowGrid(g1, n, k, FarEnd(g[k], front), !front) == g
      && FarEnd(g1[k], !front) == x
  {
    InsertRoundTrip(g[k], x, front, k == JokerPos(n));
    assert g[k := Insert(g[k], x, front, k == JokerPos(n))][k := g[k]] == g;
  }

  lemma RowShiftUndo(b: Board, k: nat, x: Cell, front: bool)
    requires OddLine(b.size) && Square(b.cells, b.size) && k < b.size
    ensures var r := RowShift(b, k, x, front);
      RowShift(r.0, k, UndoCell(r.1), !front) == (b, Evicted(x))
  {
    RowRoundTrip(b.cells, b.size, k, x, front);
  }

  lemma ColumnShiftUndo(b: Board, k: nat, x: Cell, front: bool)
    requires OddLine(b.size) && Square(b.cells, b.size) && k < b.size
    ensures var r := ColumnShift(b, k, x, front);
      ColumnShift(r.0, k, UndoCell(r.1), !front) == (b, Evicted(x))
  {
    ColumnRoundTrip(b.cells, b.size, k, x, front);
  }

  /** A shift followed by the shift from the opposite side with the evicted
      cell restores the board and pushes the inserted cell back out. */
  lemma ShiftRoundTrip(b: Board, ply: Ply, x: Cell)
    requires OddLine(b.size) && Square(b.cells, b.size)
    requires Shift(b, ply, false, x).Ok?
    ensures var r := Shift(b, ply, false, x).value;
      Shift(r.0, ply, true, UndoCell(r.1)) == Ok((b, Evicted(x)))
  {
    if 0 < ply.row <= b.size && ply.column in {0, b.size + 1} {
      RowShiftRoundTrip(b, ply, x);
    } else {
      ColumnShiftRoundTrip(b, ply, x);
    }
  }

  lemma RowShiftRoundTrip(b: Board, ply: Ply, x: Cell)
    requires OddLine(b.size) && Square(b.cells, b.size)
    requires 0 < ply.row <= b.size && ply.column in {0, b.size + 1}
    ensures var r := Shift(b, ply, false, x).value;
      Shift(r.0, ply, true, UndoCell(r.1)) == Ok((b, Evicted(x)))
  {
    var k, front := ply.row - 1, ply.column == 0;
    var r := RowShift(b, k, x, front);
    assert Shift(b, ply, false, x) == Ok(r);
    assert Shift(r.0, ply, true, UndoCell(r.1)) == Ok(RowShift(r.0, k, UndoCell(r.1), !front));
    RowShiftUndo(b, k, x, front);
  }

  lemma ColumnShiftRoundTrip(b: Board, ply: Ply, x: Cell)
    requires OddLine(b.size) && Square(b.cells, b.size)
    requires 0 < ply.column <= b.size && ply.row in {0, b.size + 1} && !(0 < ply.row <= b.size)
    ensures var r := Shift(b, ply, false, x).value;
      Shift(r.0, ply, true, UndoCell(r.1)) == Ok((b, Evicted(x)))
  {
    var k, front := ply.column - 1, ply.row == 0;
    var r := ColumnShift(b, k, x, front);
    assert Shift(b, ply, false, x) == Ok(r);
    assert Shift(r.0, ply, true, UndoCell(r.1)) == Ok(ColumnShift(r.0, k, UndoCell(r.1), !front));
    ColumnShiftUndo(b, k, x, front);
  }

  /** `update(ply)` followed by `update(ply, undo=True, undiscard=evicted)`
      gives back the original board: a placement is cleared, and a shift is
      replayed from the opposite side with the evicted cell, which pushes
      the played card back out. */
  lemma UpdateUndoRoundTrip(b: Board, ply: Ply)
    requires OddLine(b.size) && Square(b.cells, b.size)
    requires Update(b, ply, false, Empty).Ok?
    ensures var (b', o) := Update(b, ply, false, Empty).value;
      && Update(b', ply, true, UndoCell(o)).Ok?
      && Update(b', ply, true, UndoCell(o)).value.0 == b
      && Update(b', ply, true, UndoCell(o)).value.1 == (if o == Inserted then UndoneInsert else Evicted(Occupied(ply.card)))
  {
    if Empties(b) != [] {
      FillUndo(b, ply);
    } else {
      ShiftUndo(b, ply);
    }
  }

  lemma FillUndo(b: Board, ply: Ply)
    requires OddLine(b.size) && Square(b.cells, b.size)
    requires Update(b, ply, false, Empty).Ok? && Empties(b) != []
    ensures var (b', o) := Update(b, ply, false, Empty).value;
      Update(b', ply, true, UndoCell(o)) == Ok((b, UndoneInsert)) && o == Inserted
  {
    var x := Occupied(ply.card);
    var (b', o) := Update(b, ply, false, Empty).value;
    var r, c := ply.row - 1, ply.column - 1;
    assert (ply.row, ply.column) in Empties(b);
    assert b.cells[r][c] == Empty;
    assert IsInsert(b', ply);
    assert b'.cells == b.cells[r := b.cells[r][c := x]];
    assert b.cells[r][c := x][c := Empty] == b.cells[r];
    assert b'.cells[r := b'.cells[r][c := Empty]] == b.cells;
  }

  lemma ShiftUndo(b: Board, ply: Ply)
    requires OddLine(b.size) && Square(b.cells, b.size)
    requires Update(b, ply, false, Empty).Ok? && Empties(b) == []
    ensures var (b', o) := Update(b, ply, false, Empty).value;
      Update(b', ply, true, UndoCell(o)) == Ok((b, Evicted(Occupied(ply.card))))
  {
    var n, x := b.size, Occupied(ply.card);
    UpdateIsShift(b, ply);
    var (b', o) := Shift(b, ply, false, x).value;
    var e := UndoCell(o);
    ShiftEvictsACard(b, ply, x);
    assert !IsInsert(b', ply);
    UndoIsShift(b', ply, e);
    ShiftRoundTrip(b, ply, x);
  }

  /** In the shift phase the evicted cell is a real cell of the board, never
      empty, so the undo has a card to put back. */
  lemma ShiftEvictsACard(b: Board, ply: Ply, x: Cell)
    requires OddLine(b.size) && Square(b.cells, b.size) && Empties(b) == []
    requires Shift(b, ply, false, x).Ok?
    ensures Shift(b, ply, false, x).value.1.Evicted?
    ensures Shift(b, ply, false, x).value.1.cell != Empty
  {
    var r, c := EvictedFrom(b, ply, x);
    assert (r + 1, c + 1) !in Empties(b);
  }

  /** The cell a shift evicts is the cell at the far end of its line. */
  lemma EvictedFrom(b: Board, ply: Ply, x: Cell) returns (r: nat, c: nat)
    requires OddLine(b.size) && Square(b.cells, b.size) && Shift(b, ply, false, x).Ok?
    ensures r < b.size && c < b.size && Shift(b, ply, false, x).value.1 == Evicted(b.cells[r][c])
  {
    var n := b.size;
    if 0 < ply.row <= n && ply.column in {0, n + 1} {
      r, c := ply.row - 1, if ply.column == 0 then n - 1 else 0;
      assert Shift(b, ply, false, x) == Ok(RowShift(b, r, x, ply.column == 0));
    } else {
      var k := ply.column - 1;
      r, c := if ply.row == 0 then n - 1 else 0, k;
      assert Shift(b, ply, false, x) == Ok(ColumnShift(b, k, x, ply.row == 0));
      assert FarEnd(Column(b.cells, n, k), ply.row == 0) == b.cells[r][k];
    }
  }


}

=== FILE: board2_wf.dfy ===
/**
  * The board invariant of curling2.py survives every move: the joker never
  * leaves the centre, no other cell becomes a joker, and every card on the
  * board keeps a non-negative value.
  */
module Board2Invariants {
  import opened Results
  import opened Cards
  import opened Lines
  import opened Grid
  import opened Board2

  /** A cell that a move may put on the board: a card of non-negative value
      or nothing, never a joker. */
  predicate Placeable(c: Cell) {
    c != Joker && (c.Occupied? ==> c.card.value >= 0)
  }

  /** Where the joker belongs in line `r` of a board of size `n`: the centre
      of the middle line, nowhere (-1) in every other line. */
  function JokerAt(n: nat, r: nat): int {
    if r == JokerPos(n) then JokerPos(n) else -1
  }

  /** One row or column seen on its own: the joker sits exactly at `at` and
      every card has a non-negative value. */
  predicate LineOk(line: seq<Cell>, at: int) {
    forall i :: 0 <= i < |line| ==> (line[i] == Joker <==> i == at) && (line[i].Occupied? ==> line[i].card.value >= 0)
  }

  /** The board invariant read line by line. */
  lemma WellFormedByRows(b: Board)
    requires OddLine(b.size) && Square(b.cells, b.size)
    ensures WellFormed(b) <==> forall r :: 0 <= r < b.size ==> LineOk(b.cells[r], JokerAt(b.size, r))
  {
    var n, jp := b.size, JokerPos(b.size);
    if forall r :: 0 <= r < n ==> LineOk(b.cells[r], JokerAt(n, r)) {
      assert LineOk(b.cells[jp], JokerAt(n, jp));
    }
  }

  /** The same invariant read column by column. */
  lemma WellFormedColumn(b: Board, k: nat)
    requires WellFormed(b) && k < b.size
    ensures LineOk(Column(b.cells, b.size, k), JokerAt(b.size, k))
  {
  }

  /** Inserting a placeable cell keeps a line's joker where it belongs. */
  lemma {:induction false} InsertLineOk(line: seq<Cell>, x: Cell, front: bool, jokerLine: bool)
    requires OddLine(|line|) && Placeable(x)
    requires LineOk(line, if jokerLine then |line| / 2 else -1)
    ensures LineOk(Insert(line, x, front, jokerLine), if jokerLine then |line| / 2 else -1)
  {
    var r := Insert(line, x, front, jokerLine);
    forall i | 0 <= i < |r|
      ensures (r[i] == Joker <==> i == (if jokerLine then |line| / 2 else -1))
      ensures r[i].Occupied? ==> r[i].card.value >= 0
    {
      var k := InsertSource(line, x, front, jokerLine, i);
    }
  }

  /** A row shift with a placeable cell keeps the board well formed. */
  lemma RowShiftWellFormed(b: Board, k: nat, x: Cell, front: bool, b': Board)
    requires WellFormed(b) && k < b.size && Placeable(x) && b' == RowShift(b, k, x, front).0
    ensures WellFormed(b')
  {
    var n := b.size;
    WellFormedByRows(b);
    assert LineOk(b.cells[k], JokerAt(n, k));
    InsertLineOk(b.cells[k], x, front, k == JokerPos(n));
    assert forall r :: 0 <= r < n ==> LineOk(b'.cells[r], JokerAt(n, r));
    WellFormedByRows(b');
  }

  /** A column shift with a placeable cell keeps the board well formed. */
  lemma ColumnShiftWellFormed(b: Board, k: nat, x: Cell, front: bool, b': Board)
    requires WellFormed(b) && k < b.size && Placeable(x) && b' == ColumnShift(b, k, x, front).0
    ensures WellFormed(b')
  {
    var n, jp := b.size, JokerPos(b.size);
    var t := Transpose(b.cells, n);
    var newLine := Insert(t[k], x, front, k == jp);
    ColumnShiftCells(b.cells, n, k, x, front);
    WellFormedColumn(b, k);
    assert t[k] == Column(b.cells, n, k);
    InsertLineOk(t[k], x, front, k == jp);
    ColumnReplaceWellFormed(b, b', k, newLine);
  }

  /** Replacing column `k` by a line that is itself in order keeps the board
      well formed. */
  lemma ColumnReplaceWellFormed(b: Board, b': Board, k: nat, line: seq<Cell>)
    requires WellFormed(b) && k < b.size && b'.size == b.size && Square(b'.cells, b.size)
    requires |line| == b.size && LineOk(line, JokerAt(b.size, k))
    requires forall i, j {:trigger b'.cells[i][j]} :: 0 <= i < b.size && 0 <= j < b.size ==>
               b'.cells[i][j] == (if j == k then line[i] else b.cells[i][j])
    ensures WellFormed(b')
  {
  }

  /** A move accepted by `update` (not an undo) keeps the board well formed,
      provided the card played has a non-negative value. */
  lemma UpdateWellFormed(b: Board, ply: Ply)
    requires WellFormed(b) && ply.card.value >= 0
    requires Update(b, ply, false, Empty).Ok?
    ensures WellFormed(Update(b, ply, false, Empty).value.0)
  {
    if Empties(b) != [] {
      UpdateFillPhase(b, ply);
    } else {
      UpdateIsShift(b, ply);
      ShiftWellFormed(b, ply, Occupied(ply.card));
    }
  }

  lemma ShiftWellFormed(b: Board, ply: Ply, x: Cell)
    requires WellFormed(b) && Placeable(x) && Shift(b, ply, false, x).Ok?
    ensures WellFormed(Shift(b, ply, false, x).value.0)
  {
    var n := b.size;
    if 0 < ply.row <= n && ply.column in {0, n + 1} {
      ShiftRowWellFormed(b, ply, x);
    } else {
      ShiftColumnWellFormed(b, ply, x);
    }
  }

  lemma ShiftRowWellFormed(b: Board, ply: Ply, x: Cell)
    requires WellFormed(b) && Placeable(x) && 0 < ply.row <= b.size && ply.column in {0, b.size + 1}
    ensures Shift(b, ply, false, x).Ok? && WellFormed(Shift(b, ply, false, x).value.0)
  {
    ShiftIsRowShift(b, ply, x);
    RowShiftWellFormed(b, ply.row - 1, x, ply.column == 0, Shift(b, ply, false, x).value.0);
  }

  lemma ShiftIsRowShift(b: Board, ply: Ply, x: Cell)
    requires OddLine(b.size) && Square(b.cells, b.size) && 0 < ply.row <= b.size && ply.column in {0, b.size + 1}
    ensures Shift(b, ply, false, x) == Ok(RowShift(b, ply.row - 1, x, ply.column == 0))
  {
  }

  lemma ShiftColumnWellFormed(b: Board, ply: Ply, x: Cell)
    requires WellFormed(b) && Placeable(x) && !(0 < ply.row <= b.size && ply.column in {0, b.size + 1})
    requires 0 < ply.column <= b.size && ply.row in {0, b.size + 1}
    ensures Shift(b, ply, false, x).Ok? && WellFormed(Shift(b, ply, false, x).value.0)
  {
    ShiftIsColumnShift(b, ply, x);
    ColumnShiftWellFormed(b, ply.column - 1, x, ply.row == 0, Shift(b, ply, false, x).value.0);
  }

  lemma ShiftIsColumnShift(b: Board, ply: Ply, x: Cell)
    requires OddLine(b.size) && Square(b.cells, b.size) && !(0 < ply.row <= b.size && ply.column in {0, b.size + 1})
    requires 0 < ply.column <= b.size && ply.row in {0, b.size + 1}
    ensures Shift(b, ply, false, x) == Ok(ColumnShift(b, ply.column - 1, x, ply.row == 0))
  {
  }
}

=== FILE: cards.dfy ===
/** Cards, the joker and the cells of the board (curling2.py:8-38,
    curling.py:8-40).  The `played`/`discarded` bookkeeping flags are not
    part of the model. */
module Cards {
  import opened Results

  datatype Card = Card(name: string, suit: string, value: int)

  /** A board cell: empty (the source's `''`), the joker, or a card. */
  datatype Cell = Empty | Joker | Occupied(card: Card)

  /** The placeholder card `Card('*', '*')` that fills non-empty start cells. */
  const Placeholder: Card := Card("*", "*", 0)

  predicate IsDigit(ch: char) { '0' <= ch <= '9' }

  predicate IsDigits(s: string) {
    |s| > 0 && forall i :: 0 <= i < |s| ==> IsDigit(s[i])
  }

  /** The value of a non-empty run of decimal digits. */
  function DigitsValue(s: string): nat
    requires forall i :: 0 <= i < |s| ==> IsDigit(s[i])
    decreases |s|
  {
    if |s| == 0 then 0
    else
      assert IsDigit(s[|s| - 1]);
      DigitsValue(s[..|s| - 1]) * 10 + (s[|s| - 1] as int - '0' as int)
  }

  /** Python's `int(s)` restricted to an optional sign followed by ASCII
      digits; everything else raises ValueError. */
  function ParseInt(s: string): Option<int> {
    if IsDigits(s) then Some(DigitsValue(s) as int)
    else if |s| > 1 && s[0] == '-' && IsDigits(s[1..]) then Some(-(DigitsValue(s[1..]) as int))
    else if |s| > 1 && s[0] == '+' && IsDigits(s[1..]) then Some(DigitsValue(s[1..]) as int)
    else None
  }

  function DigitChar(d: nat): char
    requires d < 10
  {
    ('0' as int + d) as char
  }

  /** Python's `str(n)` for a natural number. */
  function DecimalString(n: nat): (s: string)
    ensures IsDigits(s)
    decreases n
  {
    if n < 10 then [DigitChar(n)] else DecimalString(n / 10) + [DigitChar(n % 10)]
  }

  /** `int(str(n)) == n`: the hands are dealt from integers 2..10, turned
      into names by `str` and valued by `int`. */
  lemma {:induction false} ParseDecimalString(n: nat)
    ensures ParseInt(DecimalString(n)) == Some(n)
  {
    DigitsOfDecimalString(n);
  }

  lemma {:induction false} DigitsOfDecimalString(n: nat)
    ensures DigitsValue(DecimalString(n)) == n
    decreases n
  {
    var s := DecimalString(n);
    if n >= 10 {
      DigitsOfDecimalString(n / 10);
      assert s[..|s| - 1] == DecimalString(n / 10);
    }
  }

  /** The name a card stores: `'10'` is shortened to `'0'`. */
  function StoredName(name: string): string {
    if name == "10" then "0" else name
  }

  /** `Card(name, suit)` of curling2.py: `'*'` is worth 0, J/Q/K 10, A 1,
      anything else its integer value. */
  function NewCard(name: string, suit: string): (r: Result<Card>)
    ensures r.Ok? ==> r.value.suit == suit
    ensures r.Ok? ==> (r.value.name == "0" <==> name in {"10", "0"})
    ensures name in {"J", "Q", "K"} ==> r == Ok(Card(name, suit, 10))
    ensures name == "A" ==> r == Ok(Card(name, suit, 1))
    ensures name == "*" ==> r == Ok(Card(name, suit, 0))
    ensures name !in {"*", "J", "Q", "K", "A"} ==>
              (r.Ok? <==> ParseInt(name).Some?) &&
              (r.Ok? ==> r.value.value == ParseInt(name).value)
  {
    var value :=
      if name == "*" then Some(0)
      else if name in {"J", "Q", "K"} then Some(10)
      else if name == "A" then Some(1)
      else ParseInt(name);
    match value
    case None => Err(NotANumber)
    case Some(v) => Ok(Card(StoredName(name), suit, v))
  }

  /** `Card(name, suit)` of curling.py: as `NewCard`, except that `'Jkr'`
      is also worth 0. */
  function NewCardOld(name: string, suit: string): (r: Result<Card>)
    ensures name == "Jkr" ==> r == Ok(Card("Jkr", suit, 0))
    ensures name != "Jkr" ==> r == NewCard(name, suit)
  {
    if name == "Jkr" then Ok(Card(name, suit, 0)) else NewCard(name, suit)
  }

  /** The order in which `Player.__init__` deals a suit: K, Q, J, A, then
      `str(n)` for n in 2..10. */
  function HandNames(): seq<string> {
    ["K", "Q", "J", "A"] + seq(9, i requires 0 <= i < 9 => DecimalString(i + 2))
  }

  /** The thirteen cards of one suit dealt to a new player. */
  function Deal(suit: string): (hand: seq<Card>)
    ensures |hand| == 13
    ensures forall i :: 0 <= i < 13 ==> hand[i].suit == suit
    ensures forall i :: 0 <= i < 13 ==> 1 <= hand[i].value <= 10
    ensures forall i, j :: 0 <= i < j < 13 ==> hand[i].name != hand[j].name
  {
    [Card("K", suit, 10), Card("Q", suit, 10), Card("J", suit, 10), Card("A", suit, 1),
     Card("2", suit, 2), Card("3", suit, 3), Card("4", suit, 4), Card("5", suit, 5),
     Card("6", suit, 6), Card("7", suit, 7), Card("8", suit, 8), Card("9", suit, 9),
     Card("0", suit, 10)]
  }

  /** Each dealt card is exactly the one `NewCard` builds from the name the
      dealer passes, so the dealt values are K/Q/J 10, A 1, n for n. */
  lemma DealAgreesWithNewCard(suit: string, i: nat)
    requires i < 13
    ensures NewCard(HandNames()[i], suit) == Ok(Deal(suit)[i])
  {
    if i >= 4 {
      var n := i - 2;
      ParseDecimalString(n);
      var s := DecimalString(n);
      assert s == HandNames()[i];
      assert IsDigit(s[0]);
      assert s !in {"*", "J", "Q", "K", "A"};
      if n == 10 {
        assert s == DecimalString(1) + [DigitChar(0)];
        assert s == "10";
      } else {
        assert s == [DigitChar(n)];
      }
    }
  }
}

=== FILE: game1.dfy ===
/** The turn and the final count of curling.py (`Player.in_hand`, lines
    207-211; `turn`, lines 289-333; `final`, lines 336-353).  The state is
    what the source pickles between turns: the board, the players, the
    discard pile and whose turn it is. */
module Game1 {
  import opened Results
  import opened Cards
  import opened Lines
  import opened Grid
  import Board2
  import Board1
  import Game2

  datatype State = State(board: Board2.Board, players: seq<Game2.Player>, discarded: seq<Cell>, turn: nat)

  predicate Shape(s: State) {
    && |s.players| > 0 && s.turn < |s.players|
    && OddLine(s.board.size) && Square(s.board.cells, s.board.size)
  }

  // ---------------------------------------------------------------- players

  /** `in_hand(name)`: the first card in the hand with that name, if any. */
  function InHand(h: seq<Card>, name: string): (r: Option<Card>)
    ensures r.None? <==> forall c :: c in h ==> c.name != name
    ensures r.Some? ==> r.value in h && r.value.name == name
    ensures r.Some? ==> exists i :: 0 <= i < |h| && h[i] == r.value && forall j :: 0 <= j < i ==> h[j].name != name
  {
    if h == [] then None
    else if h[0].name == name then
      assert h[0] == h[0];
      Some(h[0])
    else
      var r := InHand(h[1..], name);
      if r.Some? then
        var i :| 0 <= i < |h[1..]| && h[1..][i] == r.value && forall j :: 0 <= j < i ==> h[1..][j].name != name;
        assert h[i + 1] == r.value;
        r
      else r
  }

  /** The player loop of `turn` (lines 314-316): the first position holding a
      player of the given name, or the last position when there is none. */
  function NameIndex(ps: seq<Game2.Player>, name: string): (i: nat)
    requires |ps| > 0
    ensures i < |ps|
    ensures forall j :: 0 <= j < i ==> ps[j].name != name
    ensures ps[i].name == name || (i == |ps| - 1 && forall j :: 0 <= j < |ps| ==> ps[j].name != name)
  {
    if ps[0].name == name || |ps| == 1 then 0 else 1 + NameIndex(ps[1..], name)
  }

  /** The wrap of lines 317-320: the last position goes back to 0. */
  function NextTurn(i: nat, n: nat): nat {
    if i == n - 1 then 0 else i + 1
  }

  /** The explicit wrap is curling2.py's `(p_turn + 1) % len(players)`. */
  lemma NextTurnIsNext(i: nat, n: nat)
    requires i < n
    ensures NextTurn(i, n) == Game2.Next(i, n)
  {
    if i + 1 < n {
      Game2.ModBelow(i + 1, n);
    } else {
      Game2.ModWrap(n);
    }
  }

  /** No two players share a name. */
  predicate DistinctNames(ps: seq<Game2.Player>) {
    forall i, j :: 0 <= i < j < |ps| ==> ps[i].name != ps[j].name
  }

  /** With distinct names the loop finds the player who moved, so the turn
      passes to the next seat. */
  lemma NameIndexOfMover(ps: seq<Game2.Player>, t: nat)
    requires t < |ps| && DistinctNames(ps)
    ensures NameIndex(ps, ps[t].name) == t
  {
  }

  // ------------------------------------------------------------------- turn

  /** `turn(card, row, column)`.  '10' is read as '0'; a card the mover does
      not hold is refused; a refused board update leaves everything as it
      was.  Otherwise the evicted card is discarded, the card leaves the
      mover's hand, the turn passes to the seat after the mover's, and the
      player now to move is credited with what the new board scores for
      their suit (`statement_and_score`, lines 280-286). */
  function Turn(s: State, name: string, row: int, column: int): (r: Result<State>)
    requires Shape(s)
    ensures r.Ok? ==> Shape(r.value) && |r.value.players| == |s.players|
    ensures var c := InHand(s.players[s.turn].hand, StoredName(name));
      && (c.None? ==> r == Err(PickCardAgain))
      && (c.Some? ==> (r.Err? <==> Board1.Update(s.board, c.value, row, column).Err?))
      && (c.Some? && r.Err? ==> r.error == Board1.Update(s.board, c.value, row, column).error)
      && (r.Ok? ==> c.Some? && r.value.board == Board1.Update(s.board, c.value, row, column).value.0)
  {
    match InHand(s.players[s.turn].hand, StoredName(name))
    case None => Err(PickCardAgain)
    case Some(c) =>
      var u :- Board1.Update(s.board, c, row, column);
      Ok(Advance(s, c, u.0, u.1))
  }

  /** What `turn` does once `update` has accepted card `c`, leaving board
      `b` and reporting `o`. */
  function Advance(s: State, c: Card, b: Board2.Board, o: Board2.Outcome): (r: State)
    requires Shape(s) && c in s.players[s.turn].hand
    requires OddLine(b.size) && Square(b.cells, b.size)
    ensures Shape(r) && |r.players| == |s.players|
  {
    var mover := s.players[s.turn];
    var moved := s.players[s.turn := Game2.Play(mover, c).value];
    var t := NextTurn(NameIndex(moved, mover.name), |moved|);
    var next := moved[t];
    var credited := moved[t := next.(score := next.score + Board1.Score(b, next.suit))];
    State(b, credited, Game2.Discard(s.discarded, o), t)
  }

  /** A turn taken: the board is the one `update` produced, the mover has
      lost exactly the named card, the discard pile has grown by the evicted
      card (by nothing after a placement), the turn has moved one seat on,
      and the only score that changed is the new mover's, by the new board's
      score for their suit. */
  lemma TurnEffect(s: State, name: string, row: int, column: int)
    requires Shape(s) && DistinctNames(s.players) && Turn(s, name, row, column).Ok?
    ensures var r, n, t := Turn(s, name, row, column).value, |s.players|, s.turn;
      var c := InHand(s.players[t].hand, StoredName(name)).value;
      var u := Board1.Update(s.board, c, row, column).value;
      && c.name == StoredName(name)
      && r.board == u.0
      && r.discarded == Game2.Discard(s.discarded, u.1)
      && r.turn == Game2.Next(t, n)
      && multiset(r.players[t].hand) == multiset(s.players[t].hand) - multiset{c}
      && (forall i :: 0 <= i < n && i != t ==> r.players[i].hand == s.players[i].hand)
      && (forall i :: 0 <= i < n ==> r.players[i].name == s.players[i].name && r.players[i].suit == s.players[i].suit)
      && (forall i :: 0 <= i < n && i != r.turn ==> r.players[i].score == s.players[i].score)
      && r.players[r.turn].score == s.players[r.turn].score + Board1.Score(u.0, s.players[r.turn].suit)
  {
    var c := InHand(s.players[s.turn].hand, StoredName(name)).value;
    var u := Board1.Update(s.board, c, row, column).value;
    assert Turn(s, name, row, column) == Ok(Advance(s, c, u.0, u.1));
    AdvanceEffect(s, c, u.0, u.1);
  }

  lemma AdvanceEffect(s: State, c: Card, b: Board2.Board, o: Board2.Outcome)
    requires Shape(s) && c in s.players[s.turn].hand && DistinctNames(s.players)
    requires OddLine(b.size) && Square(b.cells, b.size)
    ensures var r, n, t := Advance(s, c, b, o), |s.players|, s.turn;
      && r.board == b
      && r.discarded == Game2.Discard(s.discarded, o)
      && r.turn == Game2.Next(t, n)
      && multiset(r.players[t].hand) == multiset(s.players[t].hand) - multiset{c}
      && (forall i :: 0 <= i < n && i != t ==> r.players[i].hand == s.players[i].hand)
      && (forall i :: 0 <= i < n ==> r.players[i].name == s.players[i].name && r.players[i].suit == s.players[i].suit)
      && (forall i :: 0 <= i < n && i != r.turn ==> r.players[i].score == s.players[i].score)
      && r.players[r.turn].score == s.players[r.turn].score + Board1.Score(b, s.players[r.turn].suit)
  {
    AdvanceUnfolded(s, c, b, o);
    CreditedEffect(s.players, s.turn, c, Game2.Next(s.turn, |s.players|), b, Advance(s, c, b, o).players);
  }

  /** The players after the mover has played `c` from seat `t` and seat `t'`
      has been credited with what board `b` scores for its suit. */
  lemma CreditedEffect(ps: seq<Game2.Player>, t: nat, c: Card, t': nat, b: Board2.Board, rs: seq<Game2.Player>)
    requires t < |ps| && t' < |ps| && c in ps[t].hand
    requires OddLine(b.size) && Square(b.cells, b.size)
    requires var moved := ps[t := Game2.Play(ps[t], c).value];
      rs == moved[t' := moved[t'].(score := moved[t'].score + Board1.Score(b, moved[t'].suit))]
    ensures |rs| == |ps|
    ensures multiset(rs[t].hand) == multiset(ps[t].hand) - multiset{c}
    ensures forall i :: 0 <= i < |ps| && i != t ==> rs[i].hand == ps[i].hand
    ensures forall i :: 0 <= i < |ps| ==> rs[i].name == ps[i].name && rs[i].suit == ps[i].suit
    ensures forall i :: 0 <= i < |ps| && i != t' ==> rs[i].score == ps[i].score
    ensures rs[t'].score == ps[t'].score + Board1.Score(b, ps[t'].suit)
  {
  }

  /** The old turn and curling2.py's `make_move` agree: on a board with the
      joker at its centre, with distinct player names, when the game goes on
      after the move and `make_move` accepts it, `turn` accepts the same move
      (the 3x3 middle column aside) and reaches the same board, hands,
      scores, discard pile and turn. */
  lemma TurnAgrees(s: State, name: string, row: int, column: int, g: Game2.Game)
    requires Shape(s) && DistinctNames(s.players) && Board2.WellFormed(s.board)
    requires g.board == s.board && g.players == s.players && g.discarded == s.discarded && g.turn == s.turn
    requires InHand(s.players[s.turn].hand, StoredName(name)).Some?
    requires var c := InHand(s.players[s.turn].hand, StoredName(name)).value;
      Game2.MakeMove(g, Board2.Ply(c, row, column)).Ok? && !Game2.MakeMove(g, Board2.Ply(c, row, column)).value.gameOver
    requires !(s.board.size == 3 && column == 2 && row in {0, 4})
    ensures Turn(s, name, row, column).Ok?
    ensures var c := InHand(s.players[s.turn].hand, StoredName(name)).value;
      var r, m := Turn(s, name, row, column).value, Game2.MakeMove(g, Board2.Ply(c, row, column)).value;
      r.board == m.board && r.players == m.players && r.discarded == m.discarded && r.turn == m.turn
  {
    var c := InHand(s.players[s.turn].hand, StoredName(name)).value;
    var ply := Board2.Ply(c, row, column);
    var u := Board2.Update(s.board, ply, false, Empty).value;
    assert Turn(s, name, row, column) == Ok(Advance(s, c, u.0, u.1)) by {
      Board1.UpdateAgrees(s.board, c, row, column);
    }
    var g1 := MakeMoveCredits(g, ply, u.0, u.1);
    AdvanceAgrees(s, c, u.0, u.1, g1);
  }

  lemma AdvanceAgrees(s: State, c: Card, b: Board2.Board, o: Board2.Outcome, g1: Game2.Game)
    requires Shape(s) && DistinctNames(s.players) && c in s.players[s.turn].hand
    requires OddLine(b.size) && Square(b.cells, b.size)
    requires g1.board == b && g1.discarded == Game2.Discard(s.discarded, o)
    requires g1.players == s.players[s.turn := Game2.Play(s.players[s.turn], c).value]
    requires g1.turn == Game2.Next(s.turn, |s.players|)
    requires Game2.Shape(g1) && Game2.Credit(g1, g1.turn, 1).Ok?
    ensures var r, m := Advance(s, c, b, o), Game2.Credit(g1, g1.turn, 1).value;
      r.board == m.board && r.players == m.players && r.discarded == m.discarded && r.turn == m.turn
  {
    var moved, t' := g1.players, g1.turn;
    var credited := moved[t' := moved[t'].(score := moved[t'].score + Board1.Score(b, moved[t'].suit))];
    AdvanceUnfolded(s, c, b, o);
    var m := Game2.Credit(g1, t', 1).value;
    assert m.players == credited by {
      assert !b.final;
      assert Board2.Score(b, moved[t'].suit) == Ok(Board1.Score(b, moved[t'].suit));
    }
  }

  /** With distinct names, `Advance` credits the seat after the mover's. */
  lemma AdvanceUnfolded(s: State, c: Card, b: Board2.Board, o: Board2.Outcome)
    requires Shape(s) && DistinctNames(s.players) && c in s.players[s.turn].hand
    requires OddLine(b.size) && Square(b.cells, b.size)
    ensures var t, n := s.turn, |s.players|;
      var moved := s.players[t := Game2.Play(s.players[t], c).value];
      var t' := Game2.Next(t, n);
      Advance(s, c, b, o) ==
        State(b, moved[t' := moved[t'].(score := moved[t'].score + Board1.Score(b, moved[t'].suit))], Game2.Discard(s.discarded, o), t')
  {
    var t, n := s.turn, |s.players|;
    var mover := s.players[t];
    var moved := s.players[t := Game2.Play(mover, c).value];
    assert NameIndex(moved, mover.name) == t by {
      assert DistinctNames(moved);
      NameIndexOfMover(moved, t);
    }
    NextTurnIsNext(t, n);
  }

  /** A `make_move` that does not end the game is an update, a play, and a
      credit for the next seat. */
  lemma MakeMoveCredits(g: Game2.Game, ply: Board2.Ply, b: Board2.Board, o: Board2.Outcome) returns (g1: Game2.Game)
    requires Game2.Shape(g) && Board2.Update(g.board, ply, false, Empty) == Ok((b, o))
    requires Game2.MakeMove(g, ply).Ok? && !Game2.MakeMove(g, ply).value.gameOver
    ensures g1 == Game2.Game(b, g.players[g.turn := Game2.Play(g.players[g.turn], ply.card).value], Game2.Discard(g.discarded, o),
                             Game2.Next(g.turn, |g.players|), g.gameOver, g.history + [(ply, o)])
    ensures Game2.Shape(g1) && Game2.Credit(g1, g1.turn, 1).Ok?
    ensures Game2.MakeMove(g, ply) == Game2.Credit(g1, g1.turn, 1)
  {
    var t := g.turn;
    g1 := Game2.Game(b, g.players[t := Game2.Play(g.players[t], ply.card).value], Game2.Discard(g.discarded, o),
                     Game2.Next(t, |g.players|), g.gameOver, g.history + [(ply, o)]);
    assert Game2.MakeMove(g, ply) == Game2.Settle(g1);
  }

  /** A turn keeps the board well formed: every card dealt has a
      non-negative value and the joker stays at the centre. */
  lemma TurnWellFormed(s: State, name: string, row: int, column: int)
    requires Shape(s) && Board2.WellFormed(s.board) && Turn(s, name, row, column).Ok?
    requires forall c :: c in s.players[s.turn].hand ==> c.value >= 0
    ensures Board2.WellFormed(Turn(s, name, row, column).value.board)
  {
    var c := InHand(s.players[s.turn].hand, StoredName(name)).value;
    Board1.UpdateWellFormed(s.board, c, row, column);
  }

  // ------------------------------------------------------------------ final

  /** `final()`: unless the board is already final, every player is
      credited with the board's score for their suit; then the board is
      finalised.  There is no cap on a credit here. */
  function Final(s: State): (r: State)
    requires Shape(s)
    ensures Shape(r) && r.board == Board2.Finalise(s.board)
    ensures r.discarded == s.discarded && r.turn == s.turn && |r.players| == |s.players|
    ensures forall i :: 0 <= i < |s.players| ==>
              r.players[i] == s.players[i].(score := s.players[i].score + Board1.Score(s.board, s.players[i].suit))
  {
    var credited := seq(|s.players|, i requires 0 <= i < |s.players| =>
      s.players[i].(score := s.players[i].score + Board1.Score(s.board, s.players[i].suit)));
    State(Board2.Finalise(s.board), credited, s.discarded, s.turn)
  }

  /** Counting twice counts once: the second `final` finds the board final,
      credits nothing, and finalises a final board again. */
  lemma FinalIdempotent(s: State)
    requires Shape(s)
    ensures Final(Final(s)) == Final(s)
  {
    var f := Final(s);
    assert Final(f).players == f.players;
  }

  /** On an open board whose scores stay within curling2.py's cap, the old
      count credits every player exactly as curling2.py's `final` does. */
  lemma FinalAgrees(s: State, g: Game2.Game)
    requires Shape(s) && Game2.Shape(g) && g.board == s.board && g.players == s.players
    requires !s.board.final && Game2.Final(g).Ok?
    ensures Final(s).players == Game2.Final(g).value.players
    ensures Final(s).board == Game2.Final(g).value.board
  {
    var ps := Game2.CreditAll(g.players, g.board, 1).value;
    forall i | 0 <= i < |s.players| ensures Final(s).players[i] == ps[i] {
      assert Board2.Score(s.board, s.players[i].suit) == Ok(Board1.Score(s.board, s.players[i].suit));
    }
  }

  /** The winner named in the final statement: `max(players, key=score)`,
      the first player holding the highest score. */
  function Winner(ps: seq<Game2.Player>): (w: nat)
    requires |ps| > 0
    ensures w < |ps|
    ensures forall i :: 0 <= i < |ps| ==> ps[i].score <= ps[w].score
    ensures forall i :: 0 <= i < w ==> ps[i].score < ps[w].score
  {
    if |ps| == 1 then 0
    else
      var w := Winner(ps[..|ps| - 1]);
      if ps[|ps| - 1].score > ps[w].score then |ps| - 1 else w
  }
}

=== FILE: game2.dfy ===
/** Players, the turn cycle, settlement and the reversible move of
    curling2.py (`Player`, lines 196-243; `Game`, lines 501-572). */
module Game2 {
  import opened Results
  import opened Cards
  import opened Lines
  import opened Grid
  import opened Board2
  import opened Board2Invariants

  datatype Player = Player(name: string, suit: string, hand: seq<Card>, score: int)

  // ---------------------------------------------------------------- players

  /** The position `play` deletes: the first card of the hand equal to `c`. */
  function FirstIndex(h: seq<Card>, c: Card): (i: nat)
    requires c in h
    ensures i < |h| && h[i] == c
    ensures forall j :: 0 <= j < i ==> h[j] != c
  {
    if h[0] == c then 0 else 1 + FirstIndex(h[1..], c)
  }

  /** `del self.hand[i]` at that position. */
  function RemoveFirst(h: seq<Card>, c: Card): (r: seq<Card>)
    requires c in h
    ensures |r| == |h| - 1
    ensures multiset(r) == multiset(h) - multiset{c}
  {
    var i := FirstIndex(h, c);
    assert h == h[..i] + [h[i]] + h[i + 1..];
    h[..i] + h[i + 1..]
  }

  /** No card is held twice. */
  ghost predicate NoDup(h: seq<Card>) {
    forall c :: multiset(h)[c] <= 1
  }

  /** `play(card)`: fails unless the card is held; otherwise exactly one copy
      of it leaves the hand and nothing else about the player changes. */
  function Play(p: Player, c: Card): (r: Result<Player>)
    ensures r.Ok? <==> c in p.hand
    ensures r.Err? ==> r.error == CardNotInHand
    ensures r.Ok? ==> r.value.name == p.name && r.value.suit == p.suit && r.value.score == p.score
    ensures r.Ok? ==> multiset(r.value.hand) == multiset(p.hand) - multiset{c}
  {
    if c !in p.hand then Err(CardNotInHand)
    else Ok(p.(hand := RemoveFirst(p.hand, c)))
  }

  /** `unplay(card)`: fails if the card is still held; otherwise the card
      goes back at the end of the hand. */
  function Unplay(p: Player, c: Card): (r: Result<Player>)
    ensures r.Ok? <==> c !in p.hand
    ensures r.Err? ==> r.error == CardAlreadyInHand
    ensures r.Ok? ==> r.value.name == p.name && r.value.suit == p.suit && r.value.score == p.score
    ensures r.Ok? ==> |r.value.hand| == |p.hand| + 1 && r.value.hand[..|p.hand|] == p.hand && r.value.hand[|p.hand|] == c
  {
    if c in p.hand then Err(CardAlreadyInHand)
    else Ok(p.(hand := p.hand + [c]))
  }

  /** Putting a played card back restores the hand up to order: the card
      reappears at the end instead of at its old place. */
  lemma PlayUnplay(p: Player, c: Card)
    requires c in p.hand && NoDup(p.hand)
    ensures Play(p, c).Ok? && Unplay(Play(p, c).value, c).Ok?
    ensures var q := Unplay(Play(p, c).value, c).value;
      && q == p.(hand := RemoveFirst(p.hand, c) + [c])
      && multiset(q.hand) == multiset(p.hand)
  {
    var h := RemoveFirst(p.hand, c);
    assert multiset(h)[c] == multiset(p.hand)[c] - 1 == 0;
  }

  /** `alter_score(delta)`: deltas above 500 are refused; otherwise the score
      moves by exactly `delta`. */
  function AlterScore(p: Player, delta: int): (r: Result<Player>)
    ensures r.Err? <==> delta > 500
    ensures r.Err? ==> r.error == ScoreDeltaTooLarge
    ensures r.Ok? ==> r.value.score - p.score == delta && r.value.(score := p.score) == p
  {
    if delta > 500 then Err(ScoreDeltaTooLarge) else Ok(p.(score := p.score + delta))
  }

  /** Crediting and then debiting the same amount is the identity. */
  lemma AlterScoreRoundTrip(p: Player, delta: int)
    requires -500 <= delta <= 500
    ensures AlterScore(p, delta).Ok? && AlterScore(AlterScore(p, delta).value, -delta) == Ok(p)
  {
  }

  // ------------------------------------------------------------------ game

  datatype Game = Game(board: Board, players: seq<Player>, discarded: seq<Cell>,
                       turn: nat, gameOver: bool, history: seq<(Ply, Outcome)>)

  /** What every operation needs to index the board and the player list. */
  predicate Shape(g: Game) {
    && |g.players| > 0 && g.turn < |g.players|
    && OddLine(g.board.size) && Square(g.board.cells, g.board.size)
  }

  /** `(p_turn + 1) % len(players)`. */
  function Next(t: nat, n: nat): (r: nat)
    requires n > 0
    ensures r < n
  {
    (t + 1) % n
  }

  /** `(p_turn - 1) % len(players)`, Python's floor modulo, which for a
      positive divisor agrees with Dafny's Euclidean one. */
  function Prev(t: nat, n: nat): (r: nat)
    requires n > 0
    ensures r < n
  {
    (t - 1) % n
  }

  /** Stepping back undoes stepping forward on the turn cycle. */
  lemma PrevNext(t: nat, n: nat)
    requires 0 < n && t < n
    ensures Prev(Next(t, n), n) == t && Next(Prev(t, n), n) == t
  {
    if t + 1 < n {
      ModBelow(t + 1, n);
      ModBelow(t, n);
    } else {
      ModWrap(n);
    }
    if t == 0 {
      ModWrap(n);
    } else {
      ModBelow(t - 1, n);
      ModBelow(t, n);
    }
  }

  lemma ModBelow(a: int, n: int)
    requires 0 <= a < n
    ensures a % n == a
  {
  }

  lemma ModWrap(n: int)
    requires 0 < n
    ensures n % n == 0 && (0 - 1) % n == n - 1
  {
  }

  /** Adds `sign` times each player's board score to that player, in order;
      the loop body of `final` (sign 1) and of `unfinal` (sign -1). */
  function CreditAll(ps: seq<Player>, b: Board, sign: int): (r: Result<seq<Player>>)
    requires Square(b.cells, b.size) && b.size >= 3
    ensures r.Ok? <==> ps == [] || (!b.final && forall i :: 0 <= i < |ps| ==> sign * Score(b, ps[i].suit).value <= 500)
    ensures r.Ok? ==> |r.value| == |ps|
    ensures r.Ok? && ps != [] ==> forall i :: 0 <= i < |ps| ==>
              r.value[i] == ps[i].(score := ps[i].score + sign * Score(b, ps[i].suit).value)
  {
    if ps == [] then Ok([])
    else
      var s :- Score(b, ps[0].suit);
      var p :- AlterScore(ps[0], sign * s);
      var rest :- CreditAll(ps[1..], b, sign);
      Ok([p] + rest)
  }

  /** `final`: every player is credited with the board score for their suit,
      then the board is finalised and the game is over. */
  function Final(g: Game): (r: Result<Game>)
    requires Shape(g)
    ensures r.Ok? <==> !g.board.final && forall i :: 0 <= i < |g.players| ==> Score(g.board, g.players[i].suit).value <= 500
    ensures r.Ok? ==> Shape(r.value) && r.value.gameOver && r.value.board == Finalise(g.board)
    ensures r.Ok? ==> |r.value.players| == |g.players| && forall i :: 0 <= i < |g.players| ==>
              r.value.players[i] == g.players[i].(score := g.players[i].score + Score(g.board, g.players[i].suit).value)
    ensures r.Ok? ==> r.value.(players := g.players, gameOver := g.gameOver, board := g.board) == g
  {
    var ps :- CreditAll(g.players, g.board, 1);
    Ok(g.(gameOver := true, players := ps, board := Finalise(g.board)))
  }

  /** `unfinal`: the board is unfinalised, the game reopens, and every
      player's board score is taken off again. */
  function Unfinal(g: Game): (r: Result<Game>)
    requires Shape(g)
    ensures r.Ok? <==> forall i :: 0 <= i < |g.players| ==> -Score(Unfinalise(g.board), g.players[i].suit).value <= 500
    ensures r.Ok? ==> Shape(r.value) && !r.value.gameOver && r.value.board == Unfinalise(g.board)
    ensures r.Ok? ==> |r.value.players| == |g.players| && forall i :: 0 <= i < |g.players| ==>
              r.value.players[i] == g.players[i].(score := g.players[i].score - Score(Unfinalise(g.board), g.players[i].suit).value)
    ensures r.Ok? ==> r.value.(players := g.players, gameOver := g.gameOver, board := g.board) == g
  {
    var b := Unfinalise(g.board);
    var ps :- CreditAll(g.players, b, -1);
    Ok(g.(gameOver := false, board := b, players := ps))
  }

  /** `players[i].alter_score(sign * board.score(players[i]))`. */
  function Credit(g: Game, i: nat, sign: int): (r: Result<Game>)
    requires Shape(g) && i < |g.players|
    ensures r.Ok? ==> Shape(r.value) && r.value.(players := g.players) == g
    ensures r.Ok? ==> |r.value.players| == |g.players|
    ensures r.Ok? ==> !g.board.final && r.value.players == g.players[i := g.players[i].(score := g.players[i].score + sign * Score(g.board, g.players[i].suit).value)]
  {
    var s :- Score(g.board, g.players[i].suit);
    var p :- AlterScore(g.players[i], sign * s);
    Ok(g.(players := g.players[i := p]))
  }

  /** The tail of `make_move`: the player now to move is credited with the
      board score, or the game ends if that player has no cards left. */
  function Settle(g: Game): (r: Result<Game>)
    requires Shape(g)
    ensures r.Ok? ==> Shape(r.value) && |r.value.players| == |g.players|
    ensures r.Ok? ==> r.value.discarded == g.discarded && r.value.turn == g.turn && r.value.history == g.history
    ensures r.Ok? ==> (r.value.gameOver <==> g.gameOver || g.players[g.turn].hand == [])
    ensures r.Ok? <==>
              && !g.board.final
              && if g.players[g.turn].hand == [] then forall i :: 0 <= i < |g.players| ==> Score(g.board, g.players[i].suit).value <= 500
                 else Score(g.board, g.players[g.turn].suit).value <= 500
    ensures r.Ok? && g.players[g.turn].hand == [] ==>
              && r.value.board == Finalise(g.board)
              && forall i :: 0 <= i < |g.players| ==>
                   r.value.players[i] == g.players[i].(score := g.players[i].score + Score(g.board, g.players[i].suit).value)
    ensures r.Ok? && g.players[g.turn].hand != [] ==>
              && r.value.board == g.board
              && r.value.players == g.players[g.turn := g.players[g.turn].(score := g.players[g.turn].score + Score(g.board, g.players[g.turn].suit).value)]
  {
    if g.players[g.turn].hand == [] then Final(g) else Credit(g, g.turn, 1)
  }

  /** The head of `unmake_move`: reopen a finished game, or take back the
      credit of the player to move. */
  function Unsettle(g: Game): (r: Result<Game>)
    requires Shape(g)
    ensures r.Ok? ==> Shape(r.value) && |r.value.players| == |g.players| && !r.value.gameOver
    ensures r.Ok? ==> r.value.discarded == g.discarded && r.value.turn == g.turn && r.value.history == g.history
    ensures r.Ok? ==> r.value.board == Unfinalise(g.board) || r.value.board == g.board
  {
    if g.gameOver then Unfinal(g) else Credit(g, g.turn, -1)
  }

  /** `discarded.append(discard)` unless the move was a placement. */
  function Discard(d: seq<Cell>, o: Outcome): seq<Cell> {
    if o.Evicted? then d + [o.cell] else d
  }

  /** `discarded.pop()` unless the move was a placement. */
  function Undiscard(d: seq<Cell>, o: Outcome): (r: Result<seq<Cell>>)
    ensures r.Err? <==> o.Evicted? && d == []
    ensures r.Ok? ==> if o.Evicted? then |d| > 0 && r.value == d[..|d| - 1] else r.value == d
  {
    if !o.Evicted? then Ok(d)
    else if d == [] then Err(EmptyDiscardPile)
    else Ok(d[..|d| - 1])
  }

  lemma DiscardRoundTrip(d: seq<Cell>, o: Outcome)
    ensures Undiscard(Discard(d, o), o) == Ok(d)
  {
    if o.Evicted? {
      assert (d + [o.cell])[..|d|] == d;
    }
  }

  /** Whether playing `c` leaves the next player without cards, so that
      `make_move` ends the game: with one player the mover plays their last
      card, otherwise the next player's hand is already empty. */
  predicate Ends(g: Game, c: Card)
    requires Shape(g)
  {
    var t := Next(g.turn, |g.players|);
    if t == g.turn then |g.players[g.turn].hand| == 1 && c in g.players[g.turn].hand else g.players[t].hand == []
  }

  /** `make_move(ply)`: update the board, record the ply and its outcome,
      discard an evicted card, take the card from the mover's hand, pass the
      turn on, and settle. */
  function MakeMove(g: Game, ply: Ply): (r: Result<Game>)
    requires Shape(g)
    ensures r.Ok? ==> Shape(r.value) && |r.value.players| == |g.players|
    ensures r.Ok? ==> Update(g.board, ply, false, Empty).Ok? && ply.card in g.players[g.turn].hand
    ensures r.Ok? ==> r.value.turn == Next(g.turn, |g.players|)
    ensures r.Ok? ==> var o := Update(g.board, ply, false, Empty).value.1;
              r.value.history == g.history + [(ply, o)] && r.value.discarded == Discard(g.discarded, o)
    ensures Update(g.board, ply, false, Empty).Err? ==>
              r == Err(if Update(g.board, ply, false, Empty).error.NotAnEmptyCell? then InvalidDiscard
                       else Update(g.board, ply, false, Empty).error)
    ensures Update(g.board, ply, false, Empty).Ok? && ply.card !in g.players[g.turn].hand ==> r == Err(CardNotInHand)
    ensures r.Ok? ==> !g.board.final
    ensures r.Ok? ==> var b1 := Update(g.board, ply, false, Empty).value.0;
              r.value.board == (if Ends(g, ply.card) then Finalise(b1) else b1)
              && (r.value.gameOver <==> g.gameOver || Ends(g, ply.card))
  {
    var up := Update(g.board, ply, false, Empty);
    // A placement off the empty cells returns no outcome rather than
    // raising, so `make_move` raises its own error for it.
    if up.Err? then Err(if up.error.NotAnEmptyCell? then InvalidDiscard else up.error)
    else
      var u := up.value;
      var mover :- Play(g.players[g.turn], ply.card);
      var n := |g.players|;
      var g1 := Game(u.0, g.players[g.turn := mover], Discard(g.discarded, u.1),
                     Next(g.turn, n), g.gameOver, g.history + [(ply, u.1)]);
      SettleMoved(g, ply.card, mover, g1);
      Settle(g1)
  }

  /** What a move does to the players: the card leaves the mover's hand
      and no other hand changes; the next player is credited with the new
      board's score, or every player is when the next hand is empty. */
  lemma MakeMoveEffect(g: Game, ply: Ply)
    requires Shape(g) && MakeMove(g, ply).Ok?
    ensures var r, b1 := MakeMove(g, ply).value, Update(g.board, ply, false, Empty).value.0;
      && multiset(r.players[g.turn].hand) == multiset(g.players[g.turn].hand) - multiset{ply.card}
      && (forall i :: 0 <= i < |g.players| ==>
            && r.players[i].name == g.players[i].name && r.players[i].suit == g.players[i].suit
            && (i != g.turn ==> r.players[i].hand == g.players[i].hand))
      && (forall i :: 0 <= i < |g.players| ==>
            r.players[i].score == g.players[i].score
              + (if Ends(g, ply.card) || i == Next(g.turn, |g.players|) then Score(b1, g.players[i].suit).value else 0))
  {
    var u := Update(g.board, ply, false, Empty).value;
    var mover := Play(g.players[g.turn], ply.card).value;
    var g1 := Game(u.0, g.players[g.turn := mover], Discard(g.discarded, u.1),
                   Next(g.turn, |g.players|), g.gameOver, g.history + [(ply, u.1)]);
    assert MakeMove(g, ply) == Settle(g1);
    SettleMoved(g, ply.card, mover, g1);
  }

  /** What settling does to the state `make_move` builds: `g1` is `g` with
      the card `c` played by the mover and the turn passed on. */
  lemma SettleMoved(g: Game, c: Card, mover: Player, g1: Game)
    requires Shape(g) && Shape(g1) && Play(g.players[g.turn], c) == Ok(mover)
    requires g1.players == g.players[g.turn := mover] && g1.turn == Next(g.turn, |g.players|)
    requires g1.gameOver == g.gameOver && g1.board.final == g.board.final
    ensures Settle(g1).Ok? ==> !g.board.final
    ensures Settle(g1).Ok? ==>
              && Settle(g1).value.board == (if Ends(g, c) then Finalise(g1.board) else g1.board)
              && (Settle(g1).value.gameOver <==> g.gameOver || Ends(g, c))
    ensures Settle(g1).Ok? ==>
              && multiset(Settle(g1).value.players[g.turn].hand) == multiset(g.players[g.turn].hand) - multiset{c}
              && forall i :: 0 <= i < |g.players| ==>
                   && Settle(g1).value.players[i].name == g.players[i].name
                   && Settle(g1).value.players[i].suit == g.players[i].suit
                   && (i != g.turn ==> Settle(g1).value.players[i].hand == g.players[i].hand)
    ensures Settle(g1).Ok? ==>
              forall i :: 0 <= i < |g.players| ==>
                Settle(g1).value.players[i].score == g.players[i].score
                  + (if Ends(g, c) || i == g1.turn then Score(g1.board, g.players[i].suit).value else 0)
  {
    if Settle(g1).Ok? {
      var t, p := g1.turn, g.players[g.turn];
      assert g1.players[t].hand == [] <==> Ends(g, c) by {
        if t == g.turn {
          assert |multiset(mover.hand)| == |multiset(p.hand)| - 1;
        } else {
          assert g1.players[t] == g.players[t];
        }
      }
      assert multiset(g1.players[g.turn].hand) == multiset(p.hand) - multiset{c};
      forall i | 0 <= i < |g.players|
        ensures g1.players[i].name == g.players[i].name && g1.players[i].suit == g.players[i].suit
        ensures g1.players[i].score == g.players[i].score
        ensures i != g.turn ==> g1.players[i].hand == g.players[i].hand
      {
      }
    }
  }

  /** `unmake_move()`: pop the ply and its outcome, pop the discard, reopen
      or debit, step the turn back, undo the board update with the card it
      evicted, and give the card back to the player who played it. */
  function UnmakeMove(g: Game): (r: Result<Game>)
    requires Shape(g)
    ensures r.Ok? ==> Shape(r.value) && |r.value.players| == |g.players|
    ensures r.Ok? ==> g.history != [] && r.value.history == g.history[..|g.history| - 1]
    ensures r.Ok? ==> r.value.turn == Prev(g.turn, |g.players|) && !r.value.gameOver
    ensures g.history == [] ==> r == Err(EmptyHistory)
  {
    if g.history == [] then Err(EmptyHistory)
    else
      var (unply, undiscard) := g.history[|g.history| - 1];
      var disc :- Undiscard(g.discarded, undiscard);
      var g1 :- Unsettle(g);
      var t := Prev(g.turn, |g.players|);
      var u :- Update(g1.board, unply, true, UndoCell(undiscard));
      var last :- Unplay(g1.players[t], unply.card);
      Ok(g1.(board := u.0, players := g1.players[t := last], discarded := disc, turn := t,
             history := g.history[..|g.history| - 1]))
  }
}

=== FILE: game2_equiv.dfy ===
/** Games that differ only in the order of cards within hands.  `unmake_move`
    gives back such a game rather than the very same one, because `unplay`
    appends; everything the game does next treats the two alike. */
module Game2Equiv {
  import opened Results
  import opened Cards
  import opened Lines
  import opened Grid
  import opened Board2
  import opened Board2Invariants
  import opened Game2
  import opened Game2Undo

  /** The same player, holding the same cards in any order. */
  predicate SamePlayer(a: Player, b: Player) {
    a.name == b.name && a.suit == b.suit && a.score == b.score && multiset(a.hand) == multiset(b.hand)
  }

  predicate SamePlayers(ps: seq<Player>, qs: seq<Player>) {
    |ps| == |qs| && forall i :: 0 <= i < |ps| ==> SamePlayer(ps[i], qs[i])
  }

  /** Two games equal but for the order of the cards within hands. */
  predicate Equiv(a: Game, b: Game) {
    && a.board == b.board && a.discarded == b.discarded && a.turn == b.turn
    && a.gameOver == b.gameOver && a.history == b.history
    && SamePlayers(a.players, b.players)
  }

  lemma EquivSymmetric(a: Game, b: Game)
    requires Equiv(a, b)
    ensures Equiv(b, a)
  {
  }

  lemma EquivTransitive(a: Game, b: Game, c: Game)
    requires Equiv(a, b) && Equiv(b, c)
    ensures Equiv(a, c)
  {
  }

  /** The round trip of `make_move` and `unmake_move` gives back an
      equivalent game. */
  lemma MakeUnmakeEquiv(g: Game, ply: Ply)
    requires GameWF(g) && !g.gameOver && MakeMove(g, ply).Ok?
    ensures UnmakeMove(MakeMove(g, ply).value).Ok?
    ensures Equiv(UnmakeMove(MakeMove(g, ply).value).value, g)
  {
    MakeUnmake(g, ply);
    var p := g.players[g.turn];
    PlayUnplay(p, ply.card);
  }

  /** The invariant does not look at the order of cards. */
  lemma EquivWellFormed(a: Game, b: Game)
    requires Equiv(a, b) && GameWF(b)
    ensures GameWF(a)
  {
    forall i | 0 <= i < |a.players|
      ensures HandOk(a.players[i].hand)
    {
      var h, k := a.players[i].hand, b.players[i].hand;
      assert HandOk(k);
      forall c | c in h ensures c.value >= 0 {
        assert c in multiset(h);
      }
    }
  }

  /** Settlement treats equivalent player lists alike. */
  lemma CreditAllEquiv(ps: seq<Player>, qs: seq<Player>, b: Board, sign: int)
    requires Square(b.cells, b.size) && b.size >= 3 && SamePlayers(ps, qs)
    ensures CreditAll(ps, b, sign).Ok? == CreditAll(qs, b, sign).Ok?
    ensures CreditAll(ps, b, sign).Ok? ==> SamePlayers(CreditAll(ps, b, sign).value, CreditAll(qs, b, sign).value)
  {
    if ps != [] && !b.final {
      assert forall i :: 0 <= i < |ps| ==> ps[i].suit == qs[i].suit;
    }
  }

  /** The head of `unmake_move` treats equivalent games alike. */
  lemma UnsettleEquiv(a: Game, b: Game)
    requires Shape(a) && Shape(b) && Equiv(a, b)
    ensures Unsettle(a).Ok? == Unsettle(b).Ok?
    ensures Unsettle(a).Ok? ==> Equiv(Unsettle(a).value, Unsettle(b).value)
  {
    if a.gameOver {
      CreditAllEquiv(a.players, b.players, Unfinalise(a.board), -1);
    } else {
      assert a.players[a.turn].suit == b.players[b.turn].suit;
    }
  }

  /** `unmake_move` treats equivalent games alike. */
  lemma UnmakeEquiv(a: Game, b: Game)
    requires Shape(a) && Shape(b) && Equiv(a, b)
    ensures UnmakeMove(a).Ok? == UnmakeMove(b).Ok?
    ensures UnmakeMove(a).Ok? ==> Equiv(UnmakeMove(a).value, UnmakeMove(b).value)
  {
    if a.history != [] {
      UnsettleEquiv(a, b);
      var (unply, undiscard) := a.history[|a.history| - 1];
      if Undiscard(a.discarded, undiscard).Ok? && Unsettle(a).Ok? {
        var a1, b1 := Unsettle(a).value, Unsettle(b).value;
        var t := Prev(a.turn, |a.players|);
        var pa, pb := a1.players[t], b1.players[t];
        assert SamePlayer(pa, pb);
        assert unply.card in pa.hand <==> unply.card in pb.hand by {
          assert unply.card in pa.hand <==> unply.card in multiset(pa.hand);
          assert unply.card in pb.hand <==> unply.card in multiset(pb.hand);
        }
        if Update(a1.board, unply, true, UndoCell(undiscard)).Ok? && unply.card !in pa.hand {
          UnmakeSteps(a, a1, unply, undiscard);
          UnmakeSteps(b, b1, unply, undiscard);
          UnplaySame(pa, pb, unply.card);
          SamePlayersUpdate(a1.players, b1.players, t, Unplay(pa, unply.card).value, Unplay(pb, unply.card).value);
        }
      }
    }
  }

  /** Giving the same card back to the same player keeps them the same. */
  lemma UnplaySame(p: Player, q: Player, c: Card)
    requires SamePlayer(p, q) && c !in p.hand && c !in q.hand
    ensures SamePlayer(Unplay(p, c).value, Unplay(q, c).value)
  {
  }

  lemma SamePlayersUpdate(ps: seq<Player>, qs: seq<Player>, t: nat, p: Player, q: Player)
    requires SamePlayers(ps, qs) && t < |ps| && SamePlayer(p, q)
    ensures SamePlayers(ps[t := p], qs[t := q])
  {
  }

  /** `make_move` keeps the invariant, as long as the game was not over. */
  lemma MakeMoveWellFormed(g: Game, ply: Ply)
    requires GameWF(g) && !g.gameOver && MakeMove(g, ply).Ok?
    ensures GameWF(MakeMove(g, ply).value)
  {
    MakeMoveIsSettle(g, ply);
    var g1 := Moved(g, ply);
    MovedWellFormed(g, ply, g1);
    SettleWellFormed(g1);
  }

  /** The state before settling keeps the invariant too. */
  lemma MovedWellFormed(g: Game, ply: Ply, g1: Game)
    requires GameWF(g) && !g.gameOver
    requires Update(g.board, ply, false, Empty).Ok? && ply.card in g.players[g.turn].hand
    requires g1 == Moved(g, ply)
    ensures GameWF(g1) && !g1.gameOver
  {
    assert HandOk(g.players[g.turn].hand);
    PlayHandOk(g.players[g.turn], ply.card);
    UpdateWellFormed(g.board, ply);
  }

  /** Playing a card keeps a hand free of repeats and negative values. */
  lemma PlayHandOk(p: Player, c: Card)
    requires HandOk(p.hand) && c in p.hand
    ensures HandOk(Play(p, c).value.hand)
  {
    var h := Play(p, c).value.hand;
    assert multiset(h) == multiset(p.hand) - multiset{c};
    forall d | d in h ensures d.value >= 0 {
      assert d in multiset(h);
      assert d in multiset(p.hand);
    }
  }

  lemma SettleWellFormed(g: Game)
    requires GameWF(g) && !g.gameOver && Settle(g).Ok?
    ensures GameWF(Settle(g).value)
  {
    var r := Settle(g).value;
    if g.players[g.turn].hand == [] {
      assert forall i :: 0 <= i < |g.players| ==> r.players[i].hand == g.players[i].hand;
    } else {
      assert forall i :: 0 <= i < |g.players| ==> r.players[i].hand == g.players[i].hand;
    }
  }

  /** Whether the game ends after a move depends only on the hand of the
      player who moves next, not on which ply was chosen. */
  lemma GameOverAfterMove(g: Game, ply: Ply)
    requires Shape(g) && MakeMove(g, ply).Ok?
    ensures var t := Next(g.turn, |g.players|);
      MakeMove(g, ply).value.gameOver <==>
        g.gameOver || |g.players[t].hand| == (if t == g.turn then 1 else 0)
  {
    MakeMoveIsSettle(g, ply);
    var p := g.players[g.turn];
    assert |Play(p, ply.card).value.hand| == |p.hand| - 1 by {
      assert |multiset(Play(p, ply.card).value.hand)| == |multiset(p.hand)| - 1;
    }
  }
}

=== FILE: game2_undo.dfy ===
/** `unmake_move` undoes `make_move` (curling2.py:501-572): the board, the
    discard pile, the history, the turn, every score and the game-over flag
    come back exactly, and the mover's hand comes back with the played card
    moved to its end. */
module Game2Undo {
  import opened Results
  import opened Cards
  import opened Lines
  import opened Grid
  import opened Board2
  import opened Board2Invariants
  import opened Game2

  /** Hands hold each card once and no card of negative value. */
  ghost predicate HandOk(h: seq<Card>) {
    NoDup(h) && forall c :: c in h ==> c.value >= 0
  }

  /** The invariant every reachable game keeps: the board is well formed,
      it is finalised exactly when the game is over, and no hand holds a
      card twice or a card of negative value. */
  ghost predicate GameWF(g: Game) {
    && Shape(g)
    && WellFormed(g.board)
    && g.board.final == g.gameOver
    && forall i :: 0 <= i < |g.players| ==> HandOk(g.players[i].hand)
  }

  /** `Player(name, suit)`: no points yet and the thirteen dealt cards. */
  function NewPlayer(name: string, suit: string): Player {
    Player(name, suit, Deal(suit), 0)
  }

  /** `Game(StartGameState(board, players))`: a new board, new players, no
      discards, the first player to move, the game running, no history. */
  function StartGame(board: Board, names: seq<string>, suits: seq<string>): (g: Game)
    requires |names| == |suits|
    ensures |g.players| == |names| && g.turn == 0 && !g.gameOver && g.discarded == [] && g.history == []
  {
    Game(board, seq(|names|, i requires 0 <= i < |names| => NewPlayer(names[i], suits[i])), [], 0, false, [])
  }

  /** A game set up on a new board whose centre is not listed empty, with
      at least one player, satisfies the invariant. */
  lemma StartGameWF(size: nat, empty: seq<(int, int)>, names: seq<string>, suits: seq<string>)
    requires OddLine(size) && (JokerPos(size), JokerPos(size)) !in empty
    requires forall i :: 0 <= i < |empty| ==> 0 <= empty[i].0 < size && 0 <= empty[i].1 < size
    requires 0 < |names| == |suits|
    ensures GameWF(StartGame(NewBoard(size, empty), names, suits))
  {
    NewBoardWellFormed(size, empty);
    var g := StartGame(NewBoard(size, empty), names, suits);
    forall i | 0 <= i < |g.players| ensures HandOk(g.players[i].hand) {
      DealtHandOk(suits[i]);
    }
  }

  /** A dealt hand holds thirteen cards of distinct names, so no card twice. */
  lemma DealtHandOk(suit: string)
    ensures HandOk(Deal(suit))
  {
    var h := Deal(suit);
    DistinctNoDup(h);
    forall c | c in h ensures c.value >= 0 {
      var i :| 0 <= i < |h| && h[i] == c;
    }
  }

  /** A sequence of pairwise different cards holds no card twice. */
  lemma {:induction false} DistinctNoDup(h: seq<Card>)
    requires forall i, j :: 0 <= i < j < |h| ==> h[i] != h[j]
    ensures NoDup(h)
  {
    if h != [] {
      DistinctNoDup(h[1..]);
      assert h == [h[0]] + h[1..];
      assert forall j :: 0 <= j < |h[1..]| ==> h[1..][j] == h[j + 1] != h[0];
      forall c ensures multiset(h)[c] <= 1 {
        assert multiset(h)[c] == multiset([h[0]])[c] + multiset(h[1..])[c];
      }
    }
  }

  /** The player after `play(c)` then `unplay(c)`. */
  function Rotate(p: Player, c: Card): Player
    requires c in p.hand
  {
    p.(hand := RemoveFirst(p.hand, c) + [c])
  }

  /** Settlement and its reversal: `final` then `unfinal` gives every score
      back and reopens the game on the same board. */
  lemma FinalUnfinal(g: Game)
    requires Shape(g) && WellFormed(g.board) && !g.board.final && Final(g).Ok?
    ensures Unfinal(Final(g).value) == Ok(g.(gameOver := false))
  {
    var m := Final(g).value;
    assert Unfinalise(m.board) == g.board;
    CreditAllBack(g.players, g.board, m.players);
  }

  /** Debiting every player's board score takes back the credit. */
  lemma CreditAllBack(ps: seq<Player>, b: Board, ps1: seq<Player>)
    requires WellFormed(b) && !b.final && CreditAll(ps, b, 1) == Ok(ps1)
    ensures CreditAll(ps1, b, -1) == Ok(ps)
  {
    if ps != [] {
      forall i | 0 <= i < |ps1|
        ensures ps1[i].suit == ps[i].suit && -1 * Score(b, ps1[i].suit).value <= 500
      {
        ScoreNonNegative(b, ps[i].suit);
      }
      var r := CreditAll(ps1, b, -1);
      assert r.Ok?;
      forall i | 0 <= i < |ps| ensures r.value[i] == ps[i] {
        assert r.value[i] == ps1[i].(score := ps1[i].score + -1 * Score(b, ps1[i].suit).value);
      }
      assert r.value == ps;
    } else {
      assert ps1 == [];
    }
  }

  /** A single credit is taken back by the matching debit. */
  lemma CreditDebit(g: Game, i: nat)
    requires Shape(g) && WellFormed(g.board) && !g.board.final && i < |g.players|
    requires Credit(g, i, 1).Ok?
    ensures Credit(Credit(g, i, 1).value, i, -1) == Ok(g)
  {
    ScoreNonNegative(g.board, g.players[i].suit);
    var m := Credit(g, i, 1).value;
    assert m.players[i].suit == g.players[i].suit;
    assert m.players[i := m.players[i].(score := m.players[i].score - Score(g.board, g.players[i].suit).value)] == g.players;
  }

  /** The tail of `make_move` is undone by the head of `unmake_move`. */
  lemma SettleUnsettle(g: Game)
    requires Shape(g) && WellFormed(g.board) && !g.board.final && !g.gameOver
    requires Settle(g).Ok?
    ensures Unsettle(Settle(g).value) == Ok(g)
  {
    if g.players[g.turn].hand == [] {
      FinalUnfinal(g);
    } else {
      CreditDebit(g, g.turn);
    }
  }

  /** The state `make_move` builds before settling. */
  function Moved(g: Game, ply: Ply): (g1: Game)
    requires Shape(g) && Update(g.board, ply, false, Empty).Ok? && ply.card in g.players[g.turn].hand
  {
    var u := Update(g.board, ply, false, Empty).value;
    Game(u.0, g.players[g.turn := Play(g.players[g.turn], ply.card).value], Discard(g.discarded, u.1),
         Next(g.turn, |g.players|), g.gameOver, g.history + [(ply, u.1)])
  }

  lemma MakeMoveIsSettle(g: Game, ply: Ply)
    requires Shape(g) && MakeMove(g, ply).Ok?
    ensures Shape(Moved(g, ply)) && MakeMove(g, ply) == Settle(Moved(g, ply))
  {
  }

  /** `unmake_move` step by step, when every step succeeds. */
  lemma UnmakeSteps(m: Game, base: Game, ply: Ply, o: Outcome)
    requires Shape(m) && m.history != [] && m.history[|m.history| - 1] == (ply, o)
    requires Undiscard(m.discarded, o).Ok? && Unsettle(m) == Ok(base)
    requires Update(base.board, ply, true, UndoCell(o)).Ok?
    requires ply.card !in base.players[Prev(m.turn, |m.players|)].hand
    ensures var t := Prev(m.turn, |m.players|);
      UnmakeMove(m) == Ok(base.(board := Update(base.board, ply, true, UndoCell(o)).value.0,
                                players := base.players[t := Unplay(base.players[t], ply.card).value],
                                discarded := Undiscard(m.discarded, o).value, turn := t,
                                history := m.history[..|m.history| - 1]))
  {
  }

  /** `unmake_move` after `make_move` restores the game exactly, except that
      the card played returns at the end of the mover's hand. */
  lemma MakeUnmake(g: Game, ply: Ply)
    requires GameWF(g) && !g.gameOver && MakeMove(g, ply).Ok?
    ensures ply.card in g.players[g.turn].hand
    ensures UnmakeMove(MakeMove(g, ply).value) ==
              Ok(g.(players := g.players[g.turn := Rotate(g.players[g.turn], ply.card)]))
  {
    MakeMoveIsSettle(g, ply);
    UnmakeSettled(g, ply);
  }

  lemma UnmakeSettled(g: Game, ply: Ply)
    requires GameWF(g) && !g.gameOver
    requires Update(g.board, ply, false, Empty).Ok? && ply.card in g.players[g.turn].hand
    requires Settle(Moved(g, ply)).Ok?
    ensures UnmakeMove(Settle(Moved(g, ply)).value) ==
              Ok(g.(players := g.players[g.turn := Rotate(g.players[g.turn], ply.card)]))
  {
    var o, g1, m := UndoPieces(g, ply);
    UnmakeFrom(g, ply, o, g1, m);
  }

  /** The undo of a move whose pieces are known to come back. */
  lemma UnmakeFrom(g: Game, ply: Ply, o: Outcome, g1: Game, m: Game)
    requires Shape(g) && ply.card in g.players[g.turn].hand
    requires Shape(m) && m.history != [] && m.history[|m.history| - 1] == (ply, o)
    requires m.history[..|m.history| - 1] == g.history
    requires Unsettle(m) == Ok(g1) && Prev(m.turn, |m.players|) == g.turn
    requires g1.players[g.turn := Rotate(g.players[g.turn], ply.card)] == g.players[g.turn := Rotate(g.players[g.turn], ply.card)]
    requires Undiscard(m.discarded, o) == Ok(g.discarded)
    requires Update(g1.board, ply, true, UndoCell(o)).Ok? && Update(g1.board, ply, true, UndoCell(o)).value.0 == g.board
    requires ply.card !in g1.players[g.turn].hand
    requires Unplay(g1.players[g.turn], ply.card).value == Rotate(g.players[g.turn], ply.card)
    requires g1.gameOver == g.gameOver
    ensures UnmakeMove(m) == Ok(g.(players := g.players[g.turn := Rotate(g.players[g.turn], ply.card)]))
  {
    UnmakeStepsTo(m, g1, ply, o, g.board, g.discarded, Rotate(g.players[g.turn], ply.card), g.history);
  }

  /** `UnmakeSteps` with each step's result named. */
  lemma UnmakeStepsTo(m: Game, base: Game, ply: Ply, o: Outcome, board: Board, disc: seq<Cell>, p: Player, hist: seq<(Ply, Outcome)>)
    requires Shape(m) && m.history != [] && m.history[|m.history| - 1] == (ply, o)
    requires hist == m.history[..|m.history| - 1]
    requires Undiscard(m.discarded, o) == Ok(disc) && Unsettle(m) == Ok(base)
    requires Update(base.board, ply, true, UndoCell(o)).Ok? && Update(base.board, ply, true, UndoCell(o)).value.0 == board
    requires ply.card !in base.players[Prev(m.turn, |m.players|)].hand
    requires Unplay(base.players[Prev(m.turn, |m.players|)], ply.card).value == p
    ensures var t := Prev(m.turn, |m.players|);
      UnmakeMove(m) == Ok(base.(board := board, players := base.players[t := p], discarded := disc, turn := t, history := hist))
  {
    UnmakeSteps(m, base, ply, o);
  }

  /** Each step of `unmake_move` undoes its counterpart in `make_move`:
      `o` is the move's outcome, `g1` the state before settling, `m` after. */
  lemma UndoPieces(g: Game, ply: Ply) returns (o: Outcome, g1: Game, m: Game)
    requires GameWF(g) && !g.gameOver
    requires Update(g.board, ply, false, Empty).Ok? && ply.card in g.players[g.turn].hand
    requires Settle(Moved(g, ply)).Ok?
    ensures g1 == Moved(g, ply) && m == Settle(g1).value && o == Update(g.board, ply, false, Empty).value.1
    ensures Shape(m) && m.history != [] && m.history[|m.history| - 1] == (ply, o)
    ensures m.history[..|m.history| - 1] == g.history
    ensures Unsettle(m) == Ok(g1)
    ensures Prev(m.turn, |m.players|) == g.turn
    ensures Undiscard(m.discarded, o) == Ok(g.discarded)
    ensures Update(g1.board, ply, true, UndoCell(o)).Ok? && Update(g1.board, ply, true, UndoCell(o)).value.0 == g.board
    ensures ply.card !in g1.players[g.turn].hand
    ensures Unplay(g1.players[g.turn], ply.card).value == Rotate(g.players[g.turn], ply.card)
    ensures g1.players[g.turn := Rotate(g.players[g.turn], ply.card)] == g.players[g.turn := Rotate(g.players[g.turn], ply.card)]
    ensures g1.gameOver == g.gameOver
  {
    var u := Update(g.board, ply, false, Empty).value;
    o, g1 := u.1, Moved(g, ply);
    m := Settle(g1).value;
    assert HandOk(g.players[g.turn].hand);
    UpdateWellFormed(g.board, ply);
    SettleUnsettle(g1);
    PrevNext(g.turn, |g.players|);
    DiscardRoundTrip(g.discarded, u.1);
    UpdateUndoRoundTrip(g.board, ply);
    PlayerPieces(g.players, g.turn, ply.card, g1.players);
  }

  /** The mover's part of the undo: the card played is gone from the hand,
      putting it back gives the rotated hand, and no other player changed. */
  lemma PlayerPieces(ps: seq<Player>, t: nat, c: Card, ps1: seq<Player>)
    requires t < |ps| && NoDup(ps[t].hand) && c in ps[t].hand
    requires ps1 == ps[t := Play(ps[t], c).value]
    ensures c !in ps1[t].hand
    ensures Unplay(ps1[t], c).Ok? && Unplay(ps1[t], c).value == Rotate(ps[t], c)
    ensures ps1[t := Rotate(ps[t], c)] == ps[t := Rotate(ps[t], c)]
  {
    PlayUnplay(ps[t], c);
  }
}

=== FILE: grid.dfy ===
/** The square grid of cells, its transposition (the source's
    `map(list, zip(*cards))`) and the enumeration of empty cells shared by
    both variants (curling2.py:71-75, curling.py:74-78). */
module Grid {
  import opened Cards

  type Grid = seq<seq<Cell>>

  /** The position Python reads for index `i` of a list of length `n`: a
      negative index counts back from the end, which is Python's `i % n`. */
  function PyIndex(i: int, n: nat): (k: nat)
    requires 0 <= i + n && i < n
    ensures k < n && k == i % n
  {
    if i < 0 then i + n else i
  }

  predicate Square(g: Grid, n: nat) {
    |g| == n && forall r :: 0 <= r < n ==> |g[r]| == n
  }

  function Transpose(g: Grid, n: nat): (t: Grid)
    requires Square(g, n)
    ensures Square(t, n)
    ensures forall r, c {:trigger t[r][c]} :: 0 <= r < n && 0 <= c < n ==> t[r][c] == g[c][r]
  {
    seq(n, i requires 0 <= i < n => seq(n, j requires 0 <= j < n => g[j][i]))
  }

  lemma TransposeTwice(g: Grid, n: nat)
    requires Square(g, n)
    ensures Transpose(Transpose(g, n), n) == g
  {
    var tt := Transpose(Transpose(g, n), n);
    forall r | 0 <= r < n ensures tt[r] == g[r] { }
  }

  /** Replacing a row of the transpose and transposing back replaces a
      column: the source's way of inserting into a column. */
  lemma ColumnViaTranspose(g: Grid, n: nat, k: nat, line: seq<Cell>)
    requires Square(g, n) && k < n && |line| == n
    ensures Transpose(g, n)[k] == seq(n, r requires 0 <= r < n => g[r][k])
    ensures Square(Transpose(g, n)[k := line], n)
    ensures forall r, c {:trigger Transpose(Transpose(g, n)[k := line], n)[r][c]} :: 0 <= r < n && 0 <= c < n ==>
              Transpose(Transpose(g, n)[k := line], n)[r][c] == (if c == k then line[r] else g[r][c])
  {
    var t := Transpose(g, n);
    var t' := t[k := line];
    assert Square(t', n);
    var g' := Transpose(t', n);
    forall r, c | 0 <= r < n && 0 <= c < n
      ensures g'[r][c] == (if c == k then line[r] else g[r][c])
    {
      assert g'[r][c] == t'[c][r];
    }
  }

  /** Row-major order on 1-based coordinates. */
  predicate Before(p: (int, int), q: (int, int)) {
    p.0 < q.0 || (p.0 == q.0 && p.1 < q.1)
  }

  predicate RowMajor(ps: seq<(int, int)>) {
    forall i, j :: 0 <= i < j < |ps| ==> Before(ps[i], ps[j])
  }

  predicate HasEmpty(g: Grid) {
    exists r, c :: 0 <= r < |g| && 0 <= c < |g[r]| && g[r][c].Empty?
  }

  /** The 1-based coordinates `(r + 1, k + 1)` of the empty cells of `row`
      from column `c` on. */
  function EmptiesInRow(row: seq<Cell>, r: nat, c: nat): (ps: seq<(int, int)>)
    requires c <= |row|
    ensures forall p :: p in ps <==> p.0 == r + 1 && c + 1 <= p.1 <= |row| && row[p.1 - 1].Empty?
    ensures RowMajor(ps)
    decreases |row| - c
  {
    if c == |row| then []
    else
      var rest := EmptiesInRow(row, r, c + 1);
      if row[c].Empty? then [(r + 1, c + 1)] + rest else rest
  }

  /** The empty cells of rows `r..` in row-major order. */
  function EmptiesFrom(g: Grid, r: nat): (ps: seq<(int, int)>)
    requires r <= |g|
    ensures forall p :: p in ps <==>
              r + 1 <= p.0 <= |g| && 1 <= p.1 <= |g[p.0 - 1]| && g[p.0 - 1][p.1 - 1].Empty?
    ensures RowMajor(ps)
    decreases |g| - r
  {
    if r == |g| then []
    else
      var here := EmptiesInRow(g[r], r, 0);
      var rest := EmptiesFrom(g, r + 1);
      assert forall i :: 0 <= i < |here| ==> here[i] in here && here[i].0 == r + 1;
      assert forall j :: 0 <= j < |rest| ==> rest[j] in rest && rest[j].0 > r + 1;
      here + rest
  }

  /** `get_empty`: the 1-based coordinates of exactly the empty cells, in
      row-major order; `[]` precisely when no cell is empty (shift phase). */
  function GetEmpty(g: Grid): (ps: seq<(int, int)>)
    ensures forall p :: p in ps <==>
              1 <= p.0 <= |g| && 1 <= p.1 <= |g[p.0 - 1]| && g[p.0 - 1][p.1 - 1].Empty?
    ensures RowMajor(ps)
    ensures ps == [] <==> !HasEmpty(g)
  {
    if HasEmpty(g) then
      var ps := EmptiesFrom(g, 0);
      var r, c :| 0 <= r < |g| && 0 <= c < |g[r]| && g[r][c].Empty?;
      assert (r + 1, c + 1) in ps;
      ps
    else
      []
  }
}

=== FILE: lines.dfy ===
/** One row or column of the board as a line of cells, and the single
    shift primitive of curling2.py `Board.update` (lines 137-147): the line
    is reversed when inserting from the far end, the new card is pushed onto
    the front, the back cell falls off, and in the joker's line the joker is
    moved back to its fixed index. */
module Lines {
  import opened Cards

  function Reverse<T>(s: seq<T>): (r: seq<T>)
    ensures |r| == |s|
    ensures forall i {:trigger r[i]} :: 0 <= i < |s| ==> r[i] == s[|s| - 1 - i]
  {
    seq(|s|, i requires 0 <= i < |s| => s[|s| - 1 - i])
  }

  lemma ReverseReverse<T>(s: seq<T>)
    ensures Reverse(Reverse(s)) == s
  {
  }

  /** `line.insert(k, line.pop(k + 1))`: the element at k + 1 moves to k. */
  function PopInsert(line: seq<Cell>, k: nat): (r: seq<Cell>)
    requires k + 1 < |line|
    ensures |r| == |line|
    ensures r[k] == line[k + 1] && r[k + 1] == line[k]
    ensures forall i {:trigger r[i]} :: 0 <= i < |line| && i != k && i != k + 1 ==> r[i] == line[i]
  {
    var popped := line[..k + 1] + line[k + 2..];
    popped[..k] + [line[k + 1]] + popped[k..]
  }

  /** A line length the shift is defined for: odd and at least 3, so that the
      joker index `|line| / 2` has a neighbour on each side. */
  predicate OddLine(n: nat) { n >= 3 && n % 2 == 1 }

  /** Insertion at the front of a line: `[card] + line[:-1]`, then the joker fix. */
  function PushFront(line: seq<Cell>, x: Cell, jokerLine: bool): (r: seq<Cell>)
    requires OddLine(|line|)
    ensures |r| == |line|
  {
    var pushed := [x] + line[..|line| - 1];
    if jokerLine then PopInsert(pushed, |line| / 2) else pushed
  }

  /** The line after inserting `x` from the front (left/top) or from the back
      (right/bottom); `jokerLine` says whether this is the joker's row/column. */
  function Insert(line: seq<Cell>, x: Cell, fromFront: bool, jokerLine: bool): (r: seq<Cell>)
    requires OddLine(|line|)
    ensures |r| == |line|
    // from the front, every cell moves one step towards the back ...
    ensures fromFront ==> r[0] == x
    ensures fromFront ==> forall i {:trigger r[i]} :: 1 <= i < |line| && (!jokerLine || (i != |line| / 2 && i != |line| / 2 + 1)) ==>
              r[i] == line[i - 1]
    // ... from the back, one step towards the front ...
    ensures !fromFront ==> r[|line| - 1] == x
    ensures !fromFront ==> forall i {:trigger r[i]} :: 0 <= i < |line| - 1 && (!jokerLine || (i != |line| / 2 && i != |line| / 2 - 1)) ==>
              r[i] == line[i + 1]
    // ... and in the joker's line the middle cell stays and the cells around it jump over it
    ensures jokerLine ==> r[|line| / 2] == line[|line| / 2]
    ensures jokerLine && fromFront ==> r[|line| / 2 + 1] == line[|line| / 2 - 1]
    ensures jokerLine && !fromFront ==> r[|line| / 2 - 1] == line[|line| / 2 + 1]
  {
    if fromFront then PushFront(line, x, jokerLine)
    else Reverse(PushFront(Reverse(line), x, jokerLine))
  }

  /** The cell that falls off the far end: `card_row[-1]` of the possibly
      reversed line. */
  function FarEnd(line: seq<Cell>, fromFront: bool): (e: Cell)
    requires |line| > 0
    ensures fromFront ==> e == line[|line| - 1]
    ensures !fromFront ==> e == line[0]
  {
    if fromFront then line[|line| - 1] else Reverse(line)[|line| - 1]
  }

  /** The undo of curling2.py (lines 120, 127): inserting the evicted cell
      from the opposite end restores the line exactly, joker line included. */
  lemma InsertRoundTrip(line: seq<Cell>, x: Cell, fromFront: bool, jokerLine: bool)
    requires OddLine(|line|)
    ensures Insert(Insert(line, x, fromFront, jokerLine), FarEnd(line, fromFront), !fromFront, jokerLine) == line
  {
    if fromFront {
      FrontRoundTrip(line, x, jokerLine);
    } else {
      BackRoundTrip(line, x, jokerLine);
    }
  }

  lemma FrontRoundTrip(line: seq<Cell>, x: Cell, jokerLine: bool)
    requires OddLine(|line|)
    ensures Insert(Insert(line, x, true, jokerLine), line[|line| - 1], false, jokerLine) == line
  {
    var n := |line|;
    var jp := n / 2;
    var m := Insert(line, x, true, jokerLine);
    var back := Insert(m, line[n - 1], false, jokerLine);
    forall i | 0 <= i < n ensures back[i] == line[i] {
      if i == n - 1 {
      } else if jokerLine && i == jp {
        assert back[i] == m[jp];
      } else if jokerLine && i == jp - 1 {
        assert back[i] == m[jp + 1];
      } else {
        assert back[i] == m[i + 1];
      }
    }
  }

  lemma BackRoundTrip(line: seq<Cell>, x: Cell, jokerLine: bool)
    requires OddLine(|line|)
    ensures Insert(Insert(line, x, false, jokerLine), line[0], true, jokerLine) == line
  {
    var n := |line|;
    var jp := n / 2;
    var m := Insert(line, x, false, jokerLine);
    var back := Insert(m, line[0], true, jokerLine);
    forall i | 0 <= i < n ensures back[i] == line[i] {
      if i == 0 {
      } else if jokerLine && i == jp {
        assert back[i] == m[jp];
      } else if jokerLine && i == jp + 1 {
        assert back[i] == m[jp - 1];
      } else {
        assert back[i] == m[i - 1];
      }
    }
  }

  /** Where each cell of an inserted line came from: `k == -1` means the
      inserted cell, otherwise the old cell at index `k`.  In the joker's
      line the middle cell and only the middle cell comes from the middle. */
  lemma InsertSource(line: seq<Cell>, x: Cell, fromFront: bool, jokerLine: bool, i: nat) returns (k: int)
    requires OddLine(|line|) && i < |line|
    ensures -1 <= k < |line|
    ensures k == -1 ==> Insert(line, x, fromFront, jokerLine)[i] == x
    ensures k >= 0 ==> Insert(line, x, fromFront, jokerLine)[i] == line[k]
    ensures jokerLine && k >= 0 ==> (k == |line| / 2 <==> i == |line| / 2)
  {
    var n, jp := |line|, |line| / 2;
    var r := Insert(line, x, fromFront, jokerLine);
    if fromFront {
      k := if i == 0 then -1 else if jokerLine && i == jp then jp else if jokerLine && i == jp + 1 then jp - 1 else i - 1;
      SourceFront(line, x, jokerLine, i, r, jp);
    } else {
      k := if i == n - 1 then -1 else if jokerLine && i == jp then jp else if jokerLine && i == jp - 1 then jp + 1 else i + 1;
      SourceBack(line, x, jokerLine, i, r, jp);
    }
  }

  lemma SourceFront(line: seq<Cell>, x: Cell, jokerLine: bool, i: nat, r: seq<Cell>, jp: nat)
    requires OddLine(|line|) && i < |line| && jp == |line| / 2 && r == Insert(line, x, true, jokerLine)
    ensures i == 0 ==> r[i] == x
    ensures jokerLine && i == jp ==> r[i] == line[jp]
    ensures jokerLine && i == jp + 1 ==> r[i] == line[jp - 1]
    ensures i != 0 && !(jokerLine && (i == jp || i == jp + 1)) ==> r[i] == line[i - 1]
  {
  }

  lemma SourceBack(line: seq<Cell>, x: Cell, jokerLine: bool, i: nat, r: seq<Cell>, jp: nat)
    requires OddLine(|line|) && i < |line| && jp == |line| / 2 && r == Insert(line, x, false, jokerLine)
    ensures i == |line| - 1 ==> r[i] == x
    ensures jokerLine && i == jp ==> r[i] == line[jp]
    ensures jokerLine && i == jp - 1 ==> r[i] == line[jp + 1]
    ensures i != |line| - 1 && !(jokerLine && (i == jp || i == jp - 1)) ==> r[i] == line[i + 1]
  {
  }

  lemma {:induction false} ReverseMultiset<T>(s: seq<T>)
    ensures multiset(Reverse(s)) == multiset(s)
    decreases |s|
  {
    if |s| > 0 {
      var init := s[..|s| - 1];
      ReverseMultiset(init);
      assert Reverse(s) == [s[|s| - 1]] + Reverse(init);
      assert s == init + [s[|s| - 1]];
    }
  }

  lemma PopInsertMultiset(line: seq<Cell>, k: nat)
    requires k + 1 < |line|
    ensures multiset(PopInsert(line, k)) == multiset(line)
  {
    var r := PopInsert(line, k);
    var a, b, tail := line[..k], [line[k], line[k + 1]], line[k + 2..];
    assert line == a + b + tail;
    assert r == a + [line[k + 1], line[k]] + tail;
    assert multiset([line[k + 1], line[k]]) == multiset(b);
  }

  lemma PushFrontConserves(line: seq<Cell>, x: Cell, jokerLine: bool)
    requires OddLine(|line|)
    ensures multiset(PushFront(line, x, jokerLine)) + multiset{line[|line| - 1]} == multiset(line) + multiset{x}
  {
    var pushed := [x] + line[..|line| - 1];
    assert line == line[..|line| - 1] + [line[|line| - 1]];
    if jokerLine {
      PopInsertMultiset(pushed, |line| / 2);
    }
  }

  /** Nothing is lost or made up by an insertion: the cells of the new line
      and the evicted cell are the cells of the old line and the inserted one. */
  lemma InsertConserves(line: seq<Cell>, x: Cell, fromFront: bool, jokerLine: bool)
    requires OddLine(|line|)
    ensures multiset(Insert(line, x, fromFront, jokerLine)) + multiset{FarEnd(line, fromFront)}
              == multiset(line) + multiset{x}
  {
    if fromFront {
      PushFrontConserves(line, x, jokerLine);
    } else {
      var rev := Reverse(line);
      ReverseMultiset(line);
      PushFrontConserves(rev, x, jokerLine);
      ReverseMultiset(PushFront(rev, x, jokerLine));
    }
  }
}

=== FILE: results.dfy ===
/** Success/failure values shared by both variants of the game.  The source
    signals failure either by raising an exception or by returning an error
    string; both become an `Err` carrying one of the `Error` kinds below. */
module Results {

  datatype Option<+T> = None | Some(value: T)

  datatype Error =
    | NotANumber                              // `int(name)` raises ValueError
    | NotAnEmptyCell(empty: seq<(int, int)>)  // "Please choose from empty cells ..."
    | InvalidRowColumn                        // "Invalid row/column"
    | NothingToReinstate                      // undo of a shift without a card
    | OffBoard                                // an index past either end of a grid line (IndexError)
    | ScoreOnFinalBoard                       // scoring a finalised board
    | CardNotInHand                           // `play` of a card the player lacks
    | CardAlreadyInHand                       // `unplay` of a card still held
    | ScoreDeltaTooLarge                      // `alter_score` with a delta above 500
    | EmptyHistory                            // `pop` on an empty ply history
    | EmptyDiscardPile                        // `pop` on an empty discard list
    | EmptyHand                               // indexing an empty hand
    | ShortValueVector                        // indexing a value vector out of range
    | UnboundLoopIndex                        // the loop counter read before any iteration
    | PickCardAgain                           // "Please pick card again"
    | InvalidDiscard                          // `make_move` given no outcome by `update`
    | EmptyCellEvicted                        // `''.discarded = ...` on an evicted empty cell (AttributeError)

  datatype Result<+T> = Ok(value: T) | Err(error: Error) {
    predicate IsFailure() { Err? }

    function PropagateFailure<U>(): Result<U>
      requires Err?
    {
      Err(error)
    }

    function Extract(): T
      requires Ok?
    {
      value
    }
  }
}

=== FILE: search.dfy ===
/** The look-ahead player of curling2.py (`AITreeSearch`, lines 301-415):
    candidate plies, the depth-bounded search that makes, evaluates or
    recurses, and unmakes each of them, and the evaluation of finished
    games.  The evaluation of unfinished games is a parameter `h`. */
module Search {
  import opened Results
  import opened Cards
  import opened Lines
  import opened Grid
  import opened Board2
  import opened Game2
  import opened Game2Undo
  import opened Game2Equiv

  // ------------------------------------------------------------ candidates

  /** The index of `sorted(hand, key=-value)[0]`: Python's sort is stable, so
      this is the first card of highest value. */
  function MaxIndex(h: seq<Card>): (i: nat)
    requires h != []
    ensures i < |h|
    ensures forall j :: 0 <= j < |h| ==> h[j].value <= h[i].value
    ensures forall j :: 0 <= j < i ==> h[j].value < h[i].value
  {
    if |h| == 1 then 0
    else
      var k := MaxIndex(h[..|h| - 1]);
      if h[|h| - 1].value > h[k].value then |h| - 1 else k
  }

  /** The index of `sorted(hand, key=-value)[-1]`: the last card of lowest
      value. */
  function MinIndex(h: seq<Card>): (i: nat)
    requires h != []
    ensures i < |h|
    ensures forall j :: 0 <= j < |h| ==> h[i].value <= h[j].value
    ensures forall j :: i < j < |h| ==> h[i].value < h[j].value
  {
    if |h| == 1 then 0
    else
      var k := MinIndex(h[..|h| - 1]);
      if h[|h| - 1].value <= h[k].value then |h| - 1 else k
  }

  /** The cards worth trying: the highest and the lowest, or the only one. */
  function CardChoices(h: seq<Card>): (cs: seq<Card>)
    requires h != []
    ensures 1 <= |cs| <= 2 && (|cs| == 2 <==> |h| > 1)
    ensures forall i :: 0 <= i < |cs| ==> cs[i] in h
    ensures cs[0] == h[MaxIndex(h)] && (|h| > 1 ==> cs[1] == h[MinIndex(h)])
    ensures forall c :: c in cs <==> c == h[MaxIndex(h)] || (|h| > 1 && c == h[MinIndex(h)])
  {
    if |h| > 1 then [h[MaxIndex(h)], h[MinIndex(h)]] else [h[0]]
  }

  /** The 4 * size rim slots, in the order the source lists them: top, bottom,
      left, right. */
  function RimSlots(n: nat): (rs: seq<(int, int)>)
    ensures |rs| == 4 * n
    ensures forall i :: 0 <= i < |rs| ==> IsRimSlot(n, rs[i].0, rs[i].1)
  {
    seq(n, i => (0, i + 1)) + seq(n, i => (n + 1, i + 1)) + seq(n, i => (i + 1, 0)) + seq(n, i => (i + 1, n + 1))
  }

  /** Every rim slot is listed. */
  lemma RimSlotsComplete(n: nat, r: int, c: int)
    requires IsRimSlot(n, r, c)
    ensures (r, c) in RimSlots(n)
  {
    var rs := RimSlots(n);
    if r == 0 && 0 < c <= n {
      assert rs[c - 1] == (r, c);
    } else if r == n + 1 && 0 < c <= n {
      assert rs[n + c - 1] == (r, c);
    } else if c == 0 {
      assert rs[2 * n + r - 1] == (r, c);
    } else {
      assert rs[3 * n + r - 1] == (r, c);
    }
  }

  /** One card tried at every target, in target order. */
  function PliesWith(c: Card, targets: seq<(int, int)>): (ps: seq<Ply>)
    ensures |ps| == |targets|
    ensures forall i :: 0 <= i < |ps| ==> ps[i] == Ply(c, targets[i].0, targets[i].1)
  {
    seq(|targets|, i requires 0 <= i < |targets| => Ply(c, targets[i].0, targets[i].1))
  }

  /** Where a ply may go: an empty cell during the fill phase, a rim slot
      after it. */
  function Targets(b: Board): seq<(int, int)>
    requires Square(b.cells, b.size)
  {
    if Empties(b) != [] then Empties(b) else RimSlots(b.size)
  }

  /** `enum_plies`: the highest card at every target, then the lowest card at
      every target.  Indexing the sorted hand fails when the hand is empty. */
  function EnumPlies(g: Game): (r: Result<seq<Ply>>)
    requires Shape(g)
    ensures r.Err? <==> g.players[g.turn].hand == []
    ensures r.Ok? ==> |r.value| > 0
    ensures r.Ok? ==> var h, ts := g.players[g.turn].hand, Targets(g.board);
      && |r.value| == |CardChoices(h)| * |ts|
      && (forall i :: 0 <= i < |ts| ==> r.value[i] == Ply(h[MaxIndex(h)], ts[i].0, ts[i].1))
      && (|h| > 1 ==> forall i :: 0 <= i < |ts| ==> r.value[|ts| + i] == Ply(h[MinIndex(h)], ts[i].0, ts[i].1))
  {
    var h := g.players[g.turn].hand;
    if h == [] then Err(EmptyHand)
    else
      var cs := CardChoices(h);
      var ts := Targets(g.board);
      assert |ts| > 0;
      var first, rest := PliesWith(cs[0], ts), if |cs| > 1 then PliesWith(cs[1], ts) else [];
      assert forall i :: 0 <= i < |ts| ==> (first + rest)[i] == first[i];
      assert forall i :: 0 <= i < |rest| ==> (first + rest)[|ts| + i] == rest[i];
      Ok(first + rest)
  }

  /** Every candidate plays a held card at a legal target, and every legal
      target is tried with the highest card. */
  lemma EnumPliesLegal(g: Game)
    requires Shape(g) && EnumPlies(g).Ok?
    ensures var ps, h := EnumPlies(g).value, g.players[g.turn].hand;
      && (forall i :: 0 <= i < |ps| ==> ps[i].card in h && (ps[i].row, ps[i].column) in Targets(g.board))
      && (forall i :: 0 <= i < |ps| ==> ps[i].card in CardChoices(h))
      && (forall t :: t in Targets(g.board) ==> Ply(h[MaxIndex(h)], t.0, t.1) in ps)
      && (|h| > 1 ==> forall t :: t in Targets(g.board) ==> Ply(h[MinIndex(h)], t.0, t.1) in ps)
      && (Empties(g.board) == [] ==> forall i :: 0 <= i < |ps| ==> IsRimSlot(g.board.size, ps[i].row, ps[i].column))
  {
    var ps, h := EnumPlies(g).value, g.players[g.turn].hand;
    var ts := Targets(g.board);
    var cs := CardChoices(h);
    var rest := if |cs| > 1 then PliesWith(cs[1], ts) else [];
    assert ps == PliesWith(cs[0], ts) + rest;
    assert cs[0] == h[MaxIndex(h)] by {
      if |h| == 1 {
        assert MaxIndex(h) == 0;
      }
    }
    FirstCardEverywhere(cs[0], ts, rest, ps);
    if |cs| > 1 {
      SecondCardEverywhere(cs[1], ts, PliesWith(cs[0], ts), ps);
    }
    PliesFrom(cs, ts, ps);
  }

  /** The second card is tried at every target too. */
  lemma SecondCardEverywhere(c: Card, ts: seq<(int, int)>, first: seq<Ply>, ps: seq<Ply>)
    requires ps == first + PliesWith(c, ts)
    ensures forall t :: t in ts ==> Ply(c, t.0, t.1) in ps
  {
    forall t | t in ts ensures Ply(c, t.0, t.1) in ps {
      var i :| 0 <= i < |ts| && ts[i] == t;
      assert ps[|first| + i] == Ply(c, t.0, t.1);
    }
  }

  /** The first card is tried at every target. */
  lemma FirstCardEverywhere(c: Card, ts: seq<(int, int)>, rest: seq<Ply>, ps: seq<Ply>)
    requires ps == PliesWith(c, ts) + rest
    ensures forall t :: t in ts ==> Ply(c, t.0, t.1) in ps
  {
    forall t | t in ts ensures Ply(c, t.0, t.1) in ps {
      var i :| 0 <= i < |ts| && ts[i] == t;
      assert ps[i] == Ply(c, t.0, t.1);
    }
  }

  /** Every ply built from the card choices plays one of them at a target. */
  lemma PliesFrom(cs: seq<Card>, ts: seq<(int, int)>, ps: seq<Ply>)
    requires 1 <= |cs| <= 2
    requires ps == PliesWith(cs[0], ts) + if |cs| > 1 then PliesWith(cs[1], ts) else []
    ensures forall i :: 0 <= i < |ps| ==> ps[i].card in cs && (ps[i].row, ps[i].column) in ts
  {
    forall i | 0 <= i < |ps| ensures ps[i].card in cs && (ps[i].row, ps[i].column) in ts {
      if i < |ts| {
        assert ps[i] == Ply(cs[0], ts[i].0, ts[i].1);
      } else {
        assert ps[i] == Ply(cs[1], ts[i - |ts|].0, ts[i - |ts|].1);
      }
    }
  }

  // ------------------------------------------------------------ evaluation

  /** The running maximum of the winner loop: 0, raised by any higher score. */
  function MaxScore(ps: seq<Player>): (m: int)
    ensures m >= 0
    ensures forall i :: 0 <= i < |ps| ==> ps[i].score <= m
    ensures m == 0 || exists i :: 0 <= i < |ps| && ps[i].score == m
  {
    if ps == [] then 0
    else
      var m := MaxScore(ps[..|ps| - 1]);
      assert forall i :: 0 <= i < |ps| - 1 ==> ps[..|ps| - 1][i] == ps[i];
      if ps[|ps| - 1].score > m then ps[|ps| - 1].score else m
  }

  /** The winner loop of `heuristic_eval` from player `i` on, with the best
      score so far and the players holding it. */
  function WinnerScan(ps: seq<Player>, i: nat, best: int, ids: seq<nat>): (r: (seq<nat>, int))
    requires i <= |ps|
    decreases |ps| - i
  {
    if i == |ps| then (ids, best)
    else if ps[i].score > best then WinnerScan(ps, i + 1, ps[i].score, [i])
    else if ps[i].score == best then WinnerScan(ps, i + 1, best, ids + [i])
    else WinnerScan(ps, i + 1, best, ids)
  }

  /** The scan ends with the maximum of 0 and all scores, and with exactly the
      players who reach it. */
  lemma {:induction false} WinnerScanSpec(ps: seq<Player>, i: nat, best: int, ids: seq<nat>)
    requires i <= |ps| && best >= 0
    requires forall j :: 0 <= j < i ==> ps[j].score <= best
    requires best == 0 || exists j :: 0 <= j < i && ps[j].score == best
    requires forall j: nat :: j in ids <==> j < i && ps[j].score == best
    decreases |ps| - i
    ensures var (ids', best') := WinnerScan(ps, i, best, ids);
      && best' == MaxScore(ps)
      && forall j: nat :: j in ids' <==> j < |ps| && ps[j].score == best'
  {
    if i == |ps| {
      MaxScoreIsLeast(ps, best);
    } else if ps[i].score > best {
      WinnerScanSpec(ps, i + 1, ps[i].score, [i]);
    } else if ps[i].score == best {
      WinnerScanSpec(ps, i + 1, best, ids + [i]);
    } else {
      WinnerScanSpec(ps, i + 1, best, ids);
    }
  }

  /** A bound that is 0 or some player's score and dominates every score is
      the maximum. */
  lemma MaxScoreIsLeast(ps: seq<Player>, m: int)
    requires m >= 0 && forall j :: 0 <= j < |ps| ==> ps[j].score <= m
    requires m == 0 || exists j :: 0 <= j < |ps| && ps[j].score == m
    ensures m == MaxScore(ps)
  {
  }

  /** The terminal branch of `heuristic_eval`: 10000 for every player tied at
      the best score (0 if nobody is above 0), -10000 for the others. */
  function TerminalEval(ps: seq<Player>): (v: seq<real>)
    ensures |v| == |ps|
    ensures forall i :: 0 <= i < |ps| ==> v[i] == (if ps[i].score == MaxScore(ps) then 10000.0 else -10000.0)
  {
    WinnerScanSpec(ps, 0, 0, []);
    var ids := WinnerScan(ps, 0, 0, []).0;
    seq(|ps|, i requires 0 <= i < |ps| => if i in ids then 10000.0 else -10000.0)
  }

  /** The value of the position after a ply: the terminal evaluation once the
      game is over, otherwise the heuristic `h`. */
  function Eval(g: Game, h: Game -> seq<real>): seq<real> {
    if g.gameOver then TerminalEval(g.players) else h(g)
  }

  // ---------------------------------------------------------------- search

  /** The running choice of `tree_search`: the first sibling is taken, and a
      later one replaces the current best only if strictly better for player
      `p`.  Reading a value vector shorter than `p + 1` fails. */
  function BestFrom(values: seq<seq<real>>, p: nat, i: nat, b: nat): (r: Result<nat>)
    requires b < i <= |values|
    decreases |values| - i
    ensures r.Ok? ==> b <= r.value < |values|
  {
    if i == |values| then Ok(b)
    else if |values[i]| <= p || |values[b]| <= p then Err(ShortValueVector)
    else if values[i][p] > values[b][p] then BestFrom(values, p, i + 1, i)
    else BestFrom(values, p, i + 1, b)
  }

  function SelectBest(values: seq<seq<real>>, p: nat): (r: Result<nat>)
    requires |values| > 0
    ensures r.Ok? ==> r.value < |values|
  {
    BestFrom(values, p, 1, 0)
  }

  /** Sibling `k` is the first whose value for player `p` is maximal; a lone
      sibling is chosen whatever its value vector. */
  predicate FirstMaxAt(values: seq<seq<real>>, p: nat, k: nat)
    requires k < |values|
  {
    |values| == 1 ||
    (&& |values[k]| > p
     && forall j :: 0 <= j < |values| ==>
          && |values[j]| > p
          && values[j][p] <= values[k][p]
          && (j < k ==> values[j][p] < values[k][p]))
  }

  /** The chosen sibling is the first one of maximal value for `p`, and the
      choice fails exactly when some comparison reads a short vector. */
  lemma SelectBestIsFirstMax(values: seq<seq<real>>, p: nat)
    requires |values| > 0
    ensures SelectBest(values, p).Ok? <==> |values| == 1 || forall j :: 0 <= j < |values| ==> |values[j]| > p
    ensures SelectBest(values, p).Ok? ==> FirstMaxAt(values, p, SelectBest(values, p).value)
  {
    BestFromSpec(values, p, 1, 0);
  }

  lemma {:induction false} BestFromSpec(values: seq<seq<real>>, p: nat, i: nat, b: nat)
    requires b < i <= |values|
    requires i > 1 ==> forall j :: 0 <= j < i ==> |values[j]| > p
    requires i > 1 ==> forall j :: 0 <= j < i ==> values[j][p] <= values[b][p]
    requires i > 1 ==> forall j :: 0 <= j < b ==> values[j][p] < values[b][p]
    requires i == 1 ==> b == 0
    decreases |values| - i
    ensures BestFrom(values, p, i, b).Ok? <==> i == |values| || forall j :: 0 <= j < |values| ==> |values[j]| > p
    ensures BestFrom(values, p, i, b).Ok? ==> FirstMaxAt(values, p, BestFrom(values, p, i, b).value)
  {
    if i < |values| && |values[i]| > p && |values[b]| > p {
      if values[i][p] > values[b][p] {
        BestFromSpec(values, p, i + 1, i);
      } else {
        BestFromSpec(values, p, i + 1, b);
      }
    }
  }

  /** `tree_search(game, depth)`: the plies are enumerated once, each is made,
      valued and unmade, and the best is chosen for the player to move.
      Returns the value vector, the ply, and the game as the search leaves
      it. */
  function TreeSearch(g: Game, depth: nat, h: Game -> seq<real>): (r: Result<(seq<real>, Ply, Game)>)
    requires Shape(g)
    ensures r.Ok? ==> Shape(r.value.2)
    ensures r.Ok? ==> EnumPlies(g).Ok? && Siblings(g, EnumPlies(g).value, 0, depth, h).Ok?
    ensures EnumPlies(g).Err? ==> r == Err(EmptyHand)
    ensures r.Ok? ==> r.value.1 in EnumPlies(g).value
    decreases depth, 1, 0
  {
    var plies :- EnumPlies(g);
    var s :- Siblings(g, plies, 0, depth, h);
    var best :- SelectBest(s.0, g.turn);
    Ok((s.0[best], plies[best], s.1))
  }

  /** The loop of `tree_search` from sibling `i` on, each sibling starting
      from the game the previous one left and with the depth it left. */
  function Siblings(g: Game, plies: seq<Ply>, i: nat, depth: nat, h: Game -> seq<real>): (r: Result<(seq<seq<real>>, Game)>)
    requires Shape(g) && i <= |plies|
    ensures r.Ok? ==> |r.value.0| == |plies| - i && Shape(r.value.1)
    decreases depth, 0, |plies| - i + 2
  {
    if i == |plies| then Ok(([], g))
    else
      var v :- Visit(g, plies[i], depth, h);
      var rest :- Siblings(v.1, plies, i + 1, v.2, h);
      Ok(([v.0] + rest.0, rest.1))
  }

  /** One turn of the loop: make the ply; value it by the evaluation when the
      depth is 0 or the game ended, by a search one level deeper otherwise;
      unmake it.  As in the source, a ply that ends the game sets the depth to
      0 and the depth stays 0 for the siblings after it, so the depth is
      returned with the value and the game. */
  function Visit(g: Game, ply: Ply, depth: nat, h: Game -> seq<real>): (r: Result<(seq<real>, Game, nat)>)
    requires Shape(g)
    ensures r.Ok? ==> Shape(r.value.1) && r.value.2 <= depth
    ensures r.Ok? ==> MakeMove(g, ply).Ok? && r.value.2 == (if MakeMove(g, ply).value.gameOver then 0 else depth)
    decreases depth, 0, 0
  {
    var m :- MakeMove(g, ply);
    if m.gameOver || depth == 0 then
      var u :- UnmakeMove(m);
      Ok((Eval(m, h), u, if m.gameOver then 0 else depth))
    else
      var t :- TreeSearch(m, depth - 1, h);
      var u :- UnmakeMove(t.2);
      Ok((t.0, u, depth))
  }

  // ------------------------------------------------------------ properties

  /** The ply chosen is the first of the candidates whose value for the
      player to move is maximal, and the value returned is its value. */
  lemma TreeSearchChoosesFirstMax(g: Game, depth: nat, h: Game -> seq<real>)
    requires Shape(g) && TreeSearch(g, depth, h).Ok?
    ensures var plies := EnumPlies(g).value;
      var values := Siblings(g, plies, 0, depth, h).value.0;
      var r := TreeSearch(g, depth, h).value;
      exists k :: 0 <= k < |plies| && r.1 == plies[k] && r.0 == values[k] && FirstMaxAt(values, g.turn, k)
  {
    var plies := EnumPlies(g).value;
    var values := Siblings(g, plies, 0, depth, h).value.0;
    SelectBestIsFirstMax(values, g.turn);
    var k := SelectBest(values, g.turn).value;
    assert TreeSearch(g, depth, h).value.1 == plies[k];
  }

  /** Whether a ply ends the game is the same for every sibling: it depends on
      the hand sizes and the game-over flag, which equivalent games share.  So
      the depth left at 0 after a game-ending ply changes nothing for the
      siblings that follow: their plies end the game too. */
  lemma GameOverAlike(a: Game, b: Game, p: Ply, q: Ply)
    requires Shape(a) && Shape(b) && Equiv(a, b)
    requires MakeMove(a, p).Ok? && MakeMove(b, q).Ok?
    ensures MakeMove(a, p).value.gameOver == MakeMove(b, q).value.gameOver
  {
    GameOverAfterMove(a, p);
    GameOverAfterMove(b, q);
    var t := Next(a.turn, |a.players|);
    assert |a.players[t].hand| == |b.players[t].hand| by {
      assert |multiset(a.players[t].hand)| == |multiset(b.players[t].hand)|;
    }
  }
}

=== FILE: search_restore.dfy ===
/** The search leaves the game as it found it: every ply `tree_search`
    makes (curling2.py:352-372) it unmakes again, so the game comes back
    equal up to the order of the cards in the hands. */
module SearchRestore {
  import opened Results
  import opened Cards
  import opened Board2
  import opened Game2
  import opened Game2Undo
  import opened Game2Equiv
  import opened Search

  /** A search leaves the game as it found it, up to the order of cards in
      hands: every ply it makes it unmakes again. */
  lemma {:induction false} TreeSearchRestores(g: Game, depth: nat, h: Game -> seq<real>)
    requires GameWF(g) && !g.gameOver && TreeSearch(g, depth, h).Ok?
    ensures Equiv(TreeSearch(g, depth, h).value.2, g)
    decreases depth, 1, 0
  {
    SiblingsRestore(g, EnumPlies(g).value, 0, depth, h);
  }

  lemma {:induction false} SiblingsRestore(g: Game, plies: seq<Ply>, i: nat, depth: nat, h: Game -> seq<real>)
    requires GameWF(g) && !g.gameOver && i <= |plies| && Siblings(g, plies, i, depth, h).Ok?
    ensures Equiv(Siblings(g, plies, i, depth, h).value.1, g)
    decreases depth, 0, |plies| - i + 2
  {
    if i < |plies| {
      var v := Visit(g, plies[i], depth, h).value;
      var u, d := v.1, v.2;
      assert GameWF(u) && !u.gameOver && Equiv(u, g) by {
        VisitRestores(g, plies[i], depth, h);
        EquivStep(g, u);
      }
      var last := Siblings(u, plies, i + 1, d, h).value.1;
      assert Siblings(g, plies, i, depth, h).value.1 == last;
      SiblingsRestore(u, plies, i + 1, d, h);
      EquivTransitive(last, u, g);
    }
  }

  /** A game equivalent to a well-formed, unfinished one is both. */
  lemma EquivStep(g: Game, u: Game)
    requires GameWF(g) && !g.gameOver && Equiv(u, g)
    ensures GameWF(u) && !u.gameOver
  {
    EquivWellFormed(u, g);
  }

  lemma {:induction false} VisitRestores(g: Game, ply: Ply, depth: nat, h: Game -> seq<real>)
    requires GameWF(g) && !g.gameOver && Visit(g, ply, depth, h).Ok?
    ensures Equiv(Visit(g, ply, depth, h).value.1, g)
    decreases depth, 0, 2
  {
    if MakeMove(g, ply).value.gameOver || depth == 0 {
      ShallowVisitRestores(g, ply, depth, h);
    } else {
      var d: nat :| d + 1 == depth;
      VisitArg(g, ply, depth, d, h);
      DeepVisitRestores(g, ply, d, h);
    }
  }

  /** The depth written as a successor names the same visit. */
  lemma VisitArg(g: Game, ply: Ply, depth: nat, d: nat, h: Game -> seq<real>)
    requires Shape(g) && depth == d + 1
    ensures Visit(g, ply, depth, h) == Visit(g, ply, d + 1, h)
  {
  }

  /** The case of `VisitRestores` that evaluates the game after the ply. */
  lemma ShallowVisitRestores(g: Game, ply: Ply, depth: nat, h: Game -> seq<real>)
    requires GameWF(g) && !g.gameOver && Visit(g, ply, depth, h).Ok?
    requires MakeMove(g, ply).value.gameOver || depth == 0
    ensures Equiv(Visit(g, ply, depth, h).value.1, g)
  {
    VisitUnmakes(g, ply, depth, h);
    MakeStep(g, ply);
  }

  /** The case of `VisitRestores` that searches one level down. */
  lemma {:induction false} DeepVisitRestores(g: Game, ply: Ply, d: nat, h: Game -> seq<real>)
    requires GameWF(g) && !g.gameOver && Visit(g, ply, d + 1, h).Ok? && !MakeMove(g, ply).value.gameOver
    ensures Equiv(Visit(g, ply, d + 1, h).value.1, g)
    decreases d + 1, 0, 1
  {
    var m, u := DeepVisitUnmakes(g, ply, d, h);
    SearchedRestores(g, ply, d, h, m, u);
  }

  /** Making a ply, searching below it and unmaking it gives back an
      equivalent game: the search restored the game after the ply, and
      unmaking equivalent games gives equivalent games. */
  lemma {:induction false} SearchedRestores(g: Game, ply: Ply, d: nat, h: Game -> seq<real>, m: Game, u: Game)
    requires GameWF(g) && !g.gameOver && MakeMove(g, ply) == Ok(m) && !m.gameOver
    requires TreeSearch(m, d, h).Ok? && UnmakeMove(TreeSearch(m, d, h).value.2) == Ok(u)
    ensures Equiv(u, g)
    decreases d + 1, 0, 0
  {
    var s := TreeSearch(m, d, h).value.2;
    var um := MakeStepTo(g, ply, m);
    TreeSearchRestores(m, d, h);
    UnmakeEquivTo(s, m, u, um);
    EquivTransitive(u, um, g);
  }

  /** `UnmakeEquiv` with both results named. */
  lemma UnmakeEquivTo(a: Game, b: Game, ua: Game, ub: Game)
    requires Shape(a) && Shape(b) && Equiv(a, b) && UnmakeMove(a) == Ok(ua) && UnmakeMove(b) == Ok(ub)
    ensures Equiv(ua, ub)
  {
    UnmakeEquiv(a, b);
  }

  /** `MakeStep` with the game after the ply named. */
  lemma MakeStepTo(g: Game, ply: Ply, m: Game) returns (um: Game)
    requires GameWF(g) && !g.gameOver && MakeMove(g, ply) == Ok(m)
    ensures GameWF(m) && UnmakeMove(m) == Ok(um) && Equiv(um, g)
  {
    MakeStep(g, ply);
    um := UnmakeMove(m).value;
  }

  /** `VisitUnmakes` for a visit that searches one level down, with the
      game after the ply and the game the visit leaves named. */
  lemma DeepVisitUnmakes(g: Game, ply: Ply, d: nat, h: Game -> seq<real>) returns (m: Game, u: Game)
    requires Shape(g) && Visit(g, ply, d + 1, h).Ok? && !MakeMove(g, ply).value.gameOver
    ensures MakeMove(g, ply) == Ok(m) && !m.gameOver && u == Visit(g, ply, d + 1, h).value.1
    ensures TreeSearch(m, d, h).Ok? && UnmakeMove(TreeSearch(m, d, h).value.2) == Ok(u)
  {
    VisitUnmakes(g, ply, d + 1, h);
    m, u := MakeMove(g, ply).value, Visit(g, ply, d + 1, h).value.1;
  }

  /** The game a visit leaves is the unmake of the game after the ply, or of
      the game the deeper search left. */
  lemma VisitUnmakes(g: Game, ply: Ply, depth: nat, h: Game -> seq<real>)
    requires Shape(g) && Visit(g, ply, depth, h).Ok?
    ensures var m := MakeMove(g, ply).value;
      && Shape(m)
      && (m.gameOver || depth == 0 ==> Visit(g, ply, depth, h).value.1 == UnmakeMove(m).value)
      && (!m.gameOver && depth != 0 ==>
            TreeSearch(m, depth - 1, h).Ok? && UnmakeMove(TreeSearch(m, depth - 1, h).value.2).Ok? &&
            Visit(g, ply, depth, h).value.1 == UnmakeMove(TreeSearch(m, depth - 1, h).value.2).value)
  {
  }

  /** A move from a well-formed, unfinished game keeps the invariant, and
      unmaking it right away gives back an equivalent game. */
  lemma MakeStep(g: Game, ply: Ply)
    requires GameWF(g) && !g.gameOver && MakeMove(g, ply).Ok?
    ensures GameWF(MakeMove(g, ply).value)
    ensures UnmakeMove(MakeMove(g, ply).value).Ok? && Equiv(UnmakeMove(MakeMove(g, ply).value).value, g)
  {
    MakeMoveWellFormed(g, ply);
    MakeUnmakeEquiv(g, ply);
  }
}
